=== FILE: README.md ===
# MediaWiki code search front-end, modelled in Dafny

This project models the front-end of MediaWiki code search (labs/codesearch).
A Hound backend answers searches with JSON. The front-end turns those answers
into pages, in three places:

- the server-side PHP page controller (`Model.php`, `Codesearch.php`);
- the in-browser renderer (`view.js`) and the repository selector (`codesearch.js`);
- the older Rust/WebAssembly client (`codesearch.rs`, `view.rs`, `lib.rs`).

The model covers:

- **The match-flattening fold.** `flatten` turns Hound's match blocks of one
  file into a line-number-keyed ordered map. `u32` wrap-around is modelled.
- **Permalinks.** Both renderers fill a permalink template. Rust's
  `str::replace` replaces every occurrence; JavaScript's `String.replace`
  with a string pattern replaces only the first.
- **Ranked repository order.** Both renderers sort by file count
  descending, then by name.
- **The default results view.** Each repository gets a section with a
  "load more" button when the backend reported more files than it returned.
  A repository missing from the configuration makes Rust panic and
  JavaScript throw.
- **The Phabricator checklist text.** Rust sorts the blocks; JavaScript
  keeps entry order and terminates every line.
- **The repository-selector dropdown.** Selected options come first, then
  the unselected suggestions.
- **The Rust client's state machine.** This covers `init`, `update`,
  `to_url` and the URL parsing.
- **The PHP backend helpers.** These are the backend labels, the search API
  query, and the cached repository configuration with its hit and miss
  counters.
- **The PHP request handling.** This covers:
  - normalising GET parameters;
  - the canonical query string;
  - the backend navigation;
  - the 301 / 404 / 404 / 501 / 200 ladder;
  - the repository list;
  - the search page data: the selected repositories, the API request URL
    as the code builds it (without the excluded-files filter, see
    "## Findings") and the selected-repository count.
- **The client-side repository selector state.** This covers parsing, check
  and uncheck, the label, the hidden field value and open/close.

Modules:

- `Wrappers`: `Option` and `Result`.
- `Strings`: find and replace, split, join, trim, decimal text.
- `Order`: string order and sorting.
- `OrderedMap`: `BTreeMap` as an ascending entry list.
- `Template`: permalink templates as literal text and placeholder holes.
- `Codesearch`: Hound types, backends, search parameters.
- `Flattening`: `flatten`.
- `Ranking`: the repository order shared by both renderers.
- `RustView`, `JsView`: the two renderers.
- `Client`: `lib.rs`.
- `Backend`: `Codesearch.php`.
- `Server`: `Model.php`.
- `RepoSelect`: `codesearch.js`.

Hash-map and JSON-object iteration order is a parameter: a sequence of entries
with distinct names. Every view is proved not to depend on it where the source
sorts.

Two behaviours of the code worth knowing:

- "After" context lines overwrite earlier lines, including match lines;
  this is `Flattening.LaterAfterContextDemotesMatch`.
- The PHP search page always requests `rng=:20`; further pages are
  fetched by the browser.

## Model

| member | source | states |
|---|---|---|
| Codesearch.IsValidBackend | frontend/src/codesearch.rs:92-100 | a profile is valid exactly when some entry of the backend list has that id |
| Codesearch.QueryParamsCarry | frontend/src/codesearch.rs:115-136 | a search request carries `stats=fosho`, the repositories or `*`, `rng` of `20:` exactly when a repository is named (else `:20`), the query, the file filter and `i` as `fosho`/`nope` |
| Codesearch.QueryParamsRoundTrip | frontend/src/codesearch.rs:111-136 | reading the request parameters back yields the search options that produced them |
| OrderedMap.Insert | frontend/src/codesearch.rs:238-242 | inserting into the ordered map keeps keys strictly ascending and maps the key to the new value, leaving other keys as they were |
| OrderedMap.ContainsKey | frontend/src/codesearch.rs:191 | the key test agrees with membership in the associative view |
| Flattening.WrappingSub | frontend/src/codesearch.rs:191-206 | `line_number - k` wraps modulo 2^32 as an unchecked `u32` subtraction |
| Flattening.WrappingAdd | frontend/src/codesearch.rs:213-232 | `line_number + k` wraps modulo 2^32 |
| Flattening.OffsetsDistinct | frontend/src/codesearch.rs:179-232 | the five positions n-2..n+2 written for one match are pairwise distinct even across wrap-around |
| Flattening.Flatten | frontend/src/codesearch.rs:175-236 | the file keeps its name, lists line numbers strictly ascending, is empty without matches, and holds exactly the lines the matches write, placed as the code places them |
| Flattening.FlattenAligned | frontend/src/codesearch.rs:189-212 | the corrected fold, placing the last before line at n-1, has the same shape guarantees |
| Flattening.FlattenKeys | frontend/src/codesearch.rs:177-233 | a line number is present exactly when some match writes to it |
| Flattening.MatchLinesPresent | frontend/src/codesearch.rs:179-185 | every match's own line is present |
| Flattening.HighlightIsLastMatchWrite | frontend/src/codesearch.rs:179-232 | a line is highlighted exactly when some match claims it and no later match writes after-context over it |
| Flattening.BeforeNeverReplaces | frontend/src/codesearch.rs:189-212 | a before-context write never replaces an existing line |
| Flattening.MatchAndAfterOverwrite | frontend/src/codesearch.rs:179-232 | the match line and after-context lines replace whatever was there |
| Flattening.LaterAfterContextDemotesMatch | frontend/src/codesearch.rs:213-232 | a match line is shown plain when a later match's after-context lands on it |
| Flattening.AlignedIsTrueToSource | frontend/src/codesearch.rs:189-212 | with the corrected placement every displayed line carries the text of that line of the searched file |
| Flattening.AsWrittenMisplacesSingleBeforeLine | frontend/src/codesearch.rs:189-200 | as written, a single before line lands at n-2 (line 0 for a match on line 2) and line n-1 is missing |
| Flattening.AgreeWithFullContext | frontend/src/codesearch.rs:189-212 | with zero or two before lines everywhere, the code and the corrected placement agree |
| Ranking.Rank | frontend/src/view.rs:246-259 | the display order is a permutation of the results in which no repository precedes one with more files, or as many files and a smaller name |
| Ranking.RustCompareDecidesAhead | frontend/src/view.rs:248-259 | the Rust comparator answers `Less` exactly for the repository ranked first, and `Equal` only for equal name and count |
| Ranking.RustSortIsRank | frontend/src/view.rs:246-259 | whatever `sort_unstable_by` does, a permutation the comparator never finds out of order is the ranked list |
| Ranking.JsCompareDecidesAhead | frontend/static/view.js:182-188 | on different names the JavaScript comparator is negative exactly for the repository ranked first |
| Ranking.JsCompareSelfIsLess | frontend/static/view.js:182-188 | the JavaScript comparator is not reflexive: an entry compares below itself |
| Ranking.JsSortIsRank | frontend/static/view.js:179-188 | with distinct names, a permutation the JavaScript comparator never finds out of order is the ranked list |
| Ranking.RankIgnoresIterationOrder | frontend/src/view.rs:245-259 | the display order does not depend on the hash map's iteration order |
| Strings.ReplaceAllIsSplitJoin | frontend/src/view.rs:181-189 | replacing every occurrence equals splitting at the pattern and joining with the replacement |
| Strings.ReplaceAllIsReplaceFirstWhenUnique | frontend/static/view.js:32-40 | on text with at most one occurrence, first-only and every-occurrence replacement agree |
| Template.ReplaceAllFills | frontend/src/view.rs:184-189 | replacing every occurrence of a placeholder fills every hole of a well-formed template |
| Template.ReplaceFirstFillsFirst | frontend/static/view.js:36-40 | replacing the first occurrence fills exactly the first hole |
| Template.FillFirstIsNotFillWhenRepeated | frontend/static/view.js:36-40 | with a placeholder repeated, filling the first hole differs from filling all |
| Template.AbsentHoleUntouched | frontend/static/view.js:36-40 | a placeholder with no hole leaves the rendered template unchanged under either replacement |
| RustView.Anchor | frontend/src/view.rs:177-183 | without a line number the anchor is empty; with one, every `{line}` of the anchor template is replaced |
| RustView.BuildUrl | frontend/src/view.rs:171-190 | the permalink is the base template with `{url}`, `{rev}`, `{path}`, `{anchor}` substituted everywhere, in that order |
| RustView.AnchorFillsLine | frontend/src/view.rs:177-183 | the anchor fills every `{line}` hole with the decimal line number |
| RustView.BuildUrlFillsTemplate | frontend/src/view.rs:184-189 | with brace-free inputs, the permalink fills every hole of each placeholder |
| RustView.BuildUrlWithoutPlaceholders | frontend/src/view.rs:184-189 | a template without braces is the permalink unchanged |
| RustView.InsertedPlaceholderIsReplaced | frontend/src/view.rs:184-189 | substitution is staged: a repository URL reading `{rev}` becomes the revision |
| RustView.LineLabelReadsBack | frontend/src/view.rs:304-306 | the padded line label, trimmed, is the decimal text of the line number |
| RustView.LineLabelAligned | frontend/src/view.rs:304-306 | labels of line numbers below 10000 are all four columns wide |
| RustView.LineViews | frontend/src/view.rs:291-316 | one rendered line per flattened line, in order, with its number, anchored permalink, text and highlight |
| RustView.RenderCard | frontend/src/view.rs:276-287 | a card shows the file name and links to the file without an anchor |
| RustView.RenderCardShowsLines | frontend/src/view.rs:288-317 | a card's lines ascend and are exactly the flattened lines with their text and highlight |
| RustView.RenderSection | frontend/src/view.rs:264-329 | a section has one card per file in result order, and a "Load all N matches in R" button exactly when more files exist |
| RustView.AllConfiguredPermutation | frontend/src/view.rs:264-266 | whether every repository is configured does not depend on the order |
| RustView.ViewDefault | frontend/src/view.rs:241-354 | the page exists exactly when every repository is configured; sections and side list follow the ranked order |
| RustView.ViewDefaultIgnoresIterationOrder | frontend/src/view.rs:241-259 | the default page does not depend on the hash map's iteration order |
| RustView.PhabLines | frontend/src/view.rs:217-233 | a block is the `[ ] repo (N files)` header followed by one line per file in result order |
| RustView.PhabBlockLines | frontend/src/view.rs:234 | without line breaks inside, a block splits back into its header and file lines |
| RustView.PhabBlocks | frontend/src/view.rs:215-236 | there is one block per repository, in iteration order |
| RustView.ViewPhabricator | frontend/src/view.rs:211-239 | the text exists exactly when all repositories are configured, and is the sorted blocks joined by line breaks |
| RustView.PhabBlocksPermutation | frontend/src/view.rs:215-236 | permuting the repositories permutes the blocks |
| RustView.ViewPhabricatorIgnoresIterationOrder | frontend/src/view.rs:237-238 | thanks to the sort, the checklist does not depend on iteration order |
| RustView.ViewResponse | frontend/src/view.rs:192-209 | no results is a notice whatever the format; otherwise "Default" and "Phabricator" pick the view, and an unknown format or a missing configuration panics |
| JsView.JsAnchorFillsFirstLine | frontend/static/view.js:31-34 | the JavaScript anchor fills only the first `{line}` hole |
| JsView.FormatUrlFillsFirst | frontend/static/view.js:30-41 | `formatUrl` fills only the first hole of each placeholder |
| JsView.FormatUrlAgreesWithBuildUrl | frontend/static/view.js:30-41 | when each placeholder occurs at most once, the JavaScript and Rust permalinks are equal |
| JsView.RepeatedPlaceholderDiverges | frontend/static/view.js:36-40 | on the template `{path}{path}` the two permalinks differ |
| JsView.JsSectionOf | frontend/static/view.js:192-235 | a section links each file in result order, with a "Load all" button exactly when more files exist |
| JsView.FirstMissing | frontend/static/view.js:192-197 | finds the first ranked repository without metadata at or after a position, or reports there is none |
| JsView.JsBuildOutcome | frontend/static/view.js:190-197 | building fails on the first repository without metadata and otherwise yields the whole page |
| JsView.JsViewDefaultThrows | frontend/static/view.js:179-197 | the build throws exactly when some repository lacks metadata, with "Missing repo metadata for " and the first such repository in ranked order |
| JsView.JsViewDefaultBuilds | frontend/static/view.js:179-249 | a successful build shows every repository in ranked order, in sections and side list |
| JsView.DefaultViewsAgree | frontend/static/view.js:179-249 | the JavaScript and Rust default views fail on the same inputs and otherwise agree on repositories, their order, the file names of each section in order, and the buttons |
| JsView.JsEntryLines | frontend/static/view.js:114-122 | a repository's lines fail exactly when it has files but no metadata; otherwise they are a header and one line per file |
| JsView.CollectFails | frontend/static/view.js:114 | collecting lines over repositories fails exactly when one repository fails |
| JsView.CollectAppend | frontend/static/view.js:114 | collecting over two runs of repositories is collecting the first, then the second |
| JsView.JsPhabricatorFails | frontend/static/view.js:114-123 | the checklist fails exactly when some repository with files lacks metadata |
| JsView.ConcatTerminated | frontend/static/view.js:116-120 | writing each line followed by a line break equals joining with line breaks plus a final one |
| JsView.JsPhabricatorReadsBack | frontend/static/view.js:103-124 | without line breaks inside lines, the checklist splits back into its lines and a final empty line |
| JsView.JsPhabricatorInEntryOrder | frontend/static/view.js:114-123 | the checklist follows entry order: the text for `a + b` is that of `a`, then that of `b` |
| JsView.JsEntryLinesMatchRust | frontend/static/view.js:114-122 | with agreeing permalinks a repository's JavaScript lines are the Rust checklist block's lines |
| JsView.Suggestions | frontend/static/view.js:270 | the selector asks for at most 20 suggestions, the best-ranked ones |
| JsView.UnselectedMembers | frontend/static/view.js:278-282 | an id is offered unchecked exactly when it is suggested and not selected |
| JsView.BuildRepoSelector | frontend/static/view.js:269-284 | selected ids come first, checked, then the unselected suggestions, unchecked, numbered consecutively from 1 |
| Client.FromUrl | frontend/src/lib.rs:48-69 | options come from the URL's parameters: missing ones give empty text, the case flag is set only by `fosho`, no repository is named |
| Client.FromUrlReadsFirst | frontend/src/lib.rs:50-61 | each option reads the first parameter of its name |
| Client.ToUrl | frontend/src/lib.rs:83-100 | the URL path is the profile, and parameters appear only for a non-empty query |
| Client.ToUrlRoundTrip | frontend/src/lib.rs:83-100 | re-reading a model's own URL recovers its query, files and case flag |
| Client.ToUrlEmptyQuery | frontend/src/lib.rs:89-90 | without a query the URL carries no parameters, so files and the case flag are lost |
| Client.ProfileOf | frontend/src/lib.rs:23-32 | the profile is the first path part if it is a backend, else "search", and is always a backend |
| Client.Init | frontend/src/lib.rs:22-46 | the initial model is idle with no results or error and the "Default" format; a search is dispatched exactly when the URL has a query |
| Client.InitAtOwnUrl | frontend/src/lib.rs:22-46 | opening the page at a model's own URL restores its profile and search and searches again |
| Client.AppendMatches | frontend/src/lib.rs:233-234 | merging keeps the earlier files in place and appends the new ones; the file count and revision stay |
| Client.UpdatePanicsOnlyOnUnknownRepo | frontend/src/lib.rs:229-236 | `update` panics only on a partial result for a repository missing from the shown results |
| Client.SubmitStartsSearch | frontend/src/lib.rs:126-165 | submitting clears error and results; with a query it starts loading and requests the search with the current options, profile and URL |
| Client.CaseToggleInvolutive | frontend/src/lib.rs:176-181 | toggling the case flag flips it, twice restores the model, and does not re-render |
| Client.AnswersEndLoading | frontend/src/lib.rs:182-190 | results or an error end loading and store what they carry |
| Client.ChangeProfileSearchesOrPushes | frontend/src/lib.rs:191-199 | a backend switch searches again exactly when results are shown, otherwise pushes a URL that reopens on the new backend |
| Client.LoadMoreKeepsModel | frontend/src/lib.rs:203-208 | "load more" leaves the model alone and requests the same search restricted to that repository |
| Client.PartialResultsAppend | frontend/src/lib.rs:229-236 | a partial result extends that repository's file list at the end; all else stays |
| Client.InitConsistent | frontend/src/lib.rs:37-45 | the initial model shows no stale results or error while loading |
| Client.UpdateKeepsConsistent | frontend/src/lib.rs:124-238 | every step keeps "loading implies no results and no error" |
| Client.SearchAnswer | frontend/src/lib.rs:139-164 | the answer is the results exactly when configuration and response succeed without error and with results; a configuration failure is reported first |
| Client.LoadMoreAnswer | frontend/src/lib.rs:209-227 | the answer panics exactly when an error-free response with results lacks the repository; otherwise it is that repository's results or an error |
| Client.LoadMoreRoundTrip | frontend/src/lib.rs:203-236 | loading more for a shown repository and applying the answer never panics |
| Backend.GetBackendLabel | frontend/src/Codesearch.php:65-67 | a backend has a label exactly when it is listed, and the label is the listed one |
| Backend.DefaultBackendKnown | frontend/src/Codesearch.php:24-26 | the default backend "search" is labelled "Everything" |
| Backend.DropNullsMembers | frontend/src/Codesearch.php:93 | `http_build_query` keeps exactly the parameters whose value is not null |
| Backend.DropNullsKeepsOrder | frontend/src/Codesearch.php:93 | the kept parameters stay in order |
| Backend.ApiQuery | frontend/src/Codesearch.php:81-94 | the corrected query's names follow the order q, i, files, excludeFiles, repos, stats, rng |
| Backend.ApiQueryCarries | frontend/src/Codesearch.php:82-92 | the corrected request, reading the filter from `excludeFiles`, carries query, files and exclusion as given, `i=fosho` only when case-insensitive, repositories or `*` when PHP-false, `stats=fosho` and `rng=:20` |
| Backend.ApiQueryAsWrittenCarries | frontend/src/Codesearch.php:81-94 | the request as written carries query and files as given, `i=fosho` only when case-insensitive, the repositories or `*` when PHP-false, `stats=fosho`, `rng=:20`, and under `excludeFiles` whatever the `excludeFilePath` field holds |
| Backend.ExclusionLostAsWritten | frontend/src/Codesearch.php:86 | reading `excludeFilePath`, the request never carries an exclusion filter when the caller names the field `excludeFiles` |
| Backend.StripRepo | frontend/src/Codesearch.php:109-114 | only `url` and `url-pattern` of a repository are kept |
| Backend.Strip | frontend/src/Codesearch.php:108-114 | stripping keeps the repositories and their order |
| Backend.Cached | frontend/src/Codesearch.php:97-100 | a hit is never an empty configuration |
| Backend.CacheHit | frontend/src/Codesearch.php:99-101 | a hit returns the stored configuration and counts one hit without fetching |
| Backend.CacheMiss | frontend/src/Codesearch.php:102-119 | a miss returns the stripped fetched configuration; it is stored and counted as a miss only with APCu |
| Backend.CacheMissFailure | frontend/src/Codesearch.php:103-107 | a miss fails exactly on a failed fetch, an undecodable body (which includes a non-array one) or an empty configuration |
| Backend.MissThenHit | frontend/src/Codesearch.php:96-122 | with APCu, a miss is followed by a hit on the same configuration |
| Server.SetGetParams | frontend/src/Model.php:44-88 | a present action, file filter or exclusion is taken as given and a present query or repository list is taken trimmed; missing parameters default to "search" and empty text; the case flag is set only by `fosho` |
| Server.CanonicalEntries | frontend/src/Model.php:95-100 | the canonical query names q, i, files, excludeFiles, in that order |
| Server.CanonicalEmpty | frontend/src/Model.php:95-102 | the canonical query string is empty exactly when no query, case flag, file filter or exclusion is set |
| Server.CanonicalGet | frontend/src/Model.php:95-100 | read back as GET parameters, the canonical query holds exactly the set fields with their values |
| Server.CanonicalOmits | frontend/src/Model.php:94-100 | the canonical query never names the action or the repositories |
| Server.CanonicalRoundTrip | frontend/src/Model.php:44-102 | normalising the canonical query again restores the search, with the default action and no repositories |
| Server.NavOverItems | frontend/src/Model.php:112-122 | the navigation lists every visible backend and no hidden one, links each under the canonical query, and marks exactly the current one active |
| Server.Intersect | frontend/src/Model.php:171-172 | the selection holds exactly the given names that are configured |
| Server.IntersectCounts | frontend/src/Model.php:171-172 | a configured name is kept as often as it was given, and the kept names stay in the given order; an unconfigured one is dropped |
| Server.ExecuteLadder | frontend/src/Model.php:104-169 | 301 exactly without a backend; 404 for an unknown backend or action; 501 when the configuration is unavailable; 200 otherwise; the cache changes only on 200 |
| Server.RedirectKeepsQuery | frontend/src/Model.php:104-110 | the redirect goes to `/search/` with the canonical query |
| Server.UnknownBackendFirst | frontend/src/Model.php:124-134 | an unknown backend is reported by name before the action is checked |
| Server.SearchPageFacts | frontend/src/Model.php:171-209 | the API request exists exactly for a non-empty query; the count is shown only when repositories are selected and reads back as their number; selected repositories are configured |
| Server.ExclusionDropped | frontend/src/Model.php:171-186 | the search page's API request carries the query, the case flag, the file filter and the selected repositories (or `*`), but no exclusion filter, since the page stores it under `excludeFiles`; the corrected request would carry it |
| RepoSelect.TokensMembers | frontend/static/codesearch.js:65-67 | the parsed names are exactly the non-empty trimmed comma-separated pieces |
| RepoSelect.Dedupe | frontend/static/codesearch.js:65-67 | the `Set` holds each name once, and exactly the given names |
| RepoSelect.Initial | frontend/static/codesearch.js:63-67 | the selector starts closed, holding each non-empty trimmed name of the field once |
| RepoSelect.Remove | frontend/static/codesearch.js:101 | deleting removes exactly that name and keeps the others unique |
| RepoSelect.Change | frontend/static/codesearch.js:96-104 | a box change puts its name in the selection exactly when checked, leaves other names and the open state alone |
| RepoSelect.CheckThenClear | frontend/static/codesearch.js:96-104 | checking a new box and clearing it restores the selection |
| RepoSelect.LabelShowsCount | frontend/static/codesearch.js:82-84 | the label is "Select repos" exactly when nothing is selected; otherwise its count reads back as the selection size |
| RepoSelect.HiddenIgnoresOrder | frontend/static/codesearch.js:86 | the hidden field value does not depend on the order boxes were checked |
| RepoSelect.HiddenReadsBack | frontend/static/codesearch.js:65-86 | parsing the hidden field value back gives the selection in sorted order |
| RepoSelect.Options | frontend/static/codesearch.js:88 | the options are the configured repository names, sorted |
| RepoSelect.OnInput | frontend/static/codesearch.js:90-95 | typing or focusing opens the dropdown and keeps the selection |
| RepoSelect.OnKey | frontend/static/codesearch.js:110-114 | Escape closes an open dropdown; other keys change nothing |
| RepoSelect.OnDocumentTarget | frontend/static/codesearch.js:115-119 | a click or focus outside closes an open dropdown; inside it stays |

## Left out

- Network I/O, timers and the DOM are left out. Fetch results, cache contents and fetched configurations are parameters.
- Percent-encoding of query strings (`http_build_query`, `UrlSearch`) is left out. Queries are kept as (name, value) pairs.
- `$` replacement patterns in JavaScript's `String.replace` are not modelled. Replacement text is inserted literally.
- JavaScript's `Object.entries` puts integer-like keys first. This is not modelled; entry order is an input.
- JavaScript compares strings by UTF-16 code unit; the model compares by code point. These differ only above U+FFFF.
- `fuzzyFilter` scoring is not modelled. Its ranked candidates are an input, cut to the limit of 20.
- `highlightLine` (regular-expression highlighting) is not modelled. Neither is `util.js`'s `flattenMatchesToLines`, whose source is not part of this model.
- `parse_url`/`setURL` are left out. The backend is an input to the request handling.
- `$_GET` array values are left out. Every parameter is a string.
- The APCu time-to-live is left out. The cache keeps entries until replaced.
- `getApcuStats`, the JSON `jsData` blob and the `doctitle` of error pages are left out.
- Backend.GetCachedConfig: a body that decodes to a PHP-true value that is not an array (such as `5` or a string) passes the emptiness check and then ends in an uncaught `TypeError` from the `array` return type; the model folds it into `Undecodable`, which gives the 501 page.
- `fetchUrl` can also fail with a plain `Exception`, which `execute` does not catch. It is not modelled; every fetch failure is `ApiUnavailable`.
- The heading, form and result-format radio markup of `view.rs` and `view.js` are not modelled.
- `buildFormatNav` statistics and the "load more" click handler in `codesearch.js` are left out; they are DOM updates only.
- Flattening.WrappingSub: `u32` line arithmetic is modelled as in a release build, which wraps around; a debug build panics on `line_number - 2` instead. The case does not arise when Hound numbers lines from 1, since a match on line 1 has no before lines and one on line 2 has at most one.
- JsView.DefaultViewsAgree: compares file names, not file links; the links agree only when each placeholder occurs at most once, which JsView.FormatUrlAgreesWithBuildUrl states.
- Client.ToUrl: the path part is the profile itself; the trailing slash of `format!("{}/", profile)` is not modelled.
- Backend.FormatApiQueryUrl: the URL is the endpoint and the parameter pairs, not the encoded string.

## Findings

| source | as written | input that shows it | evidently intended | confidence | as-written member | corrected member |
|---|---|---|---|---|---|---|
| frontend/src/codesearch.rs:189-212 | `before[0]` goes to n-2 whenever there is a before line, so a single before line lands two lines up | a match on line 2 with `before = ["a"]` (the file starts at line 1): "a" is shown as line 0 and line 1 is missing | the last before line goes to n-1, the one before it to n-2 | high; not executed | Flattening.AsWrittenMisplacesSingleBeforeLine | Flattening.AlignedIsTrueToSource |
| frontend/src/Codesearch.php:86 | `formatApiQueryUrl` reads `$fields['excludeFilePath']`, but `Model.php` (line 179) stores the filter under `excludeFiles` | any search with `excludeFiles=foo`: the API request carries no `excludeFiles` parameter | the filter is read from `excludeFiles` and sent to the backend | high; not executed | Backend.ExclusionLostAsWritten | Backend.ApiQueryCarries |

=== FILE: backend.dfy ===
/**
 * The server's view of the search backends (frontend/src/Codesearch.php):
 * the backend labels, the query string of a search API request, and the
 * repository configuration behind a cache. The cache (APCu) is a map
 * that may be missing; the configuration fetch is an input.
 */
module Backend {
  import opened Wrappers
  import opened Strings
  import opened Codesearch

  /** `Codesearch::BACKEND_DEFAULT`. */
  const BACKEND_DEFAULT: string := "search"

  /** `Codesearch::BACKENDS`: (id, label) in declaration order. */
  const BackendLabels: seq<(string, string)> := [
    ("search", "Everything"),
    ("core", "MediaWiki core"),
    ("extensions", "Extensions"),
    ("skins", "Skins"),
    ("things", "MW extensions & skins"),
    ("bundled", "MW tarball"),
    ("libraries", "MW libraries"),
    ("deployed", "MediaWiki & services at WMF"),
    ("operations", "Wikimedia SRE"),
    ("puppet", "Puppet"),
    ("ooui", "OOUI"),
    ("milkshake", "Milkshake"),
    ("pywikibot", "Pywikibot"),
    ("services", "Wikimedia Services"),
    ("devtools", "CI & Development"),
    ("analytics", "Data Engineering"),
    ("wmcs", "Wikimedia Cloud Services"),
    ("armchairgm", "ArmchairGM"),
    ("shouthow", "ShoutHow")
  ]

  /** `Codesearch::BACKENDS_HIDDEN`: backends left out of the navigation. */
  const HiddenBackends: set<string> := {"armchairgm", "extensions", "milkshake", "ooui", "services", "shouthow", "skins"}

  /** The label of the first entry of `list` with id `b`. */
  function LabelIn(list: seq<(string, string)>, b: string): (r: Option<string>)
    ensures r.Some? <==> exists i :: 0 <= i < |list| && list[i].0 == b
    ensures r.Some? ==> exists i :: 0 <= i < |list| && list[i] == (b, r.value)
  {
    if |list| == 0 then None
    else if list[0].0 == b then Some(list[0].1)
    else
      assert forall i :: 1 <= i < |list| ==> list[i] == list[1..][i - 1];
      LabelIn(list[1..], b)
  }

  /** `getBackendLabel`: the label of a known backend, `null` for any other name. */
  function GetBackendLabel(b: string): (r: Option<string>)
    ensures r.Some? <==> exists i :: 0 <= i < |BackendLabels| && BackendLabels[i].0 == b
    ensures r.Some? ==> exists i :: 0 <= i < |BackendLabels| && BackendLabels[i] == (b, r.value)
  {
    LabelIn(BackendLabels, b)
  }

  /** The default backend has a label. */
  lemma DefaultBackendKnown()
    ensures GetBackendLabel(BACKEND_DEFAULT) == Some("Everything")
  {
  }

  /** A value of a PHP array as the API request reads it. */
  datatype Field = Str(str: string) | Flag(flag: bool)

  /** PHP truthiness of a possibly missing field: `null`, `false`, "" and "0" are false. */
  predicate Truthy(v: Option<Field>) {
    match v
    case None => false
    case Some(Flag(b)) => b
    case Some(Str(s)) => s != "" && s != "0"
  }

  /** How `http_build_query` writes a field; a missing key reads as `null`, which it drops. */
  function FieldText(v: Option<Field>): Option<string> {
    match v
    case None => None
    case Some(Str(s)) => Some(s)
    case Some(Flag(b)) => Some(if b then "1" else "0")
  }

  /** The array entry under `k`, or `null`. */
  function Get(fields: map<string, Field>, k: string): Option<Field> {
    if k in fields then Some(fields[k]) else None
  }

  /** The parameters with a `null` value are left out; the others keep their order. */
  function DropNulls(s: seq<(string, Option<string>)>): (r: seq<(string, string)>)
    ensures |r| <= |s|
  {
    if |s| == 0 then []
    else (if s[0].1.Some? then [(s[0].0, s[0].1.value)] else []) + DropNulls(s[1..])
  }

  /** A parameter survives exactly when its value is not `null`. */
  lemma {:induction false} DropNullsMembers(s: seq<(string, Option<string>)>)
    ensures forall x :: x in DropNulls(s) ==> (x.0, Some(x.1)) in s
    ensures forall y :: y in s && y.1.Some? ==> (y.0, y.1.value) in DropNulls(s)
  {
    if |s| > 0 {
      DropNullsMembers(s[1..]);
      var head := if s[0].1.Some? then [(s[0].0, s[0].1.value)] else [];
      assert DropNulls(s) == head + DropNulls(s[1..]);
      assert forall y :: y in s ==> y == s[0] || y in s[1..];
    }
  }

  /** Looking up a name held by one parameter only gives its value, and nothing when it was `null`. */
  lemma DropNullsLookup(s: seq<(string, Option<string>)>, k: string, j: nat)
    requires j < |s| && s[j].0 == k
    requires forall l :: 0 <= l < |s| && s[l].0 == k ==> l == j
    ensures Lookup(DropNulls(s), k) == s[j].1
  {
    var r := DropNulls(s);
    DropNullsMembers(s);
    LookupFinds(r, k);
    if Lookup(r, k).Some? {
      var i :| 0 <= i < |r| && r[i] == (k, Lookup(r, k).value);
      assert r[i] in r;
      var l :| 0 <= l < |s| && s[l] == (k, Some(Lookup(r, k).value));
    }
    if s[j].1.Some? {
      assert s[j] in s;
      assert (k, s[j].1.value) in r;
    }
  }

  /** The names of a parameter list, in order. */
  function Names<V>(s: seq<(string, V)>): (r: seq<string>)
    ensures |r| == |s|
    ensures forall i :: 0 <= i < |s| ==> r[i] == s[i].0
  {
    seq(|s|, i requires 0 <= i < |s| => s[i].0)
  }

  /** `a` is `b` with some elements left out. */
  predicate Subsequence<T(==)>(a: seq<T>, b: seq<T>)
    decreases |b|
  {
    if |a| == 0 then true
    else if |b| == 0 then false
    else if a[0] == b[0] then Subsequence(a[1..], b[1..])
    else Subsequence(a, b[1..])
  }

  /** Dropping `null` parameters keeps the names in their order. */
  lemma {:induction false} DropNullsKeepsOrder(s: seq<(string, Option<string>)>)
    ensures Subsequence(Names(DropNulls(s)), Names(s))
  {
    if |s| > 0 {
      DropNullsKeepsOrder(s[1..]);
      var rest := Names(DropNulls(s[1..]));
      assert Names(s)[1..] == Names(s[1..]);
      if s[0].1.Some? {
        assert DropNulls(s) == [(s[0].0, s[0].1.value)] + DropNulls(s[1..]);
        assert Names(DropNulls(s))[1..] == rest;
      } else {
        assert DropNulls(s) == DropNulls(s[1..]);
        SubsequenceSkip(rest, Names(s));
      }
    }
  }

  /** A subsequence of the tail is a subsequence of the whole. */
  lemma {:induction false} SubsequenceSkip<T>(a: seq<T>, b: seq<T>)
    requires |b| > 0 && Subsequence(a, b[1..])
    ensures Subsequence(a, b)
    decreases |b|, |a|
  {
    if |a| > 0 && a[0] == b[0] {
      SubsequenceOfTail(a, b[1..]);
    }
  }

  /** Dropping the first element keeps a subsequence a subsequence. */
  lemma {:induction false} SubsequenceOfTail<T>(a: seq<T>, b: seq<T>)
    requires |a| > 0 && Subsequence(a, b)
    ensures Subsequence(a[1..], b)
    decreases |b|, |a|
  {
    if a[0] == b[0] {
      SubsequenceSkip(a[1..], b);
    } else {
      SubsequenceOfTail(a, b[1..]);
      SubsequenceSkip(a[1..], b);
    }
  }

  /** The order in which the request names its parameters. */
  const ApiParamOrder: seq<string> := ["q", "i", "files", "excludeFiles", "repos", "stats", "rng"]

  /**
   * `formatApiQueryUrl`'s parameter list before `null`s are dropped, reading
   * the excluded-files filter from the key `excludeKey`.
   */
  function ApiParamsReading(fields: map<string, Field>, excludeKey: string): (s: seq<(string, Option<string>)>)
    ensures Names(s) == ApiParamOrder
  {
    var s := [
      ("q", FieldText(Get(fields, "query"))),
      ("i", if Truthy(Get(fields, "caseInsensitive")) then Some("fosho") else None),
      ("files", FieldText(Get(fields, "filePath"))),
      ("excludeFiles", FieldText(Get(fields, excludeKey))),
      ("repos", Some(if Truthy(Get(fields, "repos")) then FieldText(Get(fields, "repos")).value else "*")),
      ("stats", Some("fosho")),
      ("rng", Some(":20"))
    ];
    assert Names(s) == ApiParamOrder;
    s
  }

  /** The query string of a search API request, as written: the filter is read from `excludeFilePath`. */
  function ApiQueryAsWritten(fields: map<string, Field>): seq<(string, string)> {
    DropNulls(ApiParamsReading(fields, "excludeFilePath"))
  }

  /** The query string of a search API request, with the filter read from `excludeFiles`, where its caller puts it. */
  function ApiQuery(fields: map<string, Field>): (r: seq<(string, string)>)
    ensures Subsequence(Names(r), ApiParamOrder)
  {
    DropNullsKeepsOrder(ApiParamsReading(fields, "excludeFiles"));
    DropNulls(ApiParamsReading(fields, "excludeFiles"))
  }

  /** The seven parameter names differ pairwise. */
  lemma ApiParamNamesDistinct()
    ensures forall a, b :: 0 <= a < b < |ApiParamOrder| ==> ApiParamOrder[a] != ApiParamOrder[b]
  {
    var o := ApiParamOrder;
    assert o[0][0] == 'q' && o[1][0] == 'i' && o[2][0] == 'f' && o[3][0] == 'e';
    assert o[4][0] == 'r' && o[5][0] == 's' && o[6][0] == 'r' && o[4][1] == 'e' && o[6][1] == 'n';
  }

  /** The value a request carries under the `j`-th name of the parameter order. */
  lemma ApiParamAt(fields: map<string, Field>, excludeKey: string, j: nat)
    requires j < |ApiParamOrder|
    ensures Lookup(DropNulls(ApiParamsReading(fields, excludeKey)), ApiParamOrder[j])
      == ApiParamsReading(fields, excludeKey)[j].1
  {
    var s := ApiParamsReading(fields, excludeKey);
    ApiParamNamesDistinct();
    assert forall l :: 0 <= l < |s| ==> s[l].0 == Names(s)[l];
    DropNullsLookup(s, ApiParamOrder[j], j);
  }

  /**
   * What a request carries: the query and the file filter whenever their
   * fields exist, even empty; "fosho" under `i` only for a case-insensitive
   * search; the repositories, or "*" when that field is PHP-false; and
   * always `stats=fosho` and `rng=:20`.
   */
  lemma ApiQueryCarries(fields: map<string, Field>)
    ensures Lookup(ApiQuery(fields), "q") == FieldText(Get(fields, "query"))
    ensures Lookup(ApiQuery(fields), "i") == if Truthy(Get(fields, "caseInsensitive")) then Some("fosho") else None
    ensures Lookup(ApiQuery(fields), "files") == FieldText(Get(fields, "filePath"))
    ensures Lookup(ApiQuery(fields), "excludeFiles") == FieldText(Get(fields, "excludeFiles"))
    ensures Lookup(ApiQuery(fields), "repos") == Some("*") <==> !Truthy(Get(fields, "repos")) || Get(fields, "repos") == Some(Str("*"))
    ensures Truthy(Get(fields, "repos")) ==> Lookup(ApiQuery(fields), "repos") == FieldText(Get(fields, "repos"))
    ensures Lookup(ApiQuery(fields), "stats") == Some("fosho")
    ensures Lookup(ApiQuery(fields), "rng") == Some(":20")
  {
    var s := ApiParamsReading(fields, "excludeFiles");
    ApiParamAt(fields, "excludeFiles", 0);
    ApiParamAt(fields, "excludeFiles", 1);
    ApiParamAt(fields, "excludeFiles", 2);
    ApiParamAt(fields, "excludeFiles", 3);
    ApiParamAt(fields, "excludeFiles", 4);
    ApiParamAt(fields, "excludeFiles", 5);
    ApiParamAt(fields, "excludeFiles", 6);
    assert "*"[0] != "0"[0];
  }

  /**
   * What the request as written carries: the same as the corrected one,
   * except that the excluded-files filter is read from `excludeFilePath`.
   */
  lemma ApiQueryAsWrittenCarries(fields: map<string, Field>)
    ensures Lookup(ApiQueryAsWritten(fields), "q") == FieldText(Get(fields, "query"))
    ensures Lookup(ApiQueryAsWritten(fields), "i") == if Truthy(Get(fields, "caseInsensitive")) then Some("fosho") else None
    ensures Lookup(ApiQueryAsWritten(fields), "files") == FieldText(Get(fields, "filePath"))
    ensures Lookup(ApiQueryAsWritten(fields), "excludeFiles") == FieldText(Get(fields, "excludeFilePath"))
    ensures Lookup(ApiQueryAsWritten(fields), "repos") == Some(if Truthy(Get(fields, "repos")) then FieldText(Get(fields, "repos")).value else "*")
    ensures Lookup(ApiQueryAsWritten(fields), "stats") == Some("fosho")
    ensures Lookup(ApiQueryAsWritten(fields), "rng") == Some(":20")
  {
    ApiParamAt(fields, "excludeFilePath", 0);
    ApiParamAt(fields, "excludeFilePath", 1);
    ApiParamAt(fields, "excludeFilePath", 2);
    ApiParamAt(fields, "excludeFilePath", 3);
    ApiParamAt(fields, "excludeFilePath", 4);
    ApiParamAt(fields, "excludeFilePath", 5);
    ApiParamAt(fields, "excludeFilePath", 6);
  }

  /** As written, the request never carries the excluded-files filter when its caller names the field `excludeFiles`. */
  lemma ExclusionLostAsWritten(fields: map<string, Field>)
    requires "excludeFilePath" !in fields
    ensures Lookup(ApiQueryAsWritten(fields), "excludeFiles") == None
  {
    ApiParamAt(fields, "excludeFilePath", 3);
  }

  /** The API endpoint of a backend. */
  function ApiBaseUrl(backend: string): string {
    "https://codesearch-backend.wmcloud.org/" + backend + "/api/v1/search"
  }

  /** The repository-configuration endpoint of a backend. */
  function RepoConfigUrl(backend: string): string {
    "https://codesearch-backend.wmcloud.org/" + backend + "/api/v1/repos"
  }

  /** A request URL: the endpoint and its query parameters, before percent-encoding. */
  datatype ApiUrl = ApiUrl(base: string, query: seq<(string, string)>)

  /** `formatApiQueryUrl`, as written: the excluded-files filter is read from `excludeFilePath`. */
  function FormatApiQueryUrl(backend: string, fields: map<string, Field>): (u: ApiUrl)
    ensures u.base == ApiBaseUrl(backend) && u.query == ApiQueryAsWritten(fields)
  {
    ApiUrl(ApiBaseUrl(backend), ApiQueryAsWritten(fields))
  }

  /** A decoded JSON value, as far as the configuration needs one. */
  datatype Json = Null | Bool(b: bool) | Number(n: int) | Text(text: string) | Array(items: seq<Json>) | Object(members: seq<(string, Json)>)

  /** A repository's configuration as served: its JSON object's members by name. */
  type RawRepo = map<string, Json>

  /** What the page keeps of a repository's configuration. */
  datatype RepoConf = RepoConf(url: Json, urlPattern: Json)

  /** A configuration: (repository, settings) in the backend's order, names distinct. */
  type Config<C> = seq<(string, C)>

  /** Keeps `url` and `url-pattern` of a repository; a missing member reads as `null`. */
  function StripRepo(raw: RawRepo): (c: RepoConf)
    ensures "url" in raw ==> c.url == raw["url"]
    ensures "url" !in raw ==> c.url == Null
    ensures "url-pattern" in raw ==> c.urlPattern == raw["url-pattern"]
    ensures "url-pattern" !in raw ==> c.urlPattern == Null
  {
    RepoConf(
      if "url" in raw then raw["url"] else Null,
      if "url-pattern" in raw then raw["url-pattern"] else Null)
  }

  /** Strips every repository, keeping the repositories and their order. */
  function Strip(raw: Config<RawRepo>): (r: Config<RepoConf>)
    ensures |r| == |raw|
    ensures forall i :: 0 <= i < |raw| ==> r[i].0 == raw[i].0 && r[i].1 == StripRepo(raw[i].1)
  {
    seq(|raw|, i requires 0 <= i < |raw| => (raw[i].0, StripRepo(raw[i].1)))
  }

  /** The cache: the stored configurations by key (`None` when APCu is not installed) and the hit and miss counts. */
  datatype Cache = Cache(store: Option<map<string, Config<RepoConf>>>, hits: nat, misses: nat)

  /** The cache key of a backend's configuration. */
  function CacheKey(backend: string): string {
    "codesearch-config-v1:" + backend
  }

  /** A stored configuration that PHP reads as true, that is a non-empty one. */
  function Cached(c: Cache, backend: string): (r: Option<Config<RepoConf>>)
    ensures r.Some? ==> |r.value| > 0
  {
    var key := CacheKey(backend);
    if c.store.Some? && key in c.store.value && |c.store.value[key]| > 0 then Some(c.store.value[key]) else None
  }

  /**
   * The answer of the configuration endpoint: a transport failure with its
   * message, a body that does not decode to a configuration, or the decoded
   * configuration. A body decoding to a PHP-true value that is not an array
   * is folded into `Undecodable`.
   */
  datatype Fetched = FetchFailed(reason: string) | Undecodable | Decoded(config: Config<RawRepo>)

  /** The error raised when the fetched configuration is empty or does not decode. */
  const INVALID_CONFIG: string := "Hound returned empty or invalid config data"

  /**
   * `getCachedConfig`: a cached configuration counts a hit; otherwise the
   * fetched one is stripped, stored and counted as a miss when APCu is
   * there. An empty or undecodable answer, or a failed fetch, raises
   * `ApiUnavailable` (the `Failure` message).
   */
  function GetCachedConfig(c: Cache, backend: string, fetched: Fetched): Result<(Config<RepoConf>, Cache), string> {
    match Cached(c, backend)
    case Some(val) => Success((val, c.(hits := c.hits + 1)))
    case None =>
      match fetched
      case FetchFailed(reason) => Failure(reason)
      case Undecodable => Failure(INVALID_CONFIG)
      case Decoded(raw) =>
        if |raw| == 0 then Failure(INVALID_CONFIG)
        else
          var val := Strip(raw);
          match c.store
          case Some(store) => Success((val, Cache(Some(store[CacheKey(backend) := val]), c.hits, c.misses + 1)))
          case None => Success((val, c))
  }

  /** A hit returns the stored configuration and counts one hit, whatever the backend would answer. */
  lemma CacheHit(c: Cache, backend: string, fetched: Fetched)
    requires Cached(c, backend).Some?
    ensures GetCachedConfig(c, backend, fetched) == Success((Cached(c, backend).value, c.(hits := c.hits + 1)))
  {
  }

  /**
   * On a miss the result is the fetched configuration stripped to `url` and
   * `url-pattern`, with the same repositories in the same order; a miss is
   * counted and the result stored only when APCu is there; the hits stay.
   */
  lemma CacheMiss(c: Cache, backend: string, raw: Config<RawRepo>)
    requires Cached(c, backend).None? && |raw| > 0
    ensures GetCachedConfig(c, backend, Decoded(raw)).Success?
    ensures var (val, n) := GetCachedConfig(c, backend, Decoded(raw)).value;
      && Names(val) == Names(raw)
      && (forall i :: 0 <= i < |raw| ==> val[i].1 == StripRepo(raw[i].1))
      && n.hits == c.hits
      && n.misses == (if c.store.Some? then c.misses + 1 else c.misses)
      && (c.store.Some? <==> n.store.Some?)
  {
  }

  /** A miss fails exactly on an empty, undecodable or failed answer. */
  lemma CacheMissFailure(c: Cache, backend: string, fetched: Fetched)
    requires Cached(c, backend).None?
    ensures GetCachedConfig(c, backend, fetched).Failure? <==>
      fetched.FetchFailed? || fetched.Undecodable? || (fetched.Decoded? && |fetched.config| == 0)
  {
  }

  /** With APCu, a miss is followed by a hit on the same configuration. */
  lemma MissThenHit(c: Cache, backend: string, raw: Config<RawRepo>, later: Fetched)
    requires c.store.Some? && Cached(c, backend).None? && |raw| > 0
    ensures var (val, n) := GetCachedConfig(c, backend, Decoded(raw)).value;
      && Cached(n, backend) == Some(val)
      && GetCachedConfig(n, backend, later) == Success((val, n.(hits := n.hits + 1)))
  {
    var (val, n) := GetCachedConfig(c, backend, Decoded(raw)).value;
    assert |val| == |raw|;
  }
}

=== FILE: client.dfy ===
/**
 * The search page's client state machine (frontend/src/lib.rs): the URL is
 * read into search options, the initial model picks a backend profile, and
 * `update` is a pure step from a model and a message to the next model, the
 * command the runtime performs next and whether the page is re-rendered.
 * Fetches and history updates are commands; their answers come back as
 * messages.
 */
module Client {
  import opened Wrappers
  import opened Codesearch
  import opened RustView

  /** A parsed page URL: its path parts and its query as (name, value) pairs in order. */
  datatype Url = Url(path: seq<string>, search: seq<(string, string)>)

  /** The results of a search, by repository name. */
  type HoundResults = map<string, RepoResult>

  /** The application state. */
  datatype Model = Model(
    options: SearchOptions,
    profile: string,
    loading: bool,
    houndConfig: Option<HoundConfig>,
    results: Option<HoundResults>,
    resultFormat: string,
    error: Option<string>)

  /** The events the page reacts to. */
  datatype Msg =
    | SearchSubmitted
    | SearchQueryChanged(query: string)
    | FilesChanged(files: string)
    | CaseInsensitiveChanged
    | ResultsReceived(config: HoundConfig, found: HoundResults)
    | PartialResultsReceived(more: RepoResult, repo: string)
    | ResultsErrored(message: string)
    | ChangeProfile(newProfile: string)
    | ChangeResultFormat(format: string)
    | LoadMoreResults(loadRepo: string)

  /**
   * What the runtime is asked to do next: nothing, dispatch a fresh
   * `SearchSubmitted`, push `url` and then fetch a backend's configuration
   * and results, fetch one repository's remaining results, or push `url`.
   */
  datatype Command =
    | Idle
    | Resubmit
    | Search(searchOptions: SearchOptions, searchProfile: string, url: Url)
    | SearchRepo(repoOptions: SearchOptions, repoProfile: string, repo: string)
    | PushUrl(pushed: Url)

  /** The outcome of one step. */
  datatype Step = Step(model: Model, command: Command, render: bool)

  /** `From<Url> for SearchOptions`: the first value of each parameter, or the default. */
  function FromUrl(url: Url): (r: SearchOptions)
    ensures r.repos.None?
    ensures Lookup(url.search, "q").None? ==> r.query == ""
    ensures Lookup(url.search, "files").None? ==> r.files == ""
    ensures r.caseInsensitive <==> Lookup(url.search, "i") == Some("fosho")
  {
    SearchOptions(
      Lookup(url.search, "q").GetOr(""),
      Lookup(url.search, "files").GetOr(""),
      None,
      Lookup(url.search, "i") == Some("fosho"))
  }

  /** Each option is read from the first parameter of its name. */
  lemma FromUrlReadsFirst(url: Url, key: string, j: nat)
    requires j < |url.search| && url.search[j].0 == key
    requires forall l :: 0 <= l < j ==> url.search[l].0 != key
    ensures key == "q" ==> FromUrl(url).query == url.search[j].1
    ensures key == "files" ==> FromUrl(url).files == url.search[j].1
    ensures key == "i" ==> (FromUrl(url).caseInsensitive <==> url.search[j].1 == "fosho")
  {
    LookupAt(url.search, key, j);
  }

  /** `Model::to_url`: the profile path, and the query, case flag and files only for a non-empty query. */
  function ToUrl(m: Model): (u: Url)
    ensures u.path == [m.profile]
    ensures u.search == [] <==> m.options.query == ""
  {
    if m.options.query == "" then Url([m.profile], [])
    else Url([m.profile], [
      ("q", m.options.query),
      ("i", if m.options.caseInsensitive then "fosho" else "nope"),
      ("files", m.options.files)])
  }

  /** Re-reading the URL of a model with a query recovers its query, files and case flag. */
  lemma ToUrlRoundTrip(m: Model)
    requires m.options.query != ""
    ensures FromUrl(ToUrl(m)) == m.options.(repos := None)
  {
    var s := ToUrl(m).search;
    assert "i"[0] != "q"[0] && "files"[0] != "q"[0] && "files"[0] != "i"[0];
    LookupAt(s, "q", 0);
    LookupAt(s, "i", 1);
    LookupAt(s, "files", 2);
    assert "nope"[0] != "fosho"[0];
  }

  /** Without a query the URL carries no parameters, so files and the case flag are not kept. */
  lemma ToUrlEmptyQuery(m: Model)
    requires m.options.query == ""
    ensures ToUrl(m).search == []
    ensures FromUrl(ToUrl(m)) == SearchOptions("", "", None, false)
  {
  }

  /** The profile named by a URL's first path part, if it is a backend, else "search". */
  function ProfileOf(url: Url): (p: string)
    ensures p == "search" || (|url.path| > 0 && p == url.path[0])
    ensures IsValidBackend(p)
    ensures |url.path| > 0 && IsValidBackend(url.path[0]) ==> p == url.path[0]
  {
    assert Backends[0].0 == "search";
    if |url.path| == 0 then "search"
    else if IsValidBackend(url.path[0]) then url.path[0]
    else "search"
  }

  /** `init`: the options from the URL, the profile from its path, and a search when the URL holds a query. */
  function Init(url: Url): (s: Step)
    ensures s.model.options == FromUrl(url) && s.model.profile == ProfileOf(url)
    ensures !s.model.loading && s.model.houndConfig.None? && s.model.results.None? && s.model.error.None?
    ensures s.model.resultFormat == "Default"
    ensures s.command == Resubmit <==> FromUrl(url).query != ""
    ensures s.command != Resubmit ==> s.command == Idle
  {
    var options := FromUrl(url);
    Step(
      Model(options, ProfileOf(url), false, None, None, "Default", None),
      if options.query != "" then Resubmit else Idle,
      true)
  }

  /** Opening the page at a model's own URL restores its profile, when that is a backend, and its search. */
  lemma InitAtOwnUrl(m: Model)
    requires IsValidBackend(m.profile) && m.options.query != ""
    ensures Init(ToUrl(m)).model.profile == m.profile
    ensures Init(ToUrl(m)).model.options == m.options.(repos := None)
    ensures Init(ToUrl(m)).command == Resubmit
  {
    ToUrlRoundTrip(m);
  }

  /** Appends `more`'s file matches to the repository's list; the count and revision stay. */
  function AppendMatches(r: RepoResult, more: RepoResult): (n: RepoResult)
    ensures |n.matches| == |r.matches| + |more.matches|
    ensures n.matches[..|r.matches|] == r.matches && n.matches[|r.matches|..] == more.matches
    ensures n.filesWithMatch == r.filesWithMatch && n.revision == r.revision
  {
    r.(matches := r.matches + more.matches)
  }

  /**
   * `update`. The one panic is a partial result for a repository absent
   * from the current results (`get_mut(..).unwrap()`); it gives `None`.
   */
  function Update(m: Model, msg: Msg): Option<Step> {
    match msg
    case SearchSubmitted =>
      var cleared := m.(error := None, results := None);
      if m.options.query == "" then Some(Step(cleared, Idle, true))
      else Some(Step(cleared.(loading := true), Search(m.options, m.profile, ToUrl(m)), true))
    case SearchQueryChanged(v) => Some(Step(m.(options := m.options.(query := v)), Idle, false))
    case FilesChanged(v) => Some(Step(m.(options := m.options.(files := v)), Idle, false))
    case CaseInsensitiveChanged =>
      Some(Step(m.(options := m.options.(caseInsensitive := !m.options.caseInsensitive)), Idle, false))
    case ResultsReceived(config, found) =>
      Some(Step(m.(houndConfig := Some(config), results := Some(found), loading := false), Idle, true))
    case ResultsErrored(e) => Some(Step(m.(error := Some(e), loading := false), Idle, true))
    case ChangeProfile(p) =>
      var n := m.(profile := p);
      Some(Step(n, if m.results.Some? then Resubmit else PushUrl(ToUrl(n)), true))
    case ChangeResultFormat(f) => Some(Step(m.(resultFormat := f), Idle, true))
    case LoadMoreResults(repo) =>
      Some(Step(m, SearchRepo(m.options.(repos := Some(repo)), m.profile, repo), false))
    case PartialResultsReceived(more, repo) =>
      match m.results
      case None => Some(Step(m, Idle, true))
      case Some(rs) =>
        if repo !in rs then None
        else Some(Step(m.(results := Some(rs[repo := AppendMatches(rs[repo], more)])), Idle, true))
  }

  /** Only a partial result for a repository missing from the shown results panics. */
  lemma UpdatePanicsOnlyOnUnknownRepo(m: Model, msg: Msg)
    ensures Update(m, msg).None? <==>
      msg.PartialResultsReceived? && m.results.Some? && msg.repo !in m.results.value
  {
  }

  /**
   * Submitting clears the error and results; without a query nothing is
   * requested and `loading` stays as it was, otherwise the search is sent
   * with the current options and profile and `loading` is set.
   */
  lemma SubmitStartsSearch(m: Model)
    ensures var s := Update(m, SearchSubmitted).value;
      && s.model.error.None? && s.model.results.None?
      && s.model.options == m.options && s.model.profile == m.profile
      && (m.options.query == "" ==> s.command == Idle && s.model.loading == m.loading)
      && (m.options.query != "" ==> s.model.loading && s.command == Search(m.options, m.profile, ToUrl(m)))
  {
  }

  /** Toggling the case flag twice changes nothing, and neither toggle re-renders. */
  lemma CaseToggleInvolutive(m: Model)
    ensures Update(m, CaseInsensitiveChanged).value.model.options.caseInsensitive == !m.options.caseInsensitive
    ensures Update(Update(m, CaseInsensitiveChanged).value.model, CaseInsensitiveChanged).value.model == m
    ensures !Update(m, CaseInsensitiveChanged).value.render
  {
  }

  /** An answer, results or error, ends loading and stores what it carries. */
  lemma AnswersEndLoading(m: Model, msg: Msg)
    requires msg.ResultsReceived? || msg.ResultsErrored?
    ensures !Update(m, msg).value.model.loading
    ensures msg.ResultsReceived? ==>
      Update(m, msg).value.model.results == Some(msg.found) && Update(m, msg).value.model.houndConfig == Some(msg.config)
    ensures msg.ResultsErrored? ==>
      Update(m, msg).value.model.error == Some(msg.message) && Update(m, msg).value.model.results == m.results
  {
  }

  /** Loading more leaves the model alone and asks for that repository only. */
  lemma LoadMoreKeepsModel(m: Model, repo: string)
    ensures Update(m, LoadMoreResults(repo)).value.model == m
    ensures Update(m, LoadMoreResults(repo)).value.command.SearchRepo?
    ensures Update(m, LoadMoreResults(repo)).value.command.repoOptions == m.options.(repos := Some(repo))
  {
  }

  /**
   * Switching backends keeps everything else; with results shown it searches
   * again, otherwise it pushes a URL that reopens on the new backend.
   */
  lemma ChangeProfileSearchesOrPushes(m: Model, p: string)
    ensures Update(m, ChangeProfile(p)).value.model == m.(profile := p)
    ensures Update(m, ChangeProfile(p)).value.command == Resubmit <==> m.results.Some?
    ensures m.results.None? && IsValidBackend(p) ==>
      && Update(m, ChangeProfile(p)).value.command.PushUrl?
      && Init(Update(m, ChangeProfile(p)).value.command.pushed).model.profile == p
  {
    var n := m.(profile := p);
    if m.results.None? && IsValidBackend(p) {
      assert ToUrl(n).path == [p];
    }
  }

  /**
   * A partial result extends the repository's file list at its end; the
   * earlier files, its file count, every other repository and the rest of
   * the model are kept. Without shown results it changes nothing.
   */
  lemma PartialResultsAppend(m: Model, more: RepoResult, repo: string)
    requires m.results.Some? ==> repo in m.results.value
    ensures m.results.None? ==> Update(m, PartialResultsReceived(more, repo)).value.model == m
    ensures m.results.Some? ==>
      var n := Update(m, PartialResultsReceived(more, repo)).value.model;
      var prev := m.results.value[repo];
      && n.results.Some?
      && n.results.value.Keys == m.results.value.Keys
      && n.results.value[repo].matches == prev.matches + more.matches
      && n.results.value[repo].filesWithMatch == prev.filesWithMatch
      && (forall r :: r in m.results.value && r != repo ==> n.results.value[r] == m.results.value[r])
      && n.(results := m.results) == m
  {
    if m.results.Some? {
      var a := AppendMatches(m.results.value[repo], more);
      assert a.matches == a.matches[..|m.results.value[repo].matches|] + a.matches[|m.results.value[repo].matches|..];
    }
  }

  /** While a search is loading, no stale results or error are shown. */
  predicate Consistent(m: Model) {
    m.loading ==> m.results.None? && m.error.None?
  }

  /** The initial model is consistent. */
  lemma InitConsistent(url: Url)
    ensures Consistent(Init(url).model)
  {
  }

  /** Every step keeps the model consistent. */
  lemma UpdateKeepsConsistent(m: Model, msg: Msg)
    requires Consistent(m) && Update(m, msg).Some?
    ensures Consistent(Update(m, msg).value.model)
  {
  }

  /**
   * The message a search command resolves to: the configuration's failure
   * first, then the transport's, then the backend's reported error, and a
   * response without results is an error too.
   */
  function SearchAnswer(config: Result<HoundConfig, string>, resp: Result<HoundResponse, string>): (msg: Msg)
    ensures msg.ResultsReceived? <==>
      config.Success? && resp.Success? && resp.value.error.None? && resp.value.results.Some?
    ensures msg.ResultsReceived? ==> msg.config == config.value && msg.found == resp.value.results.value
    ensures !msg.ResultsReceived? ==> msg.ResultsErrored?
    ensures config.Failure? ==> msg == ResultsErrored(config.error)
  {
    if config.Failure? then ResultsErrored(config.error)
    else if resp.Failure? then ResultsErrored(resp.error)
    else if resp.value.error.Some? then ResultsErrored(resp.value.error.value)
    else if resp.value.results.None? then ResultsErrored("Unknown error fetching search results")
    else ResultsReceived(config.value, resp.value.results.value)
  }

  /**
   * The message a load-more command resolves to. Indexing the results by
   * the repository panics when the backend left it out; that gives `None`.
   */
  function LoadMoreAnswer(repo: string, resp: Result<HoundResponse, string>): (msg: Option<Msg>)
    ensures msg.None? <==>
      resp.Success? && resp.value.error.None? && resp.value.results.Some? && repo !in resp.value.results.value
    ensures msg.Some? && msg.value.PartialResultsReceived? <==>
      resp.Success? && resp.value.error.None? && resp.value.results.Some? && repo in resp.value.results.value
    ensures msg.Some? && msg.value.PartialResultsReceived? ==>
      resp.Success? && resp.value.results.Some? && repo in resp.value.results.value
      && msg.value.repo == repo && msg.value.more == resp.value.results.value[repo]
    ensures msg.Some? ==> msg.value.PartialResultsReceived? || msg.value.ResultsErrored?
  {
    if resp.Failure? then Some(ResultsErrored(resp.error))
    else if resp.value.error.Some? then Some(ResultsErrored(resp.value.error.value))
    else if resp.value.results.None? then Some(ResultsErrored("Unknown error fetching search results"))
    else if repo !in resp.value.results.value then None
    else Some(PartialResultsReceived(resp.value.results.value[repo], repo))
  }

  /**
   * Loading more for a repository of the shown results, then applying its
   * answer, appends to that repository and never panics.
   */
  lemma LoadMoreRoundTrip(m: Model, repo: string, resp: Result<HoundResponse, string>)
    requires m.results.Some? && repo in m.results.value
    requires LoadMoreAnswer(repo, resp).Some?
    ensures Update(Update(m, LoadMoreResults(repo)).value.model, LoadMoreAnswer(repo, resp).value).Some?
  {
  }
}

=== FILE: codesearch.dfy ===
/**
 * The querying library of the Rust client (frontend/src/codesearch.rs): the
 * Hound response records, the list of search backends, and the parameters of
 * a search request. The HTTP transport (`send_query`, `fetch_config`) is
 * outside the model; the request it would send is modelled as its endpoint and
 * its ordered parameter list.
 */
module Codesearch {
  import opened Wrappers

  /** One past the largest `u32`. */
  const U32_LIMIT: nat := 0x1_0000_0000

  /** A Rust `u32` line number. */
  type LineNo = n: nat | n < 0x1_0000_0000

  /** One match inside a file, with its context lines. */
  datatype Match = Match(line: string, lineNumber: LineNo, before: seq<string>, after: seq<string>)

  /** The matches found in one file. */
  datatype RepoMatch = RepoMatch(filename: string, matches: seq<Match>)

  /** The matches found in one repository. `filesWithMatch` may exceed `|matches|`. */
  datatype RepoResult = RepoResult(matches: seq<RepoMatch>, filesWithMatch: nat, revision: string)

  /** A repository together with its result: one entry of the `HoundResults` hash map. */
  type Entry = (string, RepoResult)

  /** The keys of a hash map's entries are pairwise distinct. */
  predicate DistinctNames(entries: seq<Entry>) {
    forall i, j :: 0 <= i < j < |entries| ==> entries[i].0 != entries[j].0
  }

  /** Permalink template of a repository. */
  datatype UrlPattern = UrlPattern(baseUrl: string, anchor: string)

  /** Per-repository configuration of a backend. */
  datatype RepoConfig = RepoConfig(url: string, urlPattern: UrlPattern)

  /** The decoded body of a search request. */
  datatype HoundResponse = HoundResponse(error: Option<string>, results: Option<map<string, RepoResult>>)

  /** The options of one search. */
  datatype SearchOptions = SearchOptions(query: string, files: string, repos: Option<string>, caseInsensitive: bool)

  /** The backends the client offers, as (id, label) in display order. */
  const Backends: seq<(string, string)> := [
    ("search", "Everything"),
    ("core", "MediaWiki core"),
    ("extensions", "Extensions"),
    ("skins", "Skins"),
    ("things", "Extensions & things"),
    ("bundled", "MW tarball"),
    ("deployed", "Wikimedia deployed"),
    ("libraries", "PHP libraries"),
    ("operations", "Wikimedia Operations"),
    ("ooui", "OOUI"),
    ("milkshake", "Milkshake"),
    ("pywikibot", "Pywikibot"),
    ("services", "Wikimedia Services"),
    ("analytics", "Analytics")
  ]

  /** Scans `list` for an entry whose id is `profile`, as the loop of `is_valid_backend`. */
  function ListedIn(list: seq<(string, string)>, profile: string): (b: bool)
    ensures b <==> exists i :: 0 <= i < |list| && list[i].0 == profile
  {
    if |list| == 0 then false
    else if list[0].0 == profile then true
    else
      assert forall i :: 1 <= i < |list| ==> list[i] == list[1..][i - 1];
      ListedIn(list[1..], profile)
  }

  /** Whether `profile` names a backend. */
  function IsValidBackend(profile: string): (b: bool)
    ensures b <==> exists i :: 0 <= i < |Backends| && Backends[i].0 == profile
  {
    ListedIn(Backends, profile)
  }

  /** The search endpoint of a backend. */
  function SearchEndpoint(profile: string): string {
    "https://codesearch.wmcloud.org/" + profile + "/api/v1/search"
  }

  /** The configuration endpoint of a backend. */
  function ConfigEndpoint(profile: string): string {
    "https://codesearch.wmcloud.org/" + profile + "/api/v1/repos"
  }

  /** The value of the first parameter named `key`. */
  function Lookup(params: seq<(string, string)>, key: string): Option<string> {
    LookupFrom(params, key, 0)
  }

  /** The value of the first parameter named `key` at index `i` or later. */
  function LookupFrom(params: seq<(string, string)>, key: string, i: nat): Option<string>
    decreases |params| - i
  {
    if i >= |params| then None
    else if params[i].0 == key then Some(params[i].1)
    else LookupFrom(params, key, i + 1)
  }

  /** A scan from `i` finds a value exactly when some later parameter has the name, and the value is that parameter's. */
  lemma {:induction false} LookupFromFinds(params: seq<(string, string)>, key: string, i: nat)
    ensures LookupFrom(params, key, i).Some? <==> exists j :: i <= j < |params| && params[j].0 == key
    ensures LookupFrom(params, key, i).Some? ==>
      exists j :: i <= j < |params| && params[j] == (key, LookupFrom(params, key, i).value)
    decreases |params| - i
  {
    if i < |params| && params[i].0 != key {
      LookupFromFinds(params, key, i + 1);
    }
  }

  /** A lookup finds a value exactly when some parameter has the name, and the value is that parameter's. */
  lemma LookupFinds(params: seq<(string, string)>, key: string)
    ensures Lookup(params, key).Some? <==> exists j :: 0 <= j < |params| && params[j].0 == key
    ensures Lookup(params, key).Some? ==> exists j :: 0 <= j < |params| && params[j] == (key, Lookup(params, key).value)
  {
    LookupFromFinds(params, key, 0);
  }

  /** The first parameter named `key` from index `i` on sits at index `j`. */
  lemma {:induction false} LookupFromAt(params: seq<(string, string)>, key: string, i: nat, j: nat)
    requires i <= j < |params| && params[j].0 == key
    requires forall l :: i <= l < j ==> params[l].0 != key
    ensures LookupFrom(params, key, i) == Some(params[j].1)
    decreases j - i
  {
    if i < j {
      LookupFromAt(params, key, i + 1, j);
    }
  }

  /** The first parameter named `key` sits at index `j`. */
  lemma LookupAt(params: seq<(string, string)>, key: string, j: nat)
    requires j < |params| && params[j].0 == key
    requires forall l :: 0 <= l < j ==> params[l].0 != key
    ensures Lookup(params, key) == Some(params[j].1)
  {
    LookupFromAt(params, key, 0, j);
  }

  /**
   * The query string of a search request, in the order the client sends it:
   * the offset range is "20:" (everything after the first page) when the
   * search is restricted to a repository, ":20" (the first page) otherwise.
   */
  function QueryParams(opts: SearchOptions): (r: seq<(string, string)>)
    ensures |r| == 6
  {
    [
      ("stats", "fosho"),
      ("repos", opts.repos.GetOr("*")),
      ("rng", if opts.repos.Some? then "20:" else ":20"),
      ("q", opts.query),
      ("files", opts.files),
      ("i", if opts.caseInsensitive then "fosho" else "nope")
    ]
  }

  /** The six parameter names differ pairwise, each from the others by one character. */
  lemma QueryParamNamesDistinct(opts: SearchOptions)
    ensures forall a, b :: 0 <= a < b < 6 ==> QueryParams(opts)[a].0 != QueryParams(opts)[b].0
  {
    var r := QueryParams(opts);
    assert r[0].0[0] == 's' && r[1].0[0] == 'r' && r[2].0[0] == 'r' && r[1].0[1] == 'e' && r[2].0[1] == 'n';
    assert r[3].0[0] == 'q' && r[4].0[0] == 'f' && r[5].0[0] == 'i';
  }

  /** A search request names its statistics flag, repositories, range, query, file filter and case flag once each. */
  lemma QueryParamsCarry(opts: SearchOptions)
    ensures Lookup(QueryParams(opts), "stats") == Some("fosho")
    ensures Lookup(QueryParams(opts), "repos") == Some(opts.repos.GetOr("*"))
    ensures Lookup(QueryParams(opts), "rng") == Some(if opts.repos.Some? then "20:" else ":20")
    ensures Lookup(QueryParams(opts), "q") == Some(opts.query)
    ensures Lookup(QueryParams(opts), "files") == Some(opts.files)
    ensures Lookup(QueryParams(opts), "i") == Some(if opts.caseInsensitive then "fosho" else "nope")
  {
    var r := QueryParams(opts);
    QueryParamNamesDistinct(opts);
    LookupAt(r, "stats", 0);
    LookupAt(r, "repos", 1);
    LookupAt(r, "rng", 2);
    LookupAt(r, "q", 3);
    LookupAt(r, "files", 4);
    LookupAt(r, "i", 5);
    assert ":20"[0] != "20:"[0];
  }

  /** What a backend reads back from a search request's parameters. */
  function DecodeQueryParams(params: seq<(string, string)>): SearchOptions {
    SearchOptions(
      Lookup(params, "q").GetOr(""),
      Lookup(params, "files").GetOr(""),
      if Lookup(params, "rng") == Some("20:") then Lookup(params, "repos") else None,
      Lookup(params, "i") == Some("fosho"))
  }

  /** A search request carries every search option. */
  lemma QueryParamsRoundTrip(opts: SearchOptions)
    ensures DecodeQueryParams(QueryParams(opts)) == opts
  {
    QueryParamsCarry(opts);
    assert "nope"[0] != "fosho"[0];
  }
}

=== FILE: flatten.dfy ===
/**
 * `flatten` (frontend/src/codesearch.rs): folds the match blocks of one file
 * into a line-number-keyed ordered map of display lines.
 *
 * For each match, in input order, the match line is written (highlighted,
 * overwriting), then up to two "before" context lines are written only where
 * no line exists yet, then up to two "after" context lines are written
 * (not highlighted, overwriting). The context length 2 is hard-wired.
 *
 * The map is modelled twice: `LinesOf` is the abstract fold over
 * `map<nat, Line>`, and `FlattenWith` builds the concrete `BTreeMap` as an
 * ascending entry list; the two are proved to agree.
 *
 * `BeforeRule` selects where the "before" lines go. `AsWritten` is the code:
 * `before[0]` at n-2 whenever there is a before line, `before[1]` at n-1 only
 * when there are exactly two. `Aligned` puts the last before line at n-1 and
 * the one before it at n-2, which is where the text of those lines sits.
 */
module Flattening {
  import opened Codesearch
  import opened Wrappers
  import opened OrderedMap

  /** One display line: highlighted when it is a match line. */
  datatype Line = Line(highlight: bool, text: string)

  /** A file's display lines, in ascending line number. */
  datatype File = File(name: string, lines: seq<(nat, Line)>)

  /** Where `before` context lines are placed. */
  datatype BeforeRule = AsWritten | Aligned

  /** `n - k` on `u32` without overflow checks: a release build wraps around. */
  function WrappingSub(n: LineNo, k: nat): (r: LineNo)
    requires k <= 2
    ensures (r + k) % U32_LIMIT == n
  {
    if n >= k then n - k else n + U32_LIMIT - k
  }

  /** `n + k` on `u32` without overflow checks. */
  function WrappingAdd(n: LineNo, k: nat): (r: LineNo)
    requires k <= 2
    ensures (n + k) % U32_LIMIT == r
  {
    if n + k < U32_LIMIT then n + k else n + k - U32_LIMIT
  }

  /** The text written at n-2, if any. */
  function FarBefore(x: Match, rule: BeforeRule): Option<string> {
    match rule
    case AsWritten => if |x.before| >= 1 then Some(x.before[0]) else None
    case Aligned => if |x.before| >= 2 then Some(x.before[|x.before| - 2]) else None
  }

  /** The text written at n-1, if any. */
  function NearBefore(x: Match, rule: BeforeRule): Option<string> {
    match rule
    case AsWritten => if |x.before| == 2 then Some(x.before[1]) else None
    case Aligned => if |x.before| >= 1 then Some(x.before[|x.before| - 1]) else None
  }

  /** The text written at n+1, if any. */
  function NearAfter(x: Match): Option<string> {
    if |x.after| >= 1 then Some(x.after[0]) else None
  }

  /** The text written at n+2, if any. */
  function FarAfter(x: Match): Option<string> {
    if |x.after| == 2 then Some(x.after[1]) else None
  }

  /** The lines the "after" context of `x` overwrites. */
  function AfterKeys(x: Match): set<nat> {
    (if NearAfter(x).Some? then {WrappingAdd(x.lineNumber, 1) as nat} else {})
    + (if FarAfter(x).Some? then {WrappingAdd(x.lineNumber, 2) as nat} else {})
  }

  /** Every line number one match writes to. */
  function Touched(x: Match, rule: BeforeRule): set<nat> {
    {x.lineNumber as nat}
    + (if FarBefore(x, rule).Some? then {WrappingSub(x.lineNumber, 2) as nat} else {})
    + (if NearBefore(x, rule).Some? then {WrappingSub(x.lineNumber, 1) as nat} else {})
    + AfterKeys(x)
  }

  /** The five positions around a line are pairwise distinct, even across wrap-around. */
  lemma OffsetsDistinct(n: LineNo)
    ensures n != WrappingSub(n, 2) && n != WrappingSub(n, 1)
    ensures n != WrappingAdd(n, 1) && n != WrappingAdd(n, 2)
    ensures WrappingSub(n, 2) != WrappingSub(n, 1)
    ensures WrappingAdd(n, 1) != WrappingAdd(n, 2)
    ensures WrappingSub(n, 2) != WrappingAdd(n, 1) && WrappingSub(n, 2) != WrappingAdd(n, 2)
    ensures WrappingSub(n, 1) != WrappingAdd(n, 1) && WrappingSub(n, 1) != WrappingAdd(n, 2)
  {
  }

  /** A context write that keeps an existing line. */
  function KeepMap(m: map<nat, Line>, k: nat, t: Option<string>): (r: map<nat, Line>)
    ensures r.Keys == m.Keys + (if t.Some? then {k} else {})
    ensures k in m ==> r[k] == m[k]
  {
    if t.Some? && k !in m then m[k := Line(false, t.value)] else m
  }

  /** A context write that replaces an existing line. */
  function OverwriteMap(m: map<nat, Line>, k: nat, t: Option<string>): (r: map<nat, Line>)
    ensures r.Keys == m.Keys + (if t.Some? then {k} else {})
    ensures t.Some? ==> r[k] == Line(false, t.value)
  {
    if t.Some? then m[k := Line(false, t.value)] else m
  }

  /** The writes of one loop iteration, on the abstract line map. */
  function PlaceMap(m: map<nat, Line>, x: Match, rule: BeforeRule): map<nat, Line> {
    var n := x.lineNumber;
    var m1 := m[n as nat := Line(true, x.line)];
    var m2 := KeepMap(m1, WrappingSub(n, 2), FarBefore(x, rule));
    var m3 := KeepMap(m2, WrappingSub(n, 1), NearBefore(x, rule));
    var m4 := OverwriteMap(m3, WrappingAdd(n, 1), NearAfter(x));
    OverwriteMap(m4, WrappingAdd(n, 2), FarAfter(x))
  }

  /** `if !contains_key { insert }` on the concrete map. */
  function Keep(s: seq<(nat, Line)>, k: nat, t: Option<string>): (r: seq<(nat, Line)>)
    requires Ascending(s)
    ensures Ascending(r)
    ensures ToMap(r) == KeepMap(ToMap(s), k, t)
  {
    if t.Some? && !ContainsKey(s, k) then Insert(s, k, Line(false, t.value)) else s
  }

  /** `insert` of a context line on the concrete map. */
  function Overwrite(s: seq<(nat, Line)>, k: nat, t: Option<string>): (r: seq<(nat, Line)>)
    requires Ascending(s)
    ensures Ascending(r)
    ensures ToMap(r) == OverwriteMap(ToMap(s), k, t)
  {
    if t.Some? then Insert(s, k, Line(false, t.value)) else s
  }

  /** The abstract result of folding the matches in input order. */
  function LinesOf(ms: seq<Match>, rule: BeforeRule): map<nat, Line> {
    if |ms| == 0 then map[]
    else PlaceMap(LinesOf(ms[..|ms| - 1], rule), ms[|ms| - 1], rule)
  }

  /** One loop iteration on the concrete `BTreeMap`. */
  function Place(lines: seq<(nat, Line)>, x: Match, rule: BeforeRule): (r: seq<(nat, Line)>)
    requires Ascending(lines)
    ensures Ascending(r)
    ensures ToMap(r) == PlaceMap(ToMap(lines), x, rule)
  {
    var n := x.lineNumber;
    var l1 := Insert(lines, n, Line(true, x.line));
    var l2 := Keep(l1, WrappingSub(n, 2), FarBefore(x, rule));
    var l3 := Keep(l2, WrappingSub(n, 1), NearBefore(x, rule));
    var l4 := Overwrite(l3, WrappingAdd(n, 1), NearAfter(x));
    Overwrite(l4, WrappingAdd(n, 2), FarAfter(x))
  }

  /** The loop of `flatten` over all matches. */
  function FlattenMatches(ms: seq<Match>, rule: BeforeRule): (r: seq<(nat, Line)>)
    ensures Ascending(r)
    ensures ToMap(r) == LinesOf(ms, rule)
  {
    if |ms| == 0 then []
    else Place(FlattenMatches(ms[..|ms| - 1], rule), ms[|ms| - 1], rule)
  }

  function FlattenWith(rm: RepoMatch, rule: BeforeRule): (f: File)
    ensures f.name == rm.filename
    ensures Ascending(f.lines)
    ensures ToMap(f.lines) == LinesOf(rm.matches, rule)
  {
    File(rm.filename, FlattenMatches(rm.matches, rule))
  }

  /**
   * `flatten` as written: the lines come out in strictly ascending line
   * number, each number at most once, and with no match there is no line.
   */
  function Flatten(rm: RepoMatch): (f: File)
    ensures f.name == rm.filename
    ensures forall i, j :: 0 <= i < j < |f.lines| ==> f.lines[i].0 < f.lines[j].0
    ensures |rm.matches| == 0 ==> f.lines == []
    ensures ToMap(f.lines) == LinesOf(rm.matches, AsWritten)
  {
    FlattenWith(rm, AsWritten)
  }

  /** `flatten` with the before context placed where its text belongs. */
  function FlattenAligned(rm: RepoMatch): (f: File)
    ensures f.name == rm.filename
    ensures forall i, j :: 0 <= i < j < |f.lines| ==> f.lines[i].0 < f.lines[j].0
    ensures |rm.matches| == 0 ==> f.lines == []
    ensures ToMap(f.lines) == LinesOf(rm.matches, Aligned)
  {
    FlattenWith(rm, Aligned)
  }

  /** The prefix of a sequence agrees with it on the prefix's indices. */
  lemma PrefixIndex(ms: seq<Match>)
    requires |ms| > 0
    ensures forall i :: 0 <= i < |ms| - 1 ==> ms[..|ms| - 1][i] == ms[i]
  {
  }

  /** One iteration adds exactly the positions the match writes to. */
  lemma PlaceMapKeys(m: map<nat, Line>, x: Match, rule: BeforeRule)
    ensures PlaceMap(m, x, rule).Keys == m.Keys + Touched(x, rule)
  {
  }

  /** The line numbers present are exactly the positions some match writes to. */
  lemma {:induction false} FlattenKeys(ms: seq<Match>, rule: BeforeRule, k: nat)
    ensures k in LinesOf(ms, rule) <==> exists i :: 0 <= i < |ms| && k in Touched(ms[i], rule)
  {
    if |ms| > 0 {
      var p := ms[..|ms| - 1];
      var x := ms[|ms| - 1];
      PrefixIndex(ms);
      FlattenKeys(p, rule, k);
      PlaceMapKeys(LinesOf(p, rule), x, rule);
      if k in LinesOf(p, rule) {
        var i :| 0 <= i < |p| && k in Touched(p[i], rule);
        assert k in Touched(ms[i], rule);
      }
      if exists i :: 0 <= i < |ms| && k in Touched(ms[i], rule) {
        var i :| 0 <= i < |ms| && k in Touched(ms[i], rule);
        if i < |p| {
          assert k in Touched(p[i], rule);
        }
      }
    }
  }

  /** Every match line is present. */
  lemma MatchLinesPresent(ms: seq<Match>, rule: BeforeRule, i: nat)
    requires i < |ms|
    ensures ms[i].lineNumber as nat in LinesOf(ms, rule)
  {
    FlattenKeys(ms, rule, ms[i].lineNumber);
  }

  /** No later match overwrites line `k` with "after" context. */
  predicate NotDemotedAfter(ms: seq<Match>, i: nat, k: nat) {
    forall j :: i < j < |ms| ==> k !in AfterKeys(ms[j])
  }

  /** Some match claims line `k` and no later match writes "after" context over it. */
  predicate HasLastWriter(ms: seq<Match>, k: nat) {
    exists i :: 0 <= i < |ms| && ms[i].lineNumber == k && NotDemotedAfter(ms, i, k)
  }

  /** The last match's own line is highlighted, and that match is its last writer. */
  lemma HighlightAtLastMatch(ms: seq<Match>, rule: BeforeRule, k: nat)
    requires |ms| > 0 && k == ms[|ms| - 1].lineNumber
    ensures k in LinesOf(ms, rule) && LinesOf(ms, rule)[k].highlight && HasLastWriter(ms, k)
  {
    MatchAndAfterOverwrite(LinesOf(ms[..|ms| - 1], rule), ms[|ms| - 1], rule);
    assert NotDemotedAfter(ms, |ms| - 1, k);
  }

  /** A line under the last match's "after" context is plain and has no last writer. */
  lemma HighlightUnderAfter(ms: seq<Match>, rule: BeforeRule, k: nat)
    requires |ms| > 0 && k != ms[|ms| - 1].lineNumber && k in AfterKeys(ms[|ms| - 1])
    ensures k in LinesOf(ms, rule) && !LinesOf(ms, rule)[k].highlight && !HasLastWriter(ms, k)
  {
    var x := ms[|ms| - 1];
    OffsetsDistinct(x.lineNumber);
    MatchAndAfterOverwrite(LinesOf(ms[..|ms| - 1], rule), x, rule);
    forall i | 0 <= i < |ms| && ms[i].lineNumber == k
      ensures !NotDemotedAfter(ms, i, k)
    {
      assert i < |ms| - 1;
    }
  }

  /** When the last match neither claims nor demotes `k`, it does not change who last wrote `k`. */
  lemma LastWriterOfPrefix(ms: seq<Match>, k: nat)
    requires |ms| > 0 && k != ms[|ms| - 1].lineNumber && k !in AfterKeys(ms[|ms| - 1])
    ensures HasLastWriter(ms[..|ms| - 1], k) <==> HasLastWriter(ms, k)
  {
    var p := ms[..|ms| - 1];
    if HasLastWriter(p, k) {
      var i :| 0 <= i < |p| && p[i].lineNumber == k && NotDemotedAfter(p, i, k);
      forall j | i < j < |ms|
        ensures k !in AfterKeys(ms[j])
      {
        if j < |p| {
          assert ms[j] == p[j];
        }
      }
      assert ms[i] == p[i];
      assert NotDemotedAfter(ms, i, k);
    }
    if HasLastWriter(ms, k) {
      var i :| 0 <= i < |ms| && ms[i].lineNumber == k && NotDemotedAfter(ms, i, k);
      assert i < |p|;
      forall j | i < j < |p|
        ensures k !in AfterKeys(p[j])
      {
        assert ms[j] == p[j];
      }
      assert p[i] == ms[i];
      assert NotDemotedAfter(p, i, k);
    }
  }

  /** A line the last match does not touch keeps its state and its last writer. */
  lemma HighlightKept(ms: seq<Match>, rule: BeforeRule, k: nat)
    requires |ms| > 0 && k != ms[|ms| - 1].lineNumber && k !in AfterKeys(ms[|ms| - 1])
    requires k in LinesOf(ms[..|ms| - 1], rule)
    requires LinesOf(ms[..|ms| - 1], rule)[k].highlight <==> HasLastWriter(ms[..|ms| - 1], k)
    ensures k in LinesOf(ms, rule)
    ensures LinesOf(ms, rule)[k].highlight <==> HasLastWriter(ms, k)
  {
    BeforeNeverReplaces(LinesOf(ms[..|ms| - 1], rule), ms[|ms| - 1], rule, k);
    LastWriterOfPrefix(ms, k);
  }

  /** A line only "before" context of the last match created is plain and has no last writer. */
  lemma HighlightFromBefore(ms: seq<Match>, rule: BeforeRule, k: nat)
    requires |ms| > 0 && k != ms[|ms| - 1].lineNumber && k !in AfterKeys(ms[|ms| - 1])
    requires k !in LinesOf(ms[..|ms| - 1], rule) && k in LinesOf(ms, rule)
    ensures !LinesOf(ms, rule)[k].highlight && !HasLastWriter(ms, k)
  {
    var p := ms[..|ms| - 1];
    PrefixIndex(ms);
    forall i | 0 <= i < |p|
      ensures ms[i].lineNumber != k
    {
      MatchLinesPresent(p, rule, i);
    }
  }

  /**
   * A line is highlighted exactly when some match claims it and no later match
   * writes "after" context over it; "before" context never demotes a line.
   */
  lemma {:induction false} HighlightIsLastMatchWrite(ms: seq<Match>, rule: BeforeRule, k: nat)
    requires k in LinesOf(ms, rule)
    ensures LinesOf(ms, rule)[k].highlight <==> HasLastWriter(ms, k)
  {
    var p := ms[..|ms| - 1];
    var x := ms[|ms| - 1];
    if k == x.lineNumber {
      HighlightAtLastMatch(ms, rule, k);
    } else if k in AfterKeys(x) {
      HighlightUnderAfter(ms, rule, k);
    } else if k in LinesOf(p, rule) {
      HighlightIsLastMatchWrite(p, rule, k);
      HighlightKept(ms, rule, k);
    } else {
      HighlightFromBefore(ms, rule, k);
    }
  }

  /** A "before" write never replaces a line that is already there, highlighted or not. */
  lemma BeforeNeverReplaces(m: map<nat, Line>, x: Match, rule: BeforeRule, k: nat)
    requires k in m && k != x.lineNumber as nat && k !in AfterKeys(x)
    ensures k in PlaceMap(m, x, rule) && PlaceMap(m, x, rule)[k] == m[k]
  {
  }

  /** Match writes and "after" writes overwrite whatever was there. */
  lemma MatchAndAfterOverwrite(m: map<nat, Line>, x: Match, rule: BeforeRule)
    ensures PlaceMap(m, x, rule)[x.lineNumber as nat] == Line(true, x.line)
    ensures |x.after| >= 1 ==> PlaceMap(m, x, rule)[WrappingAdd(x.lineNumber, 1) as nat] == Line(false, x.after[0])
    ensures |x.after| == 2 ==> PlaceMap(m, x, rule)[WrappingAdd(x.lineNumber, 2) as nat] == Line(false, x.after[1])
  {
    OffsetsDistinct(x.lineNumber);
  }

  /** A match at 5 is demoted when a later-processed match at 4 has "after" context. */
  lemma LaterAfterContextDemotesMatch()
    ensures var ms := [Match("five", 5, [], []), Match("four", 4, [], ["five"])];
      LinesOf(ms, AsWritten)[5] == Line(false, "five")
  {
    var ms := [Match("five", 5, [], []), Match("four", 4, [], ["five"])];
    assert ms[..1] == [ms[0]];
    assert ms[..0] == [];
  }

  /** The file the backend searched, consistent with a match block: 1-based lines of `src`. */
  predicate ConsistentWith(src: seq<string>, x: Match) {
    && 1 <= x.lineNumber <= |src|
    && x.line == src[x.lineNumber - 1]
    && |x.before| <= x.lineNumber - 1
    && x.before == src[x.lineNumber - 1 - |x.before|..x.lineNumber - 1]
    && x.lineNumber + |x.after| <= |src|
    && x.after == src[x.lineNumber..x.lineNumber + |x.after|]
  }

  /** Every reconstructed line is a line of `src`, shown at its own number. */
  predicate TrueToSource(src: seq<string>, m: map<nat, Line>) {
    forall k :: k in m ==> 1 <= k <= |src| && m[k].text == src[k - 1]
  }

  /** A keeping context write of the text of line `k` keeps the map true to `src`. */
  lemma KeepTrueToSource(src: seq<string>, m: map<nat, Line>, k: nat, t: Option<string>)
    requires TrueToSource(src, m)
    requires WritesOwnLine(src, k, t)
    ensures TrueToSource(src, KeepMap(m, k, t))
  {
  }

  /** An overwriting context write of the text of line `k` keeps the map true to `src`. */
  lemma OverwriteTrueToSource(src: seq<string>, m: map<nat, Line>, k: nat, t: Option<string>)
    requires TrueToSource(src, m)
    requires WritesOwnLine(src, k, t)
    ensures TrueToSource(src, OverwriteMap(m, k, t))
  {
  }

  /** The text of a context write, if any, is the text of the line it lands on. */
  predicate WritesOwnLine(src: seq<string>, k: nat, t: Option<string>) {
    t.Some? ==> 1 <= k <= |src| && t.value == src[k - 1]
  }

  /** The second-to-last before line of a consistent match is the text of line n-2. */
  lemma FarBeforeLands(src: seq<string>, x: Match)
    requires ConsistentWith(src, x)
    ensures WritesOwnLine(src, WrappingSub(x.lineNumber, 2), FarBefore(x, Aligned))
  {
    var n := x.lineNumber;
    var b := |x.before|;
    if b >= 2 {
      assert WrappingSub(n, 2) == n - 2;
      assert x.before[b - 2] == src[n - 1 - b..n - 1][b - 2];
    }
  }

  /** The last before line of a consistent match is the text of line n-1. */
  lemma NearBeforeLands(src: seq<string>, x: Match)
    requires ConsistentWith(src, x)
    ensures WritesOwnLine(src, WrappingSub(x.lineNumber, 1), NearBefore(x, Aligned))
  {
    var n := x.lineNumber;
    var b := |x.before|;
    if b >= 1 {
      assert WrappingSub(n, 1) == n - 1;
      assert x.before[b - 1] == src[n - 1 - b..n - 1][b - 1];
    }
  }

  /** A consistent match's after context lands where it belongs. */
  lemma AfterLands(src: seq<string>, x: Match)
    requires |src| < U32_LIMIT
    requires ConsistentWith(src, x)
    ensures WritesOwnLine(src, WrappingAdd(x.lineNumber, 1), NearAfter(x))
    ensures WritesOwnLine(src, WrappingAdd(x.lineNumber, 2), FarAfter(x))
  {
    var n := x.lineNumber;
    if |x.after| >= 1 {
      assert x.after[0] == src[n];
      assert WrappingAdd(n, 1) == n + 1;
    }
    if |x.after| == 2 {
      assert x.after[1] == src[n + 1];
      assert WrappingAdd(n, 2) == n + 2;
    }
  }

  /** An iteration whose every write carries the text of the line it lands on keeps the map true to `src`. */
  lemma PlaceTrueToSource(src: seq<string>, m: map<nat, Line>, x: Match, rule: BeforeRule)
    requires TrueToSource(src, m)
    requires WritesOwnLine(src, x.lineNumber, Some(x.line))
    requires WritesOwnLine(src, WrappingSub(x.lineNumber, 2), FarBefore(x, rule))
    requires WritesOwnLine(src, WrappingSub(x.lineNumber, 1), NearBefore(x, rule))
    requires WritesOwnLine(src, WrappingAdd(x.lineNumber, 1), NearAfter(x))
    requires WritesOwnLine(src, WrappingAdd(x.lineNumber, 2), FarAfter(x))
    ensures TrueToSource(src, PlaceMap(m, x, rule))
  {
    var n := x.lineNumber;
    var m1 := m[n as nat := Line(true, x.line)];
    assert TrueToSource(src, m1);
    KeepTrueToSource(src, m1, WrappingSub(n, 2), FarBefore(x, rule));
    var m2 := KeepMap(m1, WrappingSub(n, 2), FarBefore(x, rule));
    KeepTrueToSource(src, m2, WrappingSub(n, 1), NearBefore(x, rule));
    var m3 := KeepMap(m2, WrappingSub(n, 1), NearBefore(x, rule));
    OverwriteTrueToSource(src, m3, WrappingAdd(n, 1), NearAfter(x));
    var m4 := OverwriteMap(m3, WrappingAdd(n, 1), NearAfter(x));
    OverwriteTrueToSource(src, m4, WrappingAdd(n, 2), FarAfter(x));
  }

  /** One aligned iteration with a consistent match keeps the map true to `src`. */
  lemma PlaceAlignedTrueToSource(src: seq<string>, m: map<nat, Line>, x: Match)
    requires |src| < U32_LIMIT
    requires ConsistentWith(src, x)
    requires TrueToSource(src, m)
    ensures TrueToSource(src, PlaceMap(m, x, Aligned))
  {
    FarBeforeLands(src, x);
    NearBeforeLands(src, x);
    AfterLands(src, x);
    PlaceTrueToSource(src, m, x, Aligned);
  }

  /** With aligned before context, each displayed line carries its own text. */
  lemma {:induction false} AlignedIsTrueToSource(src: seq<string>, ms: seq<Match>)
    requires |src| < U32_LIMIT
    requires forall i :: 0 <= i < |ms| ==> ConsistentWith(src, ms[i])
    ensures TrueToSource(src, LinesOf(ms, Aligned))
  {
    if |ms| > 0 {
      PrefixIndex(ms);
      AlignedIsTrueToSource(src, ms[..|ms| - 1]);
      PlaceAlignedTrueToSource(src, LinesOf(ms[..|ms| - 1], Aligned), ms[|ms| - 1]);
    }
  }

  /**
   * As written, a match on line 2 whose only before line is line 1 puts that
   * text at line 0, which is not a line of the file, and leaves line 1 out.
   */
  lemma AsWrittenMisplacesSingleBeforeLine()
    ensures var src := ["a", "b"];
      var x := Match("b", 2, ["a"], []);
      && ConsistentWith(src, x)
      && 0 in LinesOf([x], AsWritten) && LinesOf([x], AsWritten)[0] == Line(false, "a")
      && 1 !in LinesOf([x], AsWritten)
      && !TrueToSource(src, LinesOf([x], AsWritten))
  {
    var x := Match("b", 2, ["a"], []);
    assert [x][..0] == [];
  }

  /** With zero or two before lines everywhere, the code and the aligned rule agree. */
  lemma {:induction false} AgreeWithFullContext(ms: seq<Match>)
    requires forall i :: 0 <= i < |ms| ==> |ms[i].before| == 0 || |ms[i].before| == 2
    ensures LinesOf(ms, AsWritten) == LinesOf(ms, Aligned)
  {
    if |ms| > 0 {
      PrefixIndex(ms);
      AgreeWithFullContext(ms[..|ms| - 1]);
      var x := ms[|ms| - 1];
      assert FarBefore(x, AsWritten) == FarBefore(x, Aligned);
      assert NearBefore(x, AsWritten) == NearBefore(x, Aligned);
    }
  }
}

=== FILE: order.dfy ===
/**
 * Lexicographic order on strings (Rust `String` comparison, JavaScript `<`/`>`
 * on strings, the default `Array.prototype.sort`, Rust `sort_unstable` on
 * `Vec<String>`) and a string sort whose result depends only on the multiset
 * of its input.
 */
module Order {

  /** `a` sorts strictly before `b`, comparing character codes left to right. */
  predicate StrLess(a: string, b: string)
    decreases |a|
  {
    if |a| == 0 then |b| > 0
    else if |b| == 0 then false
    else if a[0] != b[0] then a[0] < b[0]
    else StrLess(a[1..], b[1..])
  }

  predicate StrLeq(a: string, b: string) {
    a == b || StrLess(a, b)
  }

  lemma {:induction false} StrLessIrreflexive(a: string)
    ensures !StrLess(a, a)
    decreases |a|
  {
    if |a| > 0 {
      StrLessIrreflexive(a[1..]);
    }
  }

  lemma {:induction false} StrLessAsymmetric(a: string, b: string)
    requires StrLess(a, b)
    ensures !StrLess(b, a)
    decreases |a|
  {
    if |a| > 0 && |b| > 0 && a[0] == b[0] {
      StrLessAsymmetric(a[1..], b[1..]);
    }
  }

  lemma {:induction false} StrLessTransitive(a: string, b: string, c: string)
    requires StrLess(a, b) && StrLess(b, c)
    ensures StrLess(a, c)
    decreases |a|
  {
    if |a| > 0 && |b| > 0 && |c| > 0 && a[0] == b[0] && b[0] == c[0] {
      StrLessTransitive(a[1..], b[1..], c[1..]);
    }
  }

  /** Any two different strings are ordered one way or the other. */
  lemma {:induction false} StrLessTotal(a: string, b: string)
    ensures a == b || StrLess(a, b) || StrLess(b, a)
    decreases |a|
  {
    if |a| > 0 && |b| > 0 && a[0] == b[0] {
      StrLessTotal(a[1..], b[1..]);
      if a[1..] == b[1..] {
        assert a == [a[0]] + a[1..] && b == [b[0]] + b[1..];
      }
    }
  }

  lemma StrLeqTransitive(a: string, b: string, c: string)
    requires StrLeq(a, b) && StrLeq(b, c)
    ensures StrLeq(a, c)
  {
    if a != b && b != c {
      StrLessTransitive(a, b, c);
    }
  }

  lemma StrLeqAntisymmetric(a: string, b: string)
    requires StrLeq(a, b) && StrLeq(b, a)
    ensures a == b
  {
    if a != b {
      StrLessAsymmetric(a, b);
    }
  }

  lemma StrLeqTotal(a: string, b: string)
    ensures StrLeq(a, b) || StrLeq(b, a)
  {
    StrLessTotal(a, b);
  }

  predicate SortedStrings(s: seq<string>) {
    forall i, j :: 0 <= i < j < |s| ==> StrLeq(s[i], s[j])
  }

  /** No element of `t` sorts before `b`. */
  predicate AllAtLeast(b: string, t: seq<string>) {
    forall k :: 0 <= k < |t| ==> StrLeq(b, t[k])
  }

  /** A sorted sequence splits into its least element and a sorted rest. */
  lemma SortedHead(s: seq<string>)
    requires SortedStrings(s) && |s| > 0
    ensures AllAtLeast(s[0], s[1..]) && SortedStrings(s[1..])
  {
    assert forall k :: 0 <= k < |s[1..]| ==> s[1..][k] == s[k + 1];
  }

  /** A bound below the head of a sorted sequence bounds all of it. */
  lemma AllAtLeastThroughHead(x: string, s: seq<string>)
    requires SortedStrings(s) && |s| > 0 && StrLeq(x, s[0])
    ensures AllAtLeast(x, s)
  {
    forall k | 0 <= k < |s|
      ensures StrLeq(x, s[k])
    {
      if k > 0 {
        StrLeqTransitive(x, s[0], s[k]);
      }
    }
  }

  /** Putting a lower bound in front of a sorted sequence keeps it sorted. */
  lemma SortedCons(x: string, s: seq<string>)
    requires SortedStrings(s) && AllAtLeast(x, s)
    ensures SortedStrings([x] + s)
  {
    var r := [x] + s;
    forall i, j | 0 <= i < j < |r|
      ensures StrLeq(r[i], r[j])
    {
      assert r[j] == s[j - 1];
      if i > 0 {
        assert r[i] == s[i - 1];
      }
    }
  }

  /** A lower bound of `t` and of `x` bounds every arrangement of `t` plus `x`. */
  lemma AllAtLeastPermutation(b: string, t: seq<string>, x: string, u: seq<string>)
    requires AllAtLeast(b, t) && StrLeq(b, x)
    requires multiset(u) == multiset(t) + multiset{x}
    ensures AllAtLeast(b, u)
  {
    forall k | 0 <= k < |u|
      ensures StrLeq(b, u[k])
    {
      assert u[k] in multiset(u);
      if u[k] != x {
        assert u[k] in multiset(t);
        var j :| 0 <= j < |t| && t[j] == u[k];
      }
    }
  }

  /** Places `x` into an already sorted sequence. */
  function InsertString(x: string, s: seq<string>): (r: seq<string>)
    requires SortedStrings(s)
    ensures SortedStrings(r)
    ensures multiset(r) == multiset(s) + multiset{x}
  {
    if |s| == 0 then [x]
    else if StrLeq(x, s[0]) then
      AllAtLeastThroughHead(x, s);
      SortedCons(x, s);
      [x] + s
    else
      SortedHead(s);
      var rest := InsertString(x, s[1..]);
      StrLeqTotal(x, s[0]);
      AllAtLeastPermutation(s[0], s[1..], x, rest);
      SortedCons(s[0], rest);
      assert s == [s[0]] + s[1..];
      [s[0]] + rest
  }

  /** Sorts strings ascending; equal strings are interchangeable, so stability is moot. */
  function SortStrings(s: seq<string>): (r: seq<string>)
    ensures SortedStrings(r)
    ensures multiset(r) == multiset(s)
  {
    if |s| == 0 then []
    else
      assert s == [s[0]] + s[1..];
      InsertString(s[0], SortStrings(s[1..]))
  }

  /** Removing the head of a sequence removes one copy of it from the multiset. */
  lemma MultisetTail<T>(s: seq<T>)
    requires |s| > 0
    ensures multiset(s[1..]) == multiset(s) - multiset{s[0]}
  {
    assert s == [s[0]] + s[1..];
  }

  /** `f` applied to each element, in order. */
  function MapSeq<A, B>(f: A -> B, s: seq<A>): (r: seq<B>)
    ensures |r| == |s|
  {
    seq(|s|, i requires 0 <= i < |s| => f(s[i]))
  }

  /** Removing the element at `j` removes one copy of it from the multiset. */
  lemma MultisetRemove<T>(b: seq<T>, j: nat)
    requires j < |b|
    ensures multiset(b[..j] + b[j + 1..]) == multiset(b) - multiset{b[j]}
  {
    assert b == b[..j] + [b[j]] + b[j + 1..];
  }

  /** Mapping the sequence with element `j` removed is removing the image of `j`. */
  lemma MapSeqRemove<A, B>(f: A -> B, b: seq<A>, j: nat)
    requires j < |b|
    ensures multiset(MapSeq(f, b)) == multiset(MapSeq(f, b[..j] + b[j + 1..])) + multiset{f(b[j])}
  {
    var m := MapSeq(f, b);
    var rest := b[..j] + b[j + 1..];
    assert MapSeq(f, rest) == m[..j] + m[j + 1..];
    MultisetRemove(m, j);
  }

  /** The head of a permutation sits somewhere in the other sequence, and the rests are permutations too. */
  lemma PermutationSplit<T>(a: seq<T>, b: seq<T>) returns (j: nat)
    requires multiset(a) == multiset(b) && |a| > 0
    ensures j < |b| && b[j] == a[0]
    ensures multiset(a[1..]) == multiset(b[..j] + b[j + 1..])
  {
    assert a[0] in multiset(b);
    j :| 0 <= j < |b| && b[j] == a[0];
    MultisetRemove(b, j);
    MultisetTail(a);
  }

  /** Mapping a permutation gives a permutation of the images. */
  lemma {:induction false} MapSeqPermutation<A, B>(f: A -> B, a: seq<A>, b: seq<A>)
    requires multiset(a) == multiset(b)
    ensures multiset(MapSeq(f, a)) == multiset(MapSeq(f, b))
    decreases |a|
  {
    if |a| == 0 {
      assert |b| == |multiset(b)| == 0;
    } else {
      var j := PermutationSplit(a, b);
      MapSeqPermutation(f, a[1..], b[..j] + b[j + 1..]);
      MapSeqRemove(f, b, j);
      MapSeqRemove(f, a, 0);
      assert a[..0] + a[1..] == a[1..];
    }
  }

  /** Two sorted sequences with the same elements start with the same element. */
  lemma SortedHeadsAgree(a: seq<string>, b: seq<string>)
    requires SortedStrings(a) && SortedStrings(b)
    requires multiset(a) == multiset(b) && |a| > 0
    ensures |b| > 0 && a[0] == b[0]
  {
    assert a[0] in multiset(b);
    var j :| 0 <= j < |b| && b[j] == a[0];
    assert b[0] in multiset(a);
    var p :| 0 <= p < |a| && a[p] == b[0];
    assert StrLeq(b[0], a[0]) && StrLeq(a[0], b[0]);
    StrLeqAntisymmetric(a[0], b[0]);
  }

  /** A sorted sequence is determined by its multiset of elements. */
  lemma {:induction false} SortedStringsUnique(a: seq<string>, b: seq<string>)
    requires SortedStrings(a) && SortedStrings(b)
    requires multiset(a) == multiset(b)
    ensures a == b
    decreases |a|
  {
    if |a| == 0 {
      assert |b| == |multiset(b)| == 0;
    } else {
      SortedHeadsAgree(a, b);
      SortedHead(a);
      SortedHead(b);
      MultisetTail(a);
      MultisetTail(b);
      SortedStringsUnique(a[1..], b[1..]);
      assert a == [a[0]] + a[1..] && b == [b[0]] + b[1..];
    }
  }

  /** Sorting forgets the order of its input. */
  lemma SortIgnoresOrder(a: seq<string>, b: seq<string>)
    requires multiset(a) == multiset(b)
    ensures SortStrings(a) == SortStrings(b)
  {
    SortedStringsUnique(SortStrings(a), SortStrings(b));
  }
}

=== FILE: ordered_map.dfy ===
/**
 * A `BTreeMap<u32, V>` as a list of entries whose keys strictly ascend: the
 * list is exactly the map's iteration order. `ToMap` is the abstract view; the
 * operations are proved to act on that view as the corresponding map
 * operations do, and to keep the keys ascending.
 */
module OrderedMap {
  import opened Wrappers

  /** Keys strictly ascend, so each key appears at most once. */
  predicate Ascending<V>(s: seq<(nat, V)>) {
    forall i, j :: 0 <= i < j < |s| ==> s[i].0 < s[j].0
  }

  /** The associative view of an entry list. */
  function ToMap<V>(s: seq<(nat, V)>): map<nat, V> {
    if |s| == 0 then map[] else ToMap(s[1..])[s[0].0 := s[0].1]
  }

  /** The view's keys are exactly the entries' keys. */
  lemma {:induction false} ToMapKeys<V>(s: seq<(nat, V)>)
    ensures forall i :: 0 <= i < |s| ==> s[i].0 in ToMap(s)
    ensures forall k :: k in ToMap(s) ==> exists i :: 0 <= i < |s| && s[i].0 == k
  {
    if |s| > 0 {
      ToMapKeys(s[1..]);
      assert forall i :: 1 <= i < |s| ==> s[i] == s[1..][i - 1];
      forall k | k in ToMap(s)
        ensures exists i :: 0 <= i < |s| && s[i].0 == k
      {
        if k != s[0].0 {
          var i :| 0 <= i < |s[1..]| && s[1..][i].0 == k;
          assert s[i + 1].0 == k;
        }
      }
    }
  }

  /** With ascending keys, the view maps each entry's key to that entry's value. */
  lemma {:induction false} ToMapValues<V>(s: seq<(nat, V)>)
    requires Ascending(s)
    ensures forall i :: 0 <= i < |s| ==> s[i].0 in ToMap(s) && ToMap(s)[s[i].0] == s[i].1
  {
    if |s| > 0 {
      ToMapValues(s[1..]);
      forall i | 0 <= i < |s|
        ensures s[i].0 in ToMap(s) && ToMap(s)[s[i].0] == s[i].1
      {
        if i > 0 {
          assert s[i] == s[1..][i - 1];
          assert s[0].0 < s[i].0;
        }
      }
    }
  }

  /** With ascending keys, the view maps the `i`-th entry's key to its value. */
  lemma ToMapValueAt<V>(s: seq<(nat, V)>, i: nat)
    requires Ascending(s) && i < |s|
    ensures s[i].0 in ToMap(s) && ToMap(s)[s[i].0] == s[i].1
  {
    ToMapValues(s);
  }

  /** A key of the view is the key of some entry. */
  lemma ToMapKeyAt<V>(s: seq<(nat, V)>, k: nat) returns (i: nat)
    requires k in ToMap(s)
    ensures i < |s| && s[i].0 == k
  {
    ToMapKeys(s);
    i :| 0 <= i < |s| && s[i].0 == k;
  }

  /** Key lookup, as `BTreeMap::contains_key`. */
  function ContainsKey<V>(s: seq<(nat, V)>, k: nat): (b: bool)
    ensures b <==> k in ToMap(s)
  {
    if |s| == 0 then false
    else s[0].0 == k || ContainsKey(s[1..], k)
  }

  lemma UpdatesCommute<V>(m: map<nat, V>, a: nat, x: V, b: nat, y: V)
    requires a != b
    ensures m[a := x][b := y] == m[b := y][a := x]
  {
  }

  /** `BTreeMap::insert`: the entry for `k` is created or replaced. */
  function Insert<V>(s: seq<(nat, V)>, k: nat, v: V): (r: seq<(nat, V)>)
    requires Ascending(s)
    ensures Ascending(r)
    ensures ToMap(r) == ToMap(s)[k := v]
    ensures |r| > 0 && r[0].0 == if |s| == 0 || k < s[0].0 then k else s[0].0
  {
    if |s| == 0 then [(k, v)]
    else if k < s[0].0 then
      var r := [(k, v)] + s;
      assert r[1..] == s;
      assert ToMap(r) == ToMap(s)[k := v];
      r
    else if k == s[0].0 then
      var r := [(k, v)] + s[1..];
      assert r[1..] == s[1..];
      assert ToMap(r) == ToMap(s[1..])[k := v];
      r
    else
      var rest := Insert(s[1..], k, v);
      var r := [s[0]] + rest;
      assert r[1..] == rest;
      assert ToMap(r) == ToMap(rest)[s[0].0 := s[0].1];
      assert ToMap(s) == ToMap(s[1..])[s[0].0 := s[0].1];
      UpdatesCommute(ToMap(s[1..]), k, v, s[0].0, s[0].1);
      assert forall j :: 0 <= j < |rest| ==> s[0].0 < rest[j].0 by {
        forall j | 0 <= j < |rest|
          ensures s[0].0 < rest[j].0
        {
          if j > 0 {
            assert rest[0].0 < rest[j].0;
          }
        }
      }
      r
  }
}

=== FILE: ranking.dfy ===
/**
 * The order in which the default result view lists repositories, shared by the
 * Rust renderer (frontend/src/view.rs) and the JavaScript one
 * (frontend/static/view.js): more files with a match first, equal counts by
 * repository name ascending.
 *
 * `Ahead` is that order as a relation. The two comparators are proved to
 * decide it, and `Rank` sorts by it. Because repository names are hash-map
 * keys and so distinct, the ranked list does not depend on the order in which
 * the map was iterated.
 */
module Ranking {
  import opened Codesearch
  import opened Order

  /** `a` is listed before `b`. */
  predicate Ahead(a: Entry, b: Entry) {
    || a.1.filesWithMatch > b.1.filesWithMatch
    || (a.1.filesWithMatch == b.1.filesWithMatch && StrLess(a.0, b.0))
  }

  /** No entry is listed after one it should precede. */
  predicate Ranked(s: seq<Entry>) {
    forall i, j :: 0 <= i < j < |s| ==> !Ahead(s[j], s[i])
  }

  lemma AheadIrreflexive(a: Entry)
    ensures !Ahead(a, a)
  {
    StrLessIrreflexive(a.0);
  }

  lemma AheadAsymmetric(a: Entry, b: Entry)
    requires Ahead(a, b)
    ensures !Ahead(b, a)
  {
    if a.1.filesWithMatch == b.1.filesWithMatch {
      StrLessAsymmetric(a.0, b.0);
    }
  }

  /** Entries that neither precede the other carry the same name and count. */
  lemma NeitherAhead(a: Entry, b: Entry)
    requires !Ahead(a, b) && !Ahead(b, a)
    ensures a.0 == b.0 && a.1.filesWithMatch == b.1.filesWithMatch
  {
    StrLessTotal(a.0, b.0);
  }

  /** "Not listed after" is transitive. */
  lemma NotAheadTransitive(a: Entry, b: Entry, c: Entry)
    requires !Ahead(b, a) && !Ahead(c, b)
    ensures !Ahead(c, a)
  {
    StrLessTotal(a.0, b.0);
    StrLessTotal(b.0, c.0);
    if a.0 != b.0 && b.0 != c.0 && a.1.filesWithMatch == b.1.filesWithMatch == c.1.filesWithMatch {
      StrLessTransitive(a.0, b.0, c.0);
      StrLessAsymmetric(a.0, c.0);
    } else if a.0 != b.0 && a.1.filesWithMatch == b.1.filesWithMatch {
      StrLessAsymmetric(a.0, b.0);
    } else if b.0 != c.0 && b.1.filesWithMatch == c.1.filesWithMatch {
      StrLessAsymmetric(b.0, c.0);
    }
  }

  /** Rust's `std::cmp::Ordering`. */
  datatype Ordering = Less | Equal | Greater

  /** `partial_cmp` on `usize`, which is always `Some`. */
  function CompareCount(a: nat, b: nat): Ordering {
    if a < b then Less else if a == b then Equal else Greater
  }

  /** `partial_cmp` on `String`, which is always `Some`. */
  function CompareName(a: string, b: string): Ordering {
    if a == b then Equal else if StrLess(a, b) then Less else Greater
  }

  /** The closure passed to `sort_unstable_by` in `view_response_default`. */
  function RustCompare(a: Entry, b: Entry): Ordering {
    if b.1.filesWithMatch == a.1.filesWithMatch then CompareName(a.0, b.0)
    else CompareCount(b.1.filesWithMatch, a.1.filesWithMatch)
  }

  /** The Rust comparator decides `Ahead`, and reports `Equal` only for equal name and count. */
  lemma RustCompareDecidesAhead(a: Entry, b: Entry)
    ensures RustCompare(a, b) == Less <==> Ahead(a, b)
    ensures RustCompare(a, b) == Greater <==> Ahead(b, a)
    ensures RustCompare(a, b) == Equal <==> a.0 == b.0 && a.1.filesWithMatch == b.1.filesWithMatch
  {
    StrLessTotal(a.0, b.0);
    StrLessIrreflexive(a.0);
    if StrLess(a.0, b.0) {
      StrLessAsymmetric(a.0, b.0);
    }
  }

  /** The comparator passed to `Array.prototype.sort` in `buildResultsDefault`. */
  function JsCompare(a: Entry, b: Entry): int {
    if a.1.filesWithMatch == b.1.filesWithMatch then (if StrLess(b.0, a.0) then 1 else -1)
    else b.1.filesWithMatch - a.1.filesWithMatch
  }

  /** On entries with different names the JavaScript comparator decides `Ahead` and never ties. */
  lemma JsCompareDecidesAhead(a: Entry, b: Entry)
    requires a.0 != b.0
    ensures JsCompare(a, b) < 0 <==> Ahead(a, b)
    ensures JsCompare(a, b) > 0 <==> Ahead(b, a)
    ensures JsCompare(a, b) != 0
  {
    StrLessTotal(a.0, b.0);
    if StrLess(a.0, b.0) {
      StrLessAsymmetric(a.0, b.0);
    }
  }

  /**
   * Compared with itself, an entry claims to come first: the JavaScript
   * comparator is consistent only because object keys are distinct.
   */
  lemma JsCompareSelfIsLess(a: Entry)
    ensures JsCompare(a, a) < 0
  {
    StrLessIrreflexive(a.0);
  }

  /** No element of `t` is listed before `b`. */
  predicate NoneAhead(b: Entry, t: seq<Entry>) {
    forall k :: 0 <= k < |t| ==> !Ahead(t[k], b)
  }

  /** A ranked list splits into its first entry and a ranked rest. */
  lemma RankedHead(s: seq<Entry>)
    requires Ranked(s) && |s| > 0
    ensures NoneAhead(s[0], s[1..]) && Ranked(s[1..])
  {
    assert forall k :: 0 <= k < |s[1..]| ==> s[1..][k] == s[k + 1];
  }

  /** An entry the head of a ranked list does not precede is preceded by none of it. */
  lemma NoneAheadThroughHead(x: Entry, s: seq<Entry>)
    requires Ranked(s) && |s| > 0 && !Ahead(s[0], x)
    ensures NoneAhead(x, s)
  {
    forall k | 0 <= k < |s|
      ensures !Ahead(s[k], x)
    {
      if k > 0 {
        NotAheadTransitive(x, s[0], s[k]);
      }
    }
  }

  /** Putting an entry no other precedes in front of a ranked list keeps it ranked. */
  lemma RankedCons(x: Entry, s: seq<Entry>)
    requires Ranked(s) && NoneAhead(x, s)
    ensures Ranked([x] + s)
  {
    var r := [x] + s;
    forall i, j | 0 <= i < j < |r|
      ensures !Ahead(r[j], r[i])
    {
      assert r[j] == s[j - 1];
      if i > 0 {
        assert r[i] == s[i - 1];
      }
    }
  }

  /** What precedes neither `t` nor `x` precedes no arrangement of `t` plus `x`. */
  lemma NoneAheadPermutation(b: Entry, t: seq<Entry>, x: Entry, u: seq<Entry>)
    requires NoneAhead(b, t) && !Ahead(x, b)
    requires multiset(u) == multiset(t) + multiset{x}
    ensures NoneAhead(b, u)
  {
    forall k | 0 <= k < |u|
      ensures !Ahead(u[k], b)
    {
      assert u[k] in multiset(u);
      if u[k] != x {
        assert u[k] in multiset(t);
        var j :| 0 <= j < |t| && t[j] == u[k];
      }
    }
  }

  /** Places `x` into a ranked list. */
  function InsertRanked(x: Entry, s: seq<Entry>): (r: seq<Entry>)
    requires Ranked(s)
    ensures |r| == |s| + 1
    ensures Ranked(r)
    ensures multiset(r) == multiset(s) + multiset{x}
  {
    if |s| == 0 then [x]
    else if !Ahead(s[0], x) then
      NoneAheadThroughHead(x, s);
      RankedCons(x, s);
      [x] + s
    else
      RankedHead(s);
      var rest := InsertRanked(x, s[1..]);
      AheadAsymmetric(s[0], x);
      NoneAheadPermutation(s[0], s[1..], x, rest);
      RankedCons(s[0], rest);
      assert s == [s[0]] + s[1..];
      [s[0]] + rest
  }

  /** The repositories in display order: a ranked permutation of the result entries. */
  function Rank(entries: seq<Entry>): (r: seq<Entry>)
    ensures |r| == |entries|
    ensures Ranked(r)
    ensures multiset(r) == multiset(entries)
  {
    if |entries| == 0 then []
    else
      assert entries == [entries[0]] + entries[1..];
      InsertRanked(entries[0], Rank(entries[1..]))
  }

  /**
   * Whatever algorithm `sort_unstable_by` uses, a permutation of the entries
   * that the Rust comparator never reports out of order is the ranked list.
   */
  lemma RustSortIsRank(entries: seq<Entry>, sorted: seq<Entry>)
    requires DistinctNames(entries)
    requires multiset(sorted) == multiset(entries)
    requires forall i, j :: 0 <= i < j < |sorted| ==> RustCompare(sorted[i], sorted[j]) != Greater
    ensures sorted == Rank(entries)
  {
    forall i, j | 0 <= i < j < |sorted|
      ensures !Ahead(sorted[j], sorted[i]) && sorted[i].0 != sorted[j].0
    {
      DistinctInMultiset(entries, sorted, i, j);
      RustCompareDecidesAhead(sorted[i], sorted[j]);
    }
    RankedUnique(sorted, Rank(entries));
  }

  /**
   * Likewise for `Array.prototype.sort`: with distinct names, a permutation
   * the JavaScript comparator never reports out of order is the ranked list.
   */
  lemma JsSortIsRank(entries: seq<Entry>, sorted: seq<Entry>)
    requires DistinctNames(entries)
    requires multiset(sorted) == multiset(entries)
    requires forall i, j :: 0 <= i < j < |sorted| ==> JsCompare(sorted[i], sorted[j]) <= 0
    ensures sorted == Rank(entries)
  {
    forall i, j | 0 <= i < j < |sorted|
      ensures !Ahead(sorted[j], sorted[i]) && sorted[i].0 != sorted[j].0
    {
      DistinctInMultiset(entries, sorted, i, j);
      JsCompareDecidesAhead(sorted[i], sorted[j]);
    }
    RankedUnique(sorted, Rank(entries));
  }

  /** Two ranked lists with the same entries and distinct names start with the same entry. */
  lemma RankedHeadsAgree(a: seq<Entry>, b: seq<Entry>)
    requires Ranked(a) && Ranked(b) && DistinctNames(a)
    requires multiset(a) == multiset(b) && |a| > 0
    ensures |b| > 0 && a[0] == b[0]
  {
    assert a[0] in multiset(b);
    var j :| 0 <= j < |b| && b[j] == a[0];
    assert b[0] in multiset(a);
    var p :| 0 <= p < |a| && a[p] == b[0];
    if j == 0 || p == 0 {
      AheadIrreflexive(a[0]);
    }
    NeitherAhead(a[0], b[0]);
    assert p == 0;
  }

  /** Dropping the first entry keeps names distinct. */
  lemma DistinctNamesTail(a: seq<Entry>)
    requires DistinctNames(a) && |a| > 0
    ensures DistinctNames(a[1..])
  {
    assert forall k :: 0 <= k < |a[1..]| ==> a[1..][k] == a[k + 1];
  }

  /** With distinct names, a ranked list is determined by its elements. */
  lemma {:induction false} RankedUnique(a: seq<Entry>, b: seq<Entry>)
    requires Ranked(a) && Ranked(b)
    requires DistinctNames(a)
    requires multiset(a) == multiset(b)
    ensures a == b
    decreases |a|
  {
    if |a| == 0 {
      assert |b| == |multiset(b)| == 0;
    } else {
      RankedHeadsAgree(a, b);
      RankedHead(a);
      RankedHead(b);
      DistinctNamesTail(a);
      MultisetTail(a);
      MultisetTail(b);
      RankedUnique(a[1..], b[1..]);
      assert a == [a[0]] + a[1..] && b == [b[0]] + b[1..];
    }
  }

  /** The display order does not depend on the hash map's iteration order. */
  lemma RankIgnoresIterationOrder(a: seq<Entry>, b: seq<Entry>)
    requires DistinctNames(a)
    requires multiset(a) == multiset(b)
    ensures Rank(a) == Rank(b)
  {
    var ra, rb := Rank(a), Rank(b);
    forall i, j | 0 <= i < j < |ra|
      ensures ra[i].0 != ra[j].0
    {
      assert ra[i] in multiset(a) && ra[j] in multiset(a);
      DistinctInMultiset(a, ra, i, j);
    }
    RankedUnique(ra, rb);
  }

  /** Two positions of a permutation of a list with distinct names carry distinct names. */
  lemma DistinctInMultiset(a: seq<Entry>, r: seq<Entry>, i: nat, j: nat)
    requires DistinctNames(a)
    requires multiset(r) == multiset(a)
    requires i < j < |r|
    ensures r[i].0 != r[j].0
  {
    if r[i] == r[j] {
      var s := r[..j] + r[j + 1..];
      assert r == s[..j] + [r[j]] + s[j..] by {
        assert r == r[..j] + [r[j]] + r[j + 1..];
      }
      assert r[i] == s[i];
      assert multiset(r)[r[i]] >= 2 by {
        assert multiset(r) == multiset(s[..j]) + multiset{r[j]} + multiset(s[j..]);
        assert r[i] in multiset(s[..j]);
      }
      CountAtMostOne(a, r[i]);
    } else {
      assert r[i] in multiset(a) && r[j] in multiset(a);
      var p :| 0 <= p < |a| && a[p] == r[i];
      var q :| 0 <= q < |a| && a[q] == r[j];
      assert p != q;
    }
  }

  /** In a list with distinct names every entry occurs at most once. */
  lemma {:induction false} CountAtMostOne(a: seq<Entry>, e: Entry)
    requires DistinctNames(a)
    ensures multiset(a)[e] <= 1
  {
    if |a| > 0 {
      assert a == [a[0]] + a[1..];
      DistinctNamesTail(a);
      CountAtMostOne(a[1..], e);
      if a[0] == e {
        assert e !in multiset(a[1..]) by {
          forall k | 0 <= k < |a[1..]|
            ensures a[1..][k] != e
          {
            assert a[1..][k] == a[k + 1];
          }
        }
      }
    }
  }
}

=== FILE: repo_select.dfy ===
/**
 * The repository selector of the search form (frontend/static/codesearch.js):
 * the selection read from the hidden form field, checkbox changes, the
 * summary label and the value written back for submission, and the open
 * state of the dropdown.
 */
module RepoSelect {
  import opened Strings
  import opened Order
  import opened Backend

  /**
   * The characters `String.prototype.trim` removes: the ECMAScript white
   * space and line terminators.
   */
  const JS_TRIM: set<char> := {
    '\t', '\n', 11 as char, 12 as char, '\r', ' ', 0xA0 as char, 0x1680 as char,
    0x2000 as char, 0x2001 as char, 0x2002 as char, 0x2003 as char, 0x2004 as char, 0x2005 as char,
    0x2006 as char, 0x2007 as char, 0x2008 as char, 0x2009 as char, 0x200A as char,
    0x2028 as char, 0x2029 as char, 0x202F as char, 0x205F as char, 0x3000 as char, 0xFEFF as char
  }

  /**
   * `repoSelectState`: whether the dropdown is shown, and the selected
   * repositories in the insertion order of the JavaScript `Set`.
   */
  datatype SelectState = SelectState(isOpen: bool, selected: seq<string>)

  /** No repository is held twice, as in a `Set`. */
  predicate Distinct(s: seq<string>) {
    forall i, j :: 0 <= i < j < |s| ==> s[i] != s[j]
  }

  /** The trimmed, non-empty pieces, in order. */
  function Tokens(parts: seq<string>): seq<string> {
    if |parts| == 0 then []
    else
      var t := Trim(parts[|parts| - 1], JS_TRIM);
      if t == "" then Tokens(parts[..|parts| - 1]) else Tokens(parts[..|parts| - 1]) + [t]
  }

  /** The tokens are exactly the non-empty trimmed pieces. */
  lemma {:induction false} TokensMembers(parts: seq<string>)
    ensures forall x :: x in Tokens(parts) <==> x != "" && exists p :: p in parts && Trim(p, JS_TRIM) == x
  {
    if |parts| > 0 {
      var init := parts[..|parts| - 1];
      TokensMembers(init);
      assert forall p :: p in parts <==> p in init || p == parts[|parts| - 1];
    }
  }

  /** A `Set` built from a sequence: each value at its first occurrence. */
  function Dedupe(s: seq<string>): (r: seq<string>)
    ensures Distinct(r)
    ensures forall x :: x in r <==> x in s
  {
    if |s| == 0 then []
    else
      var d := Dedupe(s[..|s| - 1]);
      assert forall x :: x in s <==> x in s[..|s| - 1] || x == s[|s| - 1];
      if s[|s| - 1] in d then d else d + [s[|s| - 1]]
  }

  /** The initial state: closed, holding the comma-separated names of the repos field. */
  function Initial(repos: string): (r: SelectState)
    ensures !r.isOpen && Distinct(r.selected)
    ensures forall x :: x in r.selected <==> x != "" && exists p :: p in Split(repos, ",") && Trim(p, JS_TRIM) == x
  {
    var parts := Split(repos, ",");
    TokensMembers(parts);
    SelectState(false, Dedupe(Tokens(parts)))
  }

  /** `selected.delete(x)`. */
  function Remove(s: seq<string>, x: string): (r: seq<string>)
    ensures Distinct(s) ==> Distinct(r)
    ensures forall y :: y in r <==> y in s && y != x
    ensures x !in s ==> r == s
  {
    if |s| == 0 then []
    else
      var init := Remove(s[..|s| - 1], x);
      assert forall y :: y in s <==> y in s[..|s| - 1] || y == s[|s| - 1];
      assert s == s[..|s| - 1] + [s[|s| - 1]];
      if s[|s| - 1] == x then init
      else
        assert Distinct(s) ==> s[|s| - 1] !in s[..|s| - 1];
        init + [s[|s| - 1]]
  }

  /**
   * `onRepoDropdownChange`: a checked box adds its repository (once), a
   * cleared one removes it; no other repository changes and the dropdown
   * stays as it was.
   */
  function Change(st: SelectState, value: string, checked: bool): (r: SelectState)
    ensures r.isOpen == st.isOpen
    ensures Distinct(st.selected) ==> Distinct(r.selected)
    ensures forall y :: y != value ==> (y in r.selected <==> y in st.selected)
    ensures value in r.selected <==> checked
  {
    if checked then
      if value in st.selected then st
      else
        var r := st.(selected := st.selected + [value]);
        assert forall y :: y in r.selected <==> y in st.selected || y == value;
        r
    else st.(selected := Remove(st.selected, value))
  }

  /** Checking a box and clearing it again restores the selection. */
  lemma CheckThenClear(st: SelectState, value: string)
    requires value !in st.selected
    ensures Change(Change(st, value, true), value, false) == st
  {
    var s := st.selected;
    var t := s + [value];
    assert t[..|t| - 1] == s;
  }

  /** The summary label: "Select repos", with the count when any are selected. */
  function Label(st: SelectState): string {
    if |st.selected| == 0 then "Select repos"
    else "Select repos (" + NatToString(|st.selected|) + ")"
  }

  /** The label shows a count exactly when something is selected, and that count reads back. */
  lemma LabelShowsCount(st: SelectState)
    ensures Label(st) == "Select repos" <==> |st.selected| == 0
    ensures |st.selected| > 0 ==>
      var digits := Label(st)[|"Select repos ("|..|Label(st)| - 1];
      IsDigits(digits) && ParseDecimal(digits) == |st.selected|
  {
    if |st.selected| > 0 {
      var n := NatToString(|st.selected|);
      var l := Label(st);
      assert |l| > |"Select repos"|;
      assert l[|"Select repos ("|..|l| - 1] == n;
      DecimalRoundTrip(|st.selected|);
    }
  }

  /** The value `sync` writes to the hidden field: the selection sorted and comma-joined. */
  function Hidden(st: SelectState): string {
    Join(SortStrings(st.selected), ",")
  }

  /** The hidden value does not depend on the order in which boxes were checked. */
  lemma HiddenIgnoresOrder(a: SelectState, b: SelectState)
    requires multiset(a.selected) == multiset(b.selected)
    ensures Hidden(a) == Hidden(b)
  {
    SortIgnoresOrder(a.selected, b.selected);
  }

  /** A repository name the selection can hold and write back unchanged. */
  predicate PlainName(x: string) {
    x != "" && ',' !in x && x[0] !in JS_TRIM && x[|x| - 1] !in JS_TRIM
  }

  /** Sorting keeps the elements, so it keeps a property every element has. */
  lemma SortKeepsPlain(s: seq<string>)
    requires forall x :: x in s ==> PlainName(x)
    ensures forall x :: x in SortStrings(s) ==> PlainName(x)
  {
    var r := SortStrings(s);
    forall x | x in r
      ensures PlainName(x)
    {
      assert x in multiset(r);
    }
  }

  /** Tokens of pieces that are already trimmed and non-empty are the pieces. */
  lemma {:induction false} TokensOfPlain(parts: seq<string>)
    requires forall x :: x in parts ==> PlainName(x)
    ensures Tokens(parts) == parts
  {
    if |parts| > 0 {
      var init := parts[..|parts| - 1];
      var last := parts[|parts| - 1];
      assert PlainName(last) by {
        assert last in parts;
      }
      assert forall x :: x in init ==> x in parts;
      TokensOfPlain(init);
      TrimOfTrimmed(last, JS_TRIM);
      assert Tokens(parts) == Tokens(init) + [last];
      assert init + [last] == parts;
    }
  }

  /** A sorted sequence without repeats is its own deduplication. */
  lemma {:induction false} DedupeOfDistinct(s: seq<string>)
    requires Distinct(s)
    ensures Dedupe(s) == s
  {
    if |s| > 0 {
      var init := s[..|s| - 1];
      assert Distinct(init);
      DedupeOfDistinct(init);
      assert s[|s| - 1] !in init;
      assert init + [s[|s| - 1]] == s;
    }
  }

  /** Two equal elements make a count of at least two. */
  lemma EqualPairCounts(r: seq<string>, i: nat, j: nat)
    requires i < j < |r|
    ensures r[i] == r[j] ==> multiset(r)[r[i]] >= 2
  {
    assert r == r[..j] + r[j..];
    assert r[i] in r[..j];
    assert r[j..][0] == r[j];
    assert r[j] in r[j..];
  }

  /** Sorting keeps repeats out. */
  lemma SortKeepsDistinct(s: seq<string>)
    requires Distinct(s)
    ensures Distinct(SortStrings(s))
  {
    var r := SortStrings(s);
    forall i, j | 0 <= i < j < |r|
      ensures r[i] != r[j]
    {
      EqualPairCounts(r, i, j);
      DistinctCount(s, r[i]);
    }
  }

  /** In a sequence without repeats every value occurs at most once. */
  lemma {:induction false} DistinctCount(s: seq<string>, x: string)
    requires Distinct(s)
    ensures multiset(s)[x] <= 1
  {
    if |s| > 0 {
      var init := s[..|s| - 1];
      assert Distinct(init);
      DistinctCount(init, x);
      assert s == init + [s[|s| - 1]];
      assert s[|s| - 1] !in init;
    }
  }

  /**
   * Reading back the value written to the hidden field gives the selection
   * in sorted order, for repository names without commas or surrounding
   * white space.
   */
  lemma HiddenReadsBack(st: SelectState)
    requires Distinct(st.selected)
    requires forall x :: x in st.selected ==> PlainName(x)
    ensures Initial(Hidden(st)).selected == SortStrings(st.selected)
  {
    var sorted := SortStrings(st.selected);
    SortKeepsPlain(st.selected);
    SortKeepsDistinct(st.selected);
    if |sorted| == 0 {
      assert Hidden(st) == "";
      assert Split("", ",") == [""] by {
        SplitJoin([""], ',');
        assert Join([""], [',']) == "";
      }
      assert Trim("", JS_TRIM) == "";
      var parts := [""];
      assert parts[..0] == [];
      assert Tokens(parts) == [];
    } else {
      forall k | 0 <= k < |sorted|
        ensures ',' !in sorted[k]
      {
        assert sorted[k] in sorted;
      }
      SplitJoin(sorted, ',');
      assert Split(Hidden(st), ",") == sorted;
      TokensOfPlain(sorted);
      DedupeOfDistinct(sorted);
    }
  }

  /** The dropdown options: the configured repository names in sorted order. */
  function Options(reposData: Config<RepoConf>): (r: seq<string>)
    ensures SortedStrings(r)
    ensures multiset(r) == multiset(Names(reposData))
  {
    SortStrings(Names(reposData))
  }

  /** Typing in or focusing the repository field shows the dropdown. */
  function OnInput(st: SelectState): (r: SelectState)
    ensures r.isOpen && r.selected == st.selected
  {
    st.(isOpen := true)
  }

  /** A key press closes an open dropdown on Escape only. */
  function OnKey(st: SelectState, code: string): (r: SelectState)
    ensures r.selected == st.selected
    ensures r.isOpen <==> st.isOpen && code != "Escape"
  {
    if st.isOpen && code == "Escape" then st.(isOpen := false) else st
  }

  /** A click or focus outside the selector closes an open dropdown; one inside leaves it. */
  function OnDocumentTarget(st: SelectState, inside: bool): (r: SelectState)
    ensures r.selected == st.selected
    ensures r.isOpen <==> st.isOpen && inside
  {
    if st.isOpen && !inside then st.(isOpen := false) else st
  }
}

=== FILE: server.dfy ===
/**
 * The request handling of the search page (frontend/src/Model.php): the GET
 * parameters are normalised, a canonical query string is derived, and
 * `execute` answers with a redirect, an error page, the health page, the
 * repository index or the search page. The page views are records of the
 * data handed to the templates.
 */
module Server {
  import opened Wrappers
  import opened Strings
  import opened Codesearch
  import opened Backend

  /** `Model::ACTIONS`. */
  const Actions: seq<string> := ["search", "repos"]

  /** The characters PHP's `trim` removes by default: space, tab, line feed, carriage return, NUL and vertical tab. */
  const PHP_TRIM: set<char> := {' ', '\t', '\n', '\r', '\0', 11 as char}

  /** The request state of `Model`. */
  datatype Params = Params(
    action: string,
    backend: string,
    query: string,
    caseInsensitive: bool,
    filePath: string,
    excludeFiles: string,
    repos: string)

  /** A fresh `Model` for a backend, as `setURL` leaves it. */
  function Fresh(backend: string): Params {
    Params("", backend, "", false, "", "", "")
  }

  /** The GET value under `k`, or the default. */
  function GetOr(get: map<string, string>, k: string, default: string): string {
    if k in get then get[k] else default
  }

  /**
   * `setGetParams`: the action defaults to "search", the query and the
   * repositories are trimmed, the case flag is set by "fosho" only, and a
   * missing field is empty.
   */
  function SetGetParams(p: Params, get: map<string, string>): (r: Params)
    ensures r.backend == p.backend
    ensures "action" in get ==> r.action == get["action"]
    ensures "q" in get ==> r.query == Trim(get["q"], PHP_TRIM)
    ensures "files" in get ==> r.filePath == get["files"]
    ensures "excludeFiles" in get ==> r.excludeFiles == get["excludeFiles"]
    ensures "repos" in get ==> r.repos == Trim(get["repos"], PHP_TRIM)
    ensures "action" !in get ==> r.action == "search"
    ensures "q" !in get ==> r.query == ""
    ensures "files" !in get ==> r.filePath == ""
    ensures "excludeFiles" !in get ==> r.excludeFiles == ""
    ensures "repos" !in get ==> r.repos == ""
    ensures r.caseInsensitive <==> "i" in get && get["i"] == "fosho"
    ensures |r.query| > 0 ==> r.query[0] !in PHP_TRIM && r.query[|r.query| - 1] !in PHP_TRIM
    ensures |r.repos| > 0 ==> r.repos[0] !in PHP_TRIM && r.repos[|r.repos| - 1] !in PHP_TRIM
  {
    Params(
      GetOr(get, "action", "search"),
      p.backend,
      Trim(GetOr(get, "q", ""), PHP_TRIM),
      GetOr(get, "i", "") == "fosho",
      GetOr(get, "files", ""),
      GetOr(get, "excludeFiles", ""),
      Trim(GetOr(get, "repos", ""), PHP_TRIM))
  }

  /** Parameters as `setGetParams` leaves them: the query and repositories carry no surrounding whitespace. */
  predicate Normalised(p: Params) {
    && (|p.query| > 0 ==> p.query[0] !in PHP_TRIM && p.query[|p.query| - 1] !in PHP_TRIM)
    && (|p.repos| > 0 ==> p.repos[0] !in PHP_TRIM && p.repos[|p.repos| - 1] !in PHP_TRIM)
  }

  /**
   * The canonical query before `null`s are dropped: the query, the case
   * flag, the file filter and the excluded files, each only when set, and
   * never the repositories.
   */
  function CanonicalEntries(p: Params): (s: seq<(string, Option<string>)>)
    ensures Names(s) == ["q", "i", "files", "excludeFiles"]
  {
    var s := [
      ("q", if p.query != "" then Some(p.query) else None),
      ("i", if p.caseInsensitive then Some("fosho") else None),
      ("files", if p.filePath != "" then Some(p.filePath) else None),
      ("excludeFiles", if p.excludeFiles != "" then Some(p.excludeFiles) else None)
    ];
    assert Names(s) == ["q", "i", "files", "excludeFiles"];
    s
  }

  /** The canonical query as (name, value) pairs. */
  function CanonicalQuery(p: Params): seq<(string, string)> {
    DropNulls(CanonicalEntries(p))
  }

  /** Writes parameters as `name=value` joined by "&", before percent-encoding. */
  function EncodeQuery(params: seq<(string, string)>): string {
    Join(seq(|params|, i requires 0 <= i < |params| => params[i].0 + "=" + params[i].1), "&")
  }

  /** The canonical query string: "?" and the parameters, or "" rather than a bare "?". */
  function CanonicalQueryString(p: Params): string {
    var c := CanonicalQuery(p);
    if |c| == 0 then "" else "?" + EncodeQuery(c)
  }

  /** Dropping `null`s leaves nothing exactly when every value is `null`. */
  lemma {:induction false} DropNullsEmpty(s: seq<(string, Option<string>)>)
    ensures |DropNulls(s)| == 0 <==> forall l :: 0 <= l < |s| ==> s[l].1.None?
  {
    if |s| > 0 {
      DropNullsEmpty(s[1..]);
      assert forall l :: 1 <= l < |s| ==> s[l] == s[1..][l - 1];
    }
  }

  /** The canonical query string is empty exactly when no query, case flag or filter is set. */
  lemma CanonicalEmpty(p: Params)
    ensures CanonicalQueryString(p) == "" <==>
      p.query == "" && !p.caseInsensitive && p.filePath == "" && p.excludeFiles == ""
  {
    var s := CanonicalEntries(p);
    DropNullsEmpty(s);
    assert (forall l :: 0 <= l < |s| ==> s[l].1.None?) <==> s[0].1.None? && s[1].1.None? && s[2].1.None? && s[3].1.None?;
  }

  /** The GET array PHP builds from a query string: a later parameter of the same name wins. */
  function QueryMap(params: seq<(string, string)>): map<string, string> {
    if |params| == 0 then map[] else map[params[0].0 := params[0].1] + QueryMap(params[1..])
  }

  /** Every parameter's name is a key, and every key's value is that of some parameter. */
  lemma {:induction false} QueryMapEntries(params: seq<(string, string)>)
    ensures forall x :: x in params ==> x.0 in QueryMap(params)
    ensures forall k :: k in QueryMap(params) ==> (k, QueryMap(params)[k]) in params
  {
    if |params| > 0 {
      QueryMapEntries(params[1..]);
      assert forall x :: x in params ==> x == params[0] || x in params[1..];
      forall k | k in QueryMap(params)
        ensures (k, QueryMap(params)[k]) in params
      {
        if k in QueryMap(params[1..]) {
          assert (k, QueryMap(params[1..])[k]) in params[1..];
        }
      }
    }
  }

  /** A name held by one entry only is a GET key after dropping `null`s exactly when that entry is set, with its value. */
  lemma DropNullsQueryMap(s: seq<(string, Option<string>)>, k: string, j: nat)
    requires j < |s| && s[j].0 == k
    requires forall l :: 0 <= l < |s| && s[l].0 == k ==> l == j
    ensures k in QueryMap(DropNulls(s)) <==> s[j].1.Some?
    ensures s[j].1.Some? ==> QueryMap(DropNulls(s))[k] == s[j].1.value
  {
    var c := DropNulls(s);
    DropNullsMembers(s);
    QueryMapEntries(c);
    if k in QueryMap(c) {
      assert (k, QueryMap(c)[k]) in c;
      var l :| 0 <= l < |s| && s[l] == (k, Some(QueryMap(c)[k]));
    }
    if s[j].1.Some? {
      assert s[j] in s;
      assert (k, s[j].1.value) in c;
    }
  }

  /** The canonical entries name each parameter once. */
  lemma CanonicalNamesDistinct(p: Params)
    ensures forall a, b :: 0 <= a < b < 4 ==> CanonicalEntries(p)[a].0 != CanonicalEntries(p)[b].0
  {
    var s := CanonicalEntries(p);
    assert s[0].0[0] == 'q' && s[1].0[0] == 'i' && s[2].0[0] == 'f' && s[3].0[0] == 'e';
  }

  /** The GET parameters read back from the canonical query: each set field under its name. */
  lemma CanonicalGet(p: Params)
    ensures var get := QueryMap(CanonicalQuery(p));
      && ("q" in get <==> p.query != "") && ("q" in get ==> get["q"] == p.query)
      && ("i" in get <==> p.caseInsensitive) && ("i" in get ==> get["i"] == "fosho")
      && ("files" in get <==> p.filePath != "") && ("files" in get ==> get["files"] == p.filePath)
      && ("excludeFiles" in get <==> p.excludeFiles != "") && ("excludeFiles" in get ==> get["excludeFiles"] == p.excludeFiles)
  {
    var s := CanonicalEntries(p);
    CanonicalNamesDistinct(p);
    DropNullsQueryMap(s, "q", 0);
    DropNullsQueryMap(s, "i", 1);
    DropNullsQueryMap(s, "files", 2);
    DropNullsQueryMap(s, "excludeFiles", 3);
  }

  /** A name no entry carries is not a GET key after dropping `null`s. */
  lemma AbsentFromQueryMap(s: seq<(string, Option<string>)>, k: string)
    requires k !in Names(s)
    ensures k !in QueryMap(DropNulls(s))
  {
    DropNullsMembers(s);
    QueryMapEntries(DropNulls(s));
    forall x | x in DropNulls(s)
      ensures x.0 != k
    {
      var l :| 0 <= l < |s| && s[l] == (x.0, Some(x.1));
      assert Names(s)[l] == x.0;
    }
  }

  /** The canonical query never names the action or the repositories. */
  lemma CanonicalOmits(p: Params)
    ensures "action" !in QueryMap(CanonicalQuery(p)) && "repos" !in QueryMap(CanonicalQuery(p))
  {
    var s := CanonicalEntries(p);
    assert |"action"| == 6 && "repos"[0] == 'r' && "files"[0] == 'f';
    AbsentFromQueryMap(s, "action");
    AbsentFromQueryMap(s, "repos");
  }

  /**
   * Reading the canonical query back as GET parameters restores the
   * normalised search, with the default action and without repositories.
   */
  lemma CanonicalRoundTrip(p: Params, q: Params)
    requires Normalised(p)
    ensures SetGetParams(q, QueryMap(CanonicalQuery(p))) == p.(action := "search", backend := q.backend, repos := "")
  {
    CanonicalGet(p);
    CanonicalOmits(p);
    TrimOfTrimmed(p.query, PHP_TRIM);
    TrimOfTrimmed("", PHP_TRIM);
  }


  /** One entry of the backend navigation; `id` is the backend it links to. */
  datatype NavItem = NavItem(id: string, href: string, shown: string, active: bool)

  /** The navigation over `list`: hidden backends are skipped, the current one is active. */
  function NavOver(list: seq<(string, string)>, backend: string, canonical: string): (r: seq<NavItem>)
    ensures |r| <= |list|
  {
    if |list| == 0 then []
    else
      var rest := NavOver(list[1..], backend, canonical);
      if list[0].0 in HiddenBackends then rest
      else [NavItem(list[0].0, "/" + list[0].0 + "/" + canonical, list[0].1, list[0].0 == backend)] + rest
  }

  /**
   * Every item links to a listed, visible backend under the canonical
   * query and is active exactly for the current backend; every visible
   * entry of the list has its item.
   */
  lemma {:induction false} NavOverItems(list: seq<(string, string)>, backend: string, canonical: string)
    ensures forall i :: 0 <= i < |NavOver(list, backend, canonical)| ==>
      var item := NavOver(list, backend, canonical)[i];
      && item.id !in HiddenBackends
      && (item.id, item.shown) in list
      && item.href == "/" + item.id + "/" + canonical
      && (item.active <==> item.id == backend)
    ensures forall e :: e in list && e.0 !in HiddenBackends ==>
      exists i :: 0 <= i < |NavOver(list, backend, canonical)| && NavOver(list, backend, canonical)[i].id == e.0
        && NavOver(list, backend, canonical)[i].shown == e.1
  {
    if |list| > 0 {
      var rest := NavOver(list[1..], backend, canonical);
      NavOverItems(list[1..], backend, canonical);
      var r := NavOver(list, backend, canonical);
      assert forall e :: e in list ==> e == list[0] || e in list[1..];
      if list[0].0 !in HiddenBackends {
        assert r == [NavItem(list[0].0, "/" + list[0].0 + "/" + canonical, list[0].1, list[0].0 == backend)] + rest;
        assert forall i :: 1 <= i < |r| ==> r[i] == rest[i - 1];
        forall e | e in list && e.0 !in HiddenBackends
          ensures exists i :: 0 <= i < |r| && r[i].id == e.0 && r[i].shown == e.1
        {
          if e != list[0] {
            var i :| 0 <= i < |rest| && rest[i].id == e.0 && rest[i].shown == e.1;
            assert r[i + 1] == rest[i];
          } else {
            assert r[0].id == e.0 && r[0].shown == e.1;
          }
        }
      }
    }
  }

  /** `$backends` of `execute`. */
  function Nav(backend: string, canonical: string): seq<NavItem> {
    NavOver(BackendLabels, backend, canonical)
  }

  /** `array_intersect($selected, array_keys($reposData))`: the selected names that are configured, in order, repeats kept. */
  function Intersect(selected: seq<string>, keys: seq<string>): (r: seq<string>)
    ensures |r| <= |selected|
    ensures forall x :: x in r <==> x in selected && x in keys
  {
    if |selected| == 0 then []
    else
      var rest := Intersect(selected[1..], keys);
      assert forall x :: x in selected <==> x == selected[0] || x in selected[1..];
      if selected[0] in keys then [selected[0]] + rest else rest
  }

  /** The selected repositories: the comma-separated names that the configuration has. */
  function SelectedRepos(repos: string, config: Config<RepoConf>): seq<string> {
    Intersect(Split(repos, ","), Names(config))
  }

  /**
   * Selection keeps each name as often as it is given, or drops it when it
   * is not configured, and keeps the given order.
   */
  lemma {:induction false} IntersectCounts(selected: seq<string>, keys: seq<string>, x: string)
    ensures multiset(Intersect(selected, keys))[x] == if x in keys then multiset(selected)[x] else 0
    ensures Subsequence(Intersect(selected, keys), selected)
  {
    if |selected| > 0 {
      IntersectCounts(selected[1..], keys, x);
      assert selected == [selected[0]] + selected[1..];
      var rest := Intersect(selected[1..], keys);
      if selected[0] in keys {
        assert Intersect(selected, keys)[1..] == rest;
      } else {
        SubsequenceSkip(rest, selected);
      }
    }
  }

  /** The fields of the search form handed to the API request and the page. */
  function FieldsOf(p: Params, repos: string): map<string, Field> {
    map["query" := Str(p.query), "caseInsensitive" := Flag(p.caseInsensitive), "filePath" := Str(p.filePath),
        "excludeFiles" := Str(p.excludeFiles), "repos" := Str(repos)]
  }

  /** The data of the search page. */
  datatype IndexPage = IndexPage(
    isSubmit: bool,
    docTitle: Option<string>,
    apiQueryUrl: Option<ApiUrl>,
    backendLabel: string,
    nav: seq<NavItem>,
    fields: map<string, Field>,
    selectedRepoCount: string,
    reposData: Config<RepoConf>)

  /** What `execute` renders. */
  datatype View =
    | NoView
    | ErrorView(error: string, errorNav: seq<NavItem>)
    | HealthView(healthNav: seq<NavItem>)
    | ReposView(reposNav: seq<NavItem>, reposList: seq<(string, Json)>)
    | IndexView(page: IndexPage)

  /** An HTTP answer: status, headers and view. */
  datatype Response = Response(status: nat, headers: seq<string>, view: View)

  /** The search page for a configuration. */
  function SearchPage(p: Params, backendLabel: string, nav: seq<NavItem>, reposData: Config<RepoConf>): IndexPage {
    var selected := SelectedRepos(p.repos, reposData);
    var fields := FieldsOf(p, Join(selected, ","));
    var isSubmit := p.query != "";
    IndexPage(
      isSubmit,
      if isSubmit then Some(p.query) else None,
      if isSubmit then Some(FormatApiQueryUrl(p.backend, fields)) else None,
      backendLabel,
      nav,
      fields,
      if |selected| == 0 then "" else NatToString(|selected|),
      reposData)
  }

  /**
   * `execute`: a redirect to the default backend, then the unknown-backend
   * and unknown-action errors, then the unavailable index, then the
   * repository list or the search page. The cache is consulted only past
   * the two checks.
   */
  function Execute(p: Params, cache: Cache, fetched: Fetched): (Response, Cache) {
    var canonical := CanonicalQueryString(p);
    if p.backend == "" then
      (Response(301, ["Location: /" + BACKEND_DEFAULT + "/" + canonical], NoView), cache)
    else
      var nav := Nav(p.backend, canonical);
      match GetBackendLabel(p.backend)
      case None =>
        (Response(404, [], ErrorView("Unknown search backend \"" + p.backend + "\".", nav)), cache)
      case Some(backendLabel) =>
        if p.action !in Actions then (Response(404, [], ErrorView("Unknown action.", nav)), cache)
        else
          match GetCachedConfig(cache, p.backend, fetched)
          case Failure(_) => (Response(501, [], HealthView(nav)), cache)
          case Success((reposData, next)) =>
            if p.action == "repos" then
              (Response(200, [], ReposView(nav, seq(|reposData|, i requires 0 <= i < |reposData| => (reposData[i].0, reposData[i].1.url)))), next)
            else (Response(200, [], IndexView(SearchPage(p, backendLabel, nav, reposData))), next)
  }

  /**
   * The status ladder: 301 exactly without a backend; 404 for an unknown
   * backend, or else an unknown action; 501 when the configuration cannot
   * be had; 200 otherwise. The cache is untouched unless the configuration
   * was looked up.
   */
  lemma ExecuteLadder(p: Params, cache: Cache, fetched: Fetched)
    ensures var (resp, next) := Execute(p, cache, fetched);
      && (resp.status == 301 <==> p.backend == "")
      && (resp.status == 404 <==> p.backend != "" && (GetBackendLabel(p.backend).None? || p.action !in Actions))
      && (resp.status == 501 <==>
            (p.backend != "" && GetBackendLabel(p.backend).Some? && p.action in Actions
             && GetCachedConfig(cache, p.backend, fetched).Failure?))
      && (resp.status == 200 <==>
            (p.backend != "" && GetBackendLabel(p.backend).Some? && p.action in Actions
             && GetCachedConfig(cache, p.backend, fetched).Success?))
      && (resp.status != 200 ==> next == cache)
  {
  }

  /** Without a backend the answer redirects to the default one, keeping the canonical query. */
  lemma RedirectKeepsQuery(p: Params, cache: Cache, fetched: Fetched)
    requires p.backend == ""
    ensures Execute(p, cache, fetched).0.headers == ["Location: /search/" + CanonicalQueryString(p)]
  {
    var c := CanonicalQueryString(p);
    assert "Location: /" + BACKEND_DEFAULT + "/" + c == "Location: /search/" + c by {
      assert "Location: /" + BACKEND_DEFAULT + "/" == "Location: /search/";
    }
  }

  /** The error names the unknown backend before any action check. */
  lemma UnknownBackendFirst(p: Params, cache: Cache, fetched: Fetched)
    requires p.backend != "" && GetBackendLabel(p.backend).None?
    ensures Execute(p, cache, fetched).0.view.ErrorView?
    ensures Execute(p, cache, fetched).0.view.error == "Unknown search backend \"" + p.backend + "\"."
  {
  }

  /**
   * On the search page the API request exists exactly when there is a
   * query; the selected repositories are configured ones; their count is
   * shown only when some are selected.
   */
  lemma SearchPageFacts(p: Params, backendLabel: string, nav: seq<NavItem>, reposData: Config<RepoConf>)
    ensures var page := SearchPage(p, backendLabel, nav, reposData);
      && (page.apiQueryUrl.None? <==> p.query == "")
      && (page.selectedRepoCount == "" <==> |SelectedRepos(p.repos, reposData)| == 0)
      && (page.selectedRepoCount != "" ==>
            IsDigits(page.selectedRepoCount) && ParseDecimal(page.selectedRepoCount) == |SelectedRepos(p.repos, reposData)|)
      && (forall r :: r in SelectedRepos(p.repos, reposData) ==> exists i :: 0 <= i < |reposData| && reposData[i].0 == r)
  {
    var selected := SelectedRepos(p.repos, reposData);
    DecimalRoundTrip(|selected|);
    forall r | r in selected
      ensures exists i :: 0 <= i < |reposData| && reposData[i].0 == r
    {
      assert r in Names(reposData);
      var i :| 0 <= i < |Names(reposData)| && Names(reposData)[i] == r;
    }
  }

  /**
   * The search page's API request, as written: it carries the query, the
   * case flag, the file filter and the selected repositories (or "*" when
   * their list is PHP-false), but no excluded-files filter, because the
   * page stores that filter under a key the request does not read. The
   * corrected request would carry it.
   */
  lemma ExclusionDropped(p: Params, backendLabel: string, nav: seq<NavItem>, reposData: Config<RepoConf>)
    requires p.query != ""
    ensures var page := SearchPage(p, backendLabel, nav, reposData);
      var repos := Join(SelectedRepos(p.repos, reposData), ",");
      && page.apiQueryUrl.Some?
      && page.apiQueryUrl.value.base == ApiBaseUrl(p.backend)
      && Lookup(page.apiQueryUrl.value.query, "q") == Some(p.query)
      && Lookup(page.apiQueryUrl.value.query, "i") == (if p.caseInsensitive then Some("fosho") else None)
      && Lookup(page.apiQueryUrl.value.query, "files") == Some(p.filePath)
      && Lookup(page.apiQueryUrl.value.query, "excludeFiles") == None
      && Lookup(page.apiQueryUrl.value.query, "repos") == Some(if repos != "" && repos != "0" then repos else "*")
    ensures Lookup(ApiQuery(FieldsOf(p, Join(SelectedRepos(p.repos, reposData), ","))), "excludeFiles") == Some(p.excludeFiles)
  {
    var fields := FieldsOf(p, Join(SelectedRepos(p.repos, reposData), ","));
    ApiQueryAsWrittenCarries(fields);
    ApiQueryCarries(fields);
    assert "excludeFilePath" !in fields by {
      assert "excludeFilePath"[7] == 'F' && "excludeFiles"[7] == 'F' && "excludeFilePath"[11] == 'P' && "excludeFiles"[11] == 's';
      assert "excludeFilePath"[0] == 'e';
      assert "query"[0] == 'q' && "caseInsensitive"[0] == 'c' && "filePath"[0] == 'f' && "repos"[0] == 'r';
    }
  }
}

=== FILE: strings.dfy ===
/**
 * String primitives the front-ends rely on: substring search, Rust's
 * `str::replace` (every occurrence), JavaScript's `String.replace` with a
 * string pattern (first occurrence), `explode`/`split` on a separator,
 * `join`/`implode`, `trim` over a caller-chosen whitespace set, and decimal
 * rendering of line numbers and counts.
 */
module Strings {
  import opened Wrappers

  /** `pat` occurs in `s` starting at index `i`. */
  predicate OccursAt(s: string, pat: string, i: nat)
    ensures OccursAt(s, pat, i) ==> i + |pat| <= |s|
    decreases |pat|
  {
    if |pat| == 0 then i <= |s|
    else i < |s| && s[i] == pat[0] && OccursAt(s, pat[1..], i + 1)
  }

  /** An occurrence is a slice equal to the pattern. */
  lemma {:induction false} OccursAtSlice(s: string, pat: string, i: nat)
    ensures OccursAt(s, pat, i) <==> i + |pat| <= |s| && s[i..i + |pat|] == pat
    decreases |pat|
  {
    if |pat| > 0 {
      OccursAtSlice(s, pat[1..], i + 1);
      if i + |pat| <= |s| {
        assert s[i..i + |pat|] == [s[i]] + s[i + 1..i + |pat|];
        assert pat == [pat[0]] + pat[1..];
      }
    }
  }

  /** `pat` occurs somewhere in `s`. */
  predicate Contains(s: string, pat: string) {
    exists i: nat | i <= |s| :: OccursAt(s, pat, i)
  }

  /** `pat` starts nowhere in the index range `[from, to)` of `s`. */
  predicate NoneBetween(s: string, pat: string, from: nat, to: nat) {
    forall j: nat :: from <= j < to ==> !OccursAt(s, pat, j)
  }

  /** `i` is the leftmost occurrence of `pat` in `s`. */
  predicate First(s: string, pat: string, i: nat) {
    OccursAt(s, pat, i) && NoneBetween(s, pat, 0, i)
  }

  /** A suffix cut in two. */
  lemma SuffixSplit<T>(s: seq<T>, from: nat, mid: nat)
    requires from <= mid <= |s|
    ensures s[from..] == s[from..mid] + s[mid..]
  {
  }

  /** Slices of a suffix are slices of the whole. */
  lemma SuffixSlices<T>(s: seq<T>, from: nat, n: nat)
    requires from + n <= |s|
    ensures s[from..][..n] == s[from..from + n]
    ensures s[from..][n..] == s[from + n..]
  {
  }

  /** The parts of a three-part concatenation are its slices. */
  lemma ThreeParts<T>(a: seq<T>, b: seq<T>, c: seq<T>)
    ensures a + (b + c) == (a + b) + c
    ensures (a + (b + c))[|a|..|a| + |b|] == b
    ensures (a + (b + c))[|a| + |b|..] == c
  {
    var s := a + (b + c);
    assert s[|a|..|a| + |b|] == b by {
      forall k | 0 <= k < |b|
        ensures s[|a|..|a| + |b|][k] == b[k]
      {
        assert s[|a| + k] == b[k];
      }
    }
    assert s[|a| + |b|..] == c by {
      forall k | 0 <= k < |c|
        ensures s[|a| + |b|..][k] == c[k]
      {
        assert s[|a| + |b| + k] == c[k];
      }
    }
  }

  /** A slice cut in two. */
  lemma SliceSplit<T>(s: seq<T>, from: nat, mid: nat, to: nat)
    requires from <= mid <= to <= |s|
    ensures s[from..to] == s[from..mid] + s[mid..to]
  {
  }

  /** Concatenation is associative. */
  lemma AppendAssoc<T>(a: seq<T>, b: seq<T>, c: seq<T>)
    ensures (a + b) + c == a + (b + c)
  {
  }

  /**
   * JavaScript `s.replace(pat, rep)` with a string pattern, scanning from
   * index `from`: characters are copied until the first occurrence, which
   * becomes `rep`; the rest is copied unchanged.
   */
  function ReplaceFirstFrom(s: string, pat: string, rep: string, from: nat): string
    requires from <= |s|
    decreases |s| - from
  {
    if OccursAt(s, pat, from) then rep + s[from + |pat|..]
    else if from == |s| then []
    else [s[from]] + ReplaceFirstFrom(s, pat, rep, from + 1)
  }

  /** JavaScript `s.replace(pat, rep)` with a string pattern. */
  function ReplaceFirst(s: string, pat: string, rep: string): string {
    ReplaceFirstFrom(s, pat, rep, 0)
  }

  /**
   * Rust `s.replace(pat, rep)`, scanning from index `from`: at each position
   * where `pat` occurs it emits `rep` and jumps past the occurrence, elsewhere
   * it copies one character. Occurrences are thus taken leftmost first and
   * never overlap, and the inserted text is not scanned again.
   */
  function ReplaceAllFrom(s: string, pat: string, rep: string, from: nat): string
    requires |pat| > 0 && from <= |s|
    decreases |s| - from
  {
    if from == |s| then []
    else if OccursAt(s, pat, from) then rep + ReplaceAllFrom(s, pat, rep, from + |pat|)
    else [s[from]] + ReplaceAllFrom(s, pat, rep, from + 1)
  }

  /** Rust `s.replace(pat, rep)`. */
  function ReplaceAll(s: string, pat: string, rep: string): string
    requires |pat| > 0
  {
    ReplaceAllFrom(s, pat, rep, 0)
  }

  /** Replace-all copies a stretch in which `pat` does not start. */
  lemma {:induction false} ReplaceAllSkip(s: string, pat: string, rep: string, from: nat, to: nat)
    requires |pat| > 0 && from <= to <= |s|
    requires NoneBetween(s, pat, from, to)
    ensures ReplaceAllFrom(s, pat, rep, from) == s[from..to] + ReplaceAllFrom(s, pat, rep, to)
    decreases |s| - from
  {
    if from < to {
      assert !OccursAt(s, pat, from);
      ReplaceAllSkip(s, pat, rep, from + 1, to);
      SliceSplit(s, from, from + 1, to);
      assert s[from..from + 1] == [s[from]];
      AppendAssoc([s[from]], s[from + 1..to], ReplaceAllFrom(s, pat, rep, to));
    }
  }

  /** Replace-all standing on an occurrence emits the replacement and jumps past it. */
  lemma ReplaceAllHere(s: string, pat: string, rep: string, from: nat)
    requires |pat| > 0 && OccursAt(s, pat, from)
    ensures ReplaceAllFrom(s, pat, rep, from) == rep + ReplaceAllFrom(s, pat, rep, from + |pat|)
  {
  }

  /** Replace-all has nothing left to emit at the end of the text. */
  lemma ReplaceAllAtEnd(s: string, pat: string, rep: string)
    requires |pat| > 0
    ensures ReplaceAllFrom(s, pat, rep, |s|) == []
  {
  }

  /** Without an occurrence, replace-all passes the text through. */
  lemma ReplaceAllWithoutOccurrence(s: string, pat: string, rep: string)
    requires |pat| > 0 && !Contains(s, pat)
    ensures ReplaceAll(s, pat, rep) == s
  {
    ReplaceAllSkip(s, pat, rep, 0, |s|);
    assert s[0..|s|] == s;
  }

  /** First-occurrence replace copies a stretch in which `pat` does not start. */
  lemma {:induction false} ReplaceFirstSkip(s: string, pat: string, rep: string, from: nat, to: nat)
    requires from <= to <= |s|
    requires NoneBetween(s, pat, from, to)
    ensures ReplaceFirstFrom(s, pat, rep, from) == s[from..to] + ReplaceFirstFrom(s, pat, rep, to)
    decreases |s| - from
  {
    if from < to {
      assert !OccursAt(s, pat, from);
      ReplaceFirstSkip(s, pat, rep, from + 1, to);
      SliceSplit(s, from, from + 1, to);
      assert s[from..from + 1] == [s[from]];
      AppendAssoc([s[from]], s[from + 1..to], ReplaceFirstFrom(s, pat, rep, to));
    }
  }

  /** JavaScript's replace has nothing left to emit at the end of the text. */
  lemma ReplaceFirstAtEnd(s: string, pat: string, rep: string)
    requires |pat| > 0
    ensures ReplaceFirstFrom(s, pat, rep, |s|) == []
  {
  }

  /** Without an occurrence, JavaScript's replace passes the text through. */
  lemma ReplaceFirstWithoutOccurrence(s: string, pat: string, rep: string)
    requires !Contains(s, pat)
    ensures ReplaceFirst(s, pat, rep) == s
  {
    ReplaceFirstSkip(s, pat, rep, 0, |s|);
    assert !OccursAt(s, pat, |s|);
    assert s[0..|s|] == s;
  }

  /** JavaScript's replace rewrites exactly the leftmost occurrence. */
  lemma ReplaceFirstAt(s: string, pat: string, rep: string, i: nat)
    requires First(s, pat, i)
    ensures ReplaceFirst(s, pat, rep) == s[..i] + rep + s[i + |pat|..]
  {
    ReplaceFirstSkip(s, pat, rep, 0, i);
    assert s[0..i] == s[..i];
    AppendAssoc(s[..i], rep, s[i + |pat|..]);
  }

  /** An occurrence inside a slice of `s` is an occurrence in `s`. */
  lemma OccursInSlice(s: string, pat: string, lo: nat, hi: nat, j: nat)
    requires lo <= hi <= |s| && OccursAt(s[lo..hi], pat, j)
    ensures OccursAt(s, pat, lo + j) && lo + j + |pat| <= hi
  {
    var t := s[lo..hi];
    var u, v := t[j..j + |pat|], s[lo + j..lo + j + |pat|];
    assert u == v by {
      forall k | 0 <= k < |pat|
        ensures u[k] == v[k]
      {
        assert t[j + k] == s[lo + j + k];
      }
    }
  }

  /**
   * The pieces of `s` cut at each occurrence of `sep`: the current piece
   * started at `start`, and the scan stands at `from`.
   */
  function SplitFrom(s: string, sep: string, start: nat, from: nat): (r: seq<string>)
    requires |sep| > 0 && start <= from <= |s|
    ensures |r| >= 1
    decreases |s| - from
  {
    if from == |s| then [s[start..]]
    else if OccursAt(s, sep, from) then [s[start..from]] + SplitFrom(s, sep, from + |sep|, from + |sep|)
    else SplitFrom(s, sep, start, from + 1)
  }

  /** PHP `explode(sep, s)` and JavaScript `s.split(sep)` for a non-empty separator. */
  function Split(s: string, sep: string): (r: seq<string>)
    requires |sep| > 0
    ensures |r| >= 1
  {
    SplitFrom(s, sep, 0, 0)
  }

  /** The split scan passes over a stretch in which `sep` does not start. */
  lemma {:induction false} SplitSkip(s: string, sep: string, start: nat, from: nat, to: nat)
    requires |sep| > 0 && start <= from <= to <= |s|
    requires NoneBetween(s, sep, from, to)
    ensures SplitFrom(s, sep, start, from) == SplitFrom(s, sep, start, to)
    decreases |s| - from
  {
    if from < to {
      assert !OccursAt(s, sep, from);
      SplitSkip(s, sep, start, from + 1, to);
    }
  }

  /** No piece of a split contains the separator. */
  lemma {:induction false} SplitPiecesLackSeparator(s: string, sep: string, start: nat, from: nat)
    requires |sep| > 0 && start <= from <= |s|
    requires NoneBetween(s, sep, start, from)
    ensures forall k :: 0 <= k < |SplitFrom(s, sep, start, from)| ==> !Contains(SplitFrom(s, sep, start, from)[k], sep)
    decreases |s| - from
  {
    var r := SplitFrom(s, sep, start, from);
    if from == |s| {
      forall j: nat | OccursAt(s[start..|s|], sep, j)
        ensures false
      {
        OccursInSlice(s, sep, start, |s|, j);
      }
      assert s[start..] == s[start..|s|];
    } else if OccursAt(s, sep, from) {
      var next := from + |sep|;
      forall j: nat | OccursAt(s[start..from], sep, j)
        ensures false
      {
        OccursInSlice(s, sep, start, from, j);
      }
      SplitPiecesLackSeparator(s, sep, next, next);
      assert forall k :: 1 <= k < |r| ==> r[k] == SplitFrom(s, sep, next, next)[k - 1];
    } else {
      SplitPiecesLackSeparator(s, sep, start, from + 1);
    }
  }

  /** Rust `join`, PHP `implode`, JavaScript `Array.join`. */
  function Join(parts: seq<string>, sep: string): (r: string)
    ensures |parts| == 0 ==> r == ""
    ensures |parts| == 1 ==> r == parts[0]
  {
    if |parts| == 0 then ""
    else if |parts| == 1 then parts[0]
    else parts[0] + sep + Join(parts[1..], sep)
  }

  /** Joining a piece in front of a non-empty list of pieces. */
  lemma JoinCons(head: string, tail: seq<string>, sep: string)
    requires |tail| >= 1
    ensures Join([head] + tail, sep) == head + sep + Join(tail, sep)
  {
    assert ([head] + tail)[1..] == tail;
  }

  /** Joining the pieces of a split with the separator gives the text back. */
  lemma {:induction false} JoinSplitFrom(s: string, sep: string, start: nat, from: nat)
    requires |sep| > 0 && start <= from <= |s|
    ensures Join(SplitFrom(s, sep, start, from), sep) == s[start..]
    decreases |s| - from
  {
    if from < |s| {
      if OccursAt(s, sep, from) {
        JoinSplitFrom(s, sep, from + |sep|, from + |sep|);
        JoinSplitAtOccurrence(s, sep, start, from);
      } else {
        JoinSplitFrom(s, sep, start, from + 1);
      }
    }
  }

  /** The step of `JoinSplitFrom` at an occurrence of the separator. */
  lemma JoinSplitAtOccurrence(s: string, sep: string, start: nat, from: nat)
    requires |sep| > 0 && start <= from < |s| && OccursAt(s, sep, from)
    requires Join(SplitFrom(s, sep, from + |sep|, from + |sep|), sep) == s[from + |sep|..]
    ensures Join(SplitFrom(s, sep, start, from), sep) == s[start..]
  {
    var next := from + |sep|;
    OccursAtSlice(s, sep, from);
    JoinStep(s[start..from], sep, s[next..], SplitFrom(s, sep, next, next));
    SuffixSplit(s, start, from);
    SuffixSplit(s, from, next);
  }

  /** `explode` then `implode` with the same separator is the identity. */
  lemma JoinSplit(s: string, sep: string)
    requires |sep| > 0
    ensures Join(Split(s, sep), sep) == s
  {
    JoinSplitFrom(s, sep, 0, 0);
    assert s[0..] == s;
  }

  /** Replace-all is split-then-join with the replacement. */
  lemma {:induction false} ReplaceAllIsSplitJoinFrom(s: string, pat: string, rep: string, start: nat, from: nat)
    requires |pat| > 0 && start <= from <= |s|
    ensures s[start..from] + ReplaceAllFrom(s, pat, rep, from) == Join(SplitFrom(s, pat, start, from), rep)
    decreases |s| - from
  {
    if from == |s| {
      assert s[start..from] == s[start..];
    } else if OccursAt(s, pat, from) {
      ReplaceAllIsSplitJoinFrom(s, pat, rep, from + |pat|, from + |pat|);
      SplitJoinAtOccurrence(s, pat, rep, start, from);
    } else {
      ReplaceAllIsSplitJoinFrom(s, pat, rep, start, from + 1);
      SplitJoinPastCharacter(s, pat, rep, start, from);
    }
  }

  /** The step of `ReplaceAllIsSplitJoinFrom` at an occurrence. */
  lemma SplitJoinAtOccurrence(s: string, pat: string, rep: string, start: nat, from: nat)
    requires |pat| > 0 && start <= from < |s| && OccursAt(s, pat, from)
    requires s[from + |pat|..from + |pat|] + ReplaceAllFrom(s, pat, rep, from + |pat|)
          == Join(SplitFrom(s, pat, from + |pat|, from + |pat|), rep)
    ensures s[start..from] + ReplaceAllFrom(s, pat, rep, from) == Join(SplitFrom(s, pat, start, from), rep)
  {
    var next := from + |pat|;
    var t := ReplaceAllFrom(s, pat, rep, next);
    assert s[next..next] + t == t;
    JoinStep(s[start..from], rep, t, SplitFrom(s, pat, next, next));
  }

  /** The step of `ReplaceAllIsSplitJoinFrom` past a character that starts no occurrence. */
  lemma SplitJoinPastCharacter(s: string, pat: string, rep: string, start: nat, from: nat)
    requires |pat| > 0 && start <= from < |s| && !OccursAt(s, pat, from)
    requires s[start..from + 1] + ReplaceAllFrom(s, pat, rep, from + 1) == Join(SplitFrom(s, pat, start, from + 1), rep)
    ensures s[start..from] + ReplaceAllFrom(s, pat, rep, from) == Join(SplitFrom(s, pat, start, from), rep)
  {
    assert s[start..from + 1] == s[start..from] + [s[from]];
    AppendAssoc(s[start..from], [s[from]], ReplaceAllFrom(s, pat, rep, from + 1));
  }

  /** One piece and one separator in front of a join. */
  lemma JoinStep(a: string, sep: string, t: string, tail: seq<string>)
    requires |tail| >= 1 && t == Join(tail, sep)
    ensures a + (sep + t) == Join([a] + tail, sep)
  {
    JoinCons(a, tail, sep);
    AppendAssoc(a, sep, t);
  }

  /** Rust's replace-all is split-then-join with the replacement. */
  lemma ReplaceAllIsSplitJoin(s: string, pat: string, rep: string)
    requires |pat| > 0
    ensures ReplaceAll(s, pat, rep) == Join(Split(s, pat), rep)
  {
    ReplaceAllIsSplitJoinFrom(s, pat, rep, 0, 0);
    assert s[0..0] == [];
  }

  /** Replacing a pattern by itself leaves the text unchanged. */
  lemma ReplaceAllBySelf(s: string, pat: string)
    requires |pat| > 0
    ensures ReplaceAll(s, pat, pat) == s
  {
    ReplaceAllIsSplitJoin(s, pat, pat);
    JoinSplit(s, pat);
  }

  /** A text lacking one of the pattern's characters does not contain the pattern. */
  lemma MissingCharNotContained(s: string, pat: string, k: nat)
    requires k < |pat| && pat[k] !in s
    ensures !Contains(s, pat)
  {
    forall j: nat
      ensures !OccursAt(s, pat, j)
    {
      OccursAtSlice(s, pat, j);
      if j + |pat| <= |s| {
        assert s[j..j + |pat|][k] == s[j + k];
      }
    }
  }

  /** A text with at most one occurrence of `pat`. */
  predicate AtMostOnce(s: string, pat: string) {
    forall i: nat, j: nat | i <= |s| && j <= |s| :: OccursAt(s, pat, i) && OccursAt(s, pat, j) ==> i == j
  }

  /** A text that contains `pat` has a leftmost occurrence. */
  lemma {:induction false} HasFirst(s: string, pat: string, i: nat)
    requires OccursAt(s, pat, i)
    ensures exists f: nat :: f <= i && First(s, pat, f)
    decreases i
  {
    if NoneBetween(s, pat, 0, i) {
      assert First(s, pat, i);
    } else {
      var j: nat :| j < i && OccursAt(s, pat, j);
      HasFirst(s, pat, j);
    }
  }

  /** Rust's replace-all rewrites a sole occurrence and copies the rest. */
  lemma ReplaceAllOnlyAt(s: string, pat: string, rep: string, f: nat)
    requires |pat| > 0 && OccursAt(s, pat, f)
    requires NoneBetween(s, pat, 0, f) && NoneBetween(s, pat, f + |pat|, |s|)
    ensures ReplaceAll(s, pat, rep) == s[..f] + rep + s[f + |pat|..]
  {
    var next := f + |pat|;
    ReplaceAllSkip(s, pat, rep, next, |s|);
    ReplaceAllAtEnd(s, pat, rep);
    assert ReplaceAllFrom(s, pat, rep, next) == s[next..] by {
      assert s[next..|s|] == s[next..];
    }
    ReplaceAllHere(s, pat, rep, f);
    ReplaceAllSkip(s, pat, rep, 0, f);
    assert s[0..f] == s[..f];
    AppendAssoc(s[..f], rep, s[next..]);
  }

  /** With a single occurrence, Rust's replace-all and JavaScript's replace agree. */
  lemma ReplaceAllIsReplaceFirstWhenUnique(s: string, pat: string, rep: string)
    requires |pat| > 0 && AtMostOnce(s, pat)
    ensures ReplaceAll(s, pat, rep) == ReplaceFirst(s, pat, rep)
  {
    if i: nat :| i <= |s| && OccursAt(s, pat, i) {
      HasFirst(s, pat, i);
      var f: nat :| f <= i && First(s, pat, f);
      assert NoneBetween(s, pat, f + |pat|, |s|) by {
        forall j: nat | f + |pat| <= j < |s|
          ensures !OccursAt(s, pat, j)
        {
          assert OccursAt(s, pat, f) && f != j;
        }
      }
      ReplaceAllOnlyAt(s, pat, rep, f);
      ReplaceFirstAt(s, pat, rep, f);
    } else {
      ReplaceAllWithoutOccurrence(s, pat, rep);
      ReplaceFirstWithoutOccurrence(s, pat, rep);
    }
  }

  /** Whether character `c` occurs in `s`, as the one-character pattern `[c]`. */
  lemma CharNotContained(s: string, c: char)
    requires c !in s
    ensures !Contains(s, [c])
  {
    forall j: nat
      ensures !OccursAt(s, [c], j)
    {
      if j + 1 <= |s| {
        assert s[j..j + 1] == [s[j]];
      }
    }
  }

  /** A character absent from a stretch of `s` starts no one-character pattern there. */
  lemma CharAbsentBetween(s: string, c: char, from: nat, to: nat)
    requires from <= to <= |s|
    requires forall k :: from <= k < to ==> s[k] != c
    ensures NoneBetween(s, [c], from, to)
  {
    forall j: nat | from <= j < to
      ensures !OccursAt(s, [c], j)
    {
      assert s[j..j + 1] == [s[j]];
    }
  }

  /**
   * Splitting from `from` on a one-character separator recovers the pieces
   * that were joined there, provided no piece contains the separator.
   */
  lemma {:induction false} SplitJoinFrom(s: string, parts: seq<string>, c: char, from: nat)
    requires from <= |s| && |parts| >= 1
    requires s[from..] == Join(parts, [c])
    requires forall k :: 0 <= k < |parts| ==> c !in parts[k]
    ensures SplitFrom(s, [c], from, from) == parts
    decreases |parts|
  {
    var p := parts[0];
    var end := from + |p|;
    JoinHead(parts, [c]);
    SuffixSlices(s, from, |p|);
    CharAbsentBetween(s, c, from, end) by {
      forall k | from <= k < end
        ensures s[k] != c
      {
        assert s[k] == s[from..end][k - from];
      }
    }
    SplitSkip(s, [c], from, from, end);
    if |parts| == 1 {
      assert s[from..] == s[from..end];
    } else {
      SplitJoinAtSeparator(s, parts, c, from);
    }
  }

  /** The first piece of a join, and what follows it. */
  lemma JoinHead(parts: seq<string>, sep: string)
    requires |parts| >= 1
    ensures |parts[0]| <= |Join(parts, sep)|
    ensures Join(parts, sep)[..|parts[0]|] == parts[0]
    ensures |parts| == 1 ==> |Join(parts, sep)| == |parts[0]|
    ensures |parts| > 1 ==> Join(parts, sep)[|parts[0]|..] == sep + Join(parts[1..], sep)
  {
    if |parts| > 1 {
      var rest := Join(parts[1..], sep);
      AppendAssoc(parts[0], sep, rest);
      ConcatSlices(parts[0], sep + rest);
    } else {
      assert parts[0][..|parts[0]|] == parts[0];
    }
  }

  /** The two halves of a concatenation are its slices at the seam. */
  lemma ConcatSlices<T>(a: seq<T>, b: seq<T>)
    ensures (a + b)[..|a|] == a
    ensures (a + b)[|a|..] == b
  {
  }

  /** The step of `SplitJoinFrom` at the separator after the first piece. */
  lemma SplitJoinAtSeparator(s: string, parts: seq<string>, c: char, from: nat)
    requires |parts| >= 2 && from + |parts[0]| <= |s|
    requires s[from..from + |parts[0]|] == parts[0]
    requires s[from + |parts[0]|..] == [c] + Join(parts[1..], [c])
    requires forall k :: 0 <= k < |parts| ==> c !in parts[k]
    ensures SplitFrom(s, [c], from, from + |parts[0]|) == parts
    decreases |parts|, 0
  {
    var end := from + |parts[0]|;
    var tail := parts[1..];
    SuffixSlices(s, end, 1);
    assert OccursAt(s, [c], end);
    assert s[end + 1..] == Join(tail, [c]);
    SplitJoinFrom(s, tail, c, end + 1);
    assert parts == [parts[0]] + tail;
  }

  /**
   * Splitting on a one-character separator undoes joining with it, provided no
   * piece contains the separator character.
   */
  lemma SplitJoin(parts: seq<string>, c: char)
    requires |parts| >= 1
    requires forall k :: 0 <= k < |parts| ==> c !in parts[k]
    ensures Split(Join(parts, [c]), [c]) == parts
  {
    var s := Join(parts, [c]);
    assert s[0..] == s;
    SplitJoinFrom(s, parts, c, 0);
  }

  /** Index of the first character of `s` at or after `i` outside `ws`, or `|s|`. */
  function LeadEnd(s: string, ws: set<char>, i: nat): (n: nat)
    requires i <= |s|
    ensures i <= n <= |s|
    ensures forall k :: i <= k < n ==> s[k] in ws
    ensures n < |s| ==> s[n] !in ws
    decreases |s| - i
  {
    if i < |s| && s[i] in ws then LeadEnd(s, ws, i + 1) else i
  }

  /** One past the last character of `s[lo..hi]` outside `ws`, or `lo`. */
  function TrailStart(s: string, ws: set<char>, lo: nat, hi: nat): (n: nat)
    requires lo <= hi <= |s|
    ensures lo <= n <= hi
    ensures forall k :: n <= k < hi ==> s[k] in ws
    ensures n > lo ==> s[n - 1] !in ws
    decreases hi
  {
    if hi > lo && s[hi - 1] in ws then TrailStart(s, ws, lo, hi - 1) else hi
  }

  /** `r` is `s[lead..lead + |r|]` and every character outside that window is in `ws`. */
  predicate TrimmedAt(s: string, ws: set<char>, lead: nat, r: string) {
    && lead + |r| <= |s|
    && r == s[lead..lead + |r|]
    && (forall k :: 0 <= k < lead ==> s[k] in ws)
    && (forall k :: lead + |r| <= k < |s| ==> s[k] in ws)
  }

  /**
   * PHP `trim` and JavaScript `String.prototype.trim` over the whitespace set
   * `ws`: the window of `s` that starts and ends outside `ws`, with
   * everything cut away in `ws`.
   */
  function Trim(s: string, ws: set<char>): (r: string)
    ensures TrimmedAt(s, ws, LeadEnd(s, ws, 0), r)
    ensures |r| > 0 ==> r[0] !in ws && r[|r| - 1] !in ws
  {
    var lo := LeadEnd(s, ws, 0);
    s[lo..TrailStart(s, ws, lo, |s|)]
  }

  /** A text that neither starts nor ends with `ws` is its own trim. */
  lemma TrimOfTrimmed(s: string, ws: set<char>)
    requires |s| > 0 ==> s[0] !in ws && s[|s| - 1] !in ws
    ensures Trim(s, ws) == s
  {
    assert LeadEnd(s, ws, 0) == 0;
    assert TrailStart(s, ws, 0, |s|) == |s|;
    assert s[0..|s|] == s;
  }

  /** Trimming twice is trimming once. */
  lemma TrimIdempotent(s: string, ws: set<char>)
    ensures Trim(Trim(s, ws), ws) == Trim(s, ws)
  {
    TrimOfTrimmed(Trim(s, ws), ws);
  }

  /** A non-empty window whose ends lie outside `ws` and outside which all is `ws` is the trim. */
  lemma TrimCharacterized(s: string, ws: set<char>, lead: nat, r: string)
    requires TrimmedAt(s, ws, lead, r)
    requires |r| > 0 && r[0] !in ws && r[|r| - 1] !in ws
    ensures Trim(s, ws) == r
  {
    var lo := LeadEnd(s, ws, 0);
    assert s[lead] == r[0];
    assert lo == lead;
    var hi := TrailStart(s, ws, lo, |s|);
    assert s[lead + |r| - 1] == r[|r| - 1];
    assert hi == lead + |r|;
  }

  /** Rust `format!("{:>w}", s)`: `s` right-aligned in a field of spaces at least `width` wide. */
  function PadLeft(s: string, width: nat): (r: string)
    ensures |r| == if |s| < width then width else |s|
    ensures r[|r| - |s|..] == s
    ensures forall k :: 0 <= k < |r| - |s| ==> r[k] == ' '
  {
    if |s| < width then seq(width - |s|, _ => ' ') + s else s
  }

  /** Padding is undone by trimming spaces, for a text with no space at either end. */
  lemma PadLeftTrim(s: string, width: nat)
    requires |s| > 0 && s[0] != ' ' && s[|s| - 1] != ' '
    ensures Trim(PadLeft(s, width), {' '}) == s
  {
    var r := PadLeft(s, width);
    TrimCharacterized(r, {' '}, |r| - |s|, s);
  }

  function DigitChar(d: nat): (c: char)
    requires d < 10
    ensures '0' <= c <= '9'
  {
    (('0' as int) + d) as char
  }

  predicate IsDigits(s: string) {
    forall k :: 0 <= k < |s| ==> '0' <= s[k] <= '9'
  }

  /**
   * Decimal rendering of a non-negative integer (Rust `to_string`/`format!`,
   * PHP `strval`, JavaScript `String(n)` on an integral number).
   */
  function NatToString(n: nat): (r: string)
    ensures |r| > 0 && IsDigits(r)
    ensures r[0] == '0' <==> n == 0
  {
    if n < 10 then [DigitChar(n)] else NatToString(n / 10) + [DigitChar(n % 10)]
  }

  /** The value of a decimal digit string. */
  function ParseDecimal(s: string): nat
    requires IsDigits(s)
  {
    if |s| == 0 then 0
    else ParseDecimal(s[..|s| - 1]) * 10 + ((s[|s| - 1] as int) - ('0' as int))
  }

  /** Reading the rendered number back gives the number. */
  lemma {:induction false} DecimalRoundTrip(n: nat)
    ensures ParseDecimal(NatToString(n)) == n
  {
    if n >= 10 {
      var r := NatToString(n);
      assert r[..|r| - 1] == NatToString(n / 10);
      DecimalRoundTrip(n / 10);
    }
  }

  /** Distinct numbers render to distinct texts. */
  lemma NatToStringInjective(a: nat, b: nat)
    requires NatToString(a) == NatToString(b)
    ensures a == b
  {
    DecimalRoundTrip(a);
    DecimalRoundTrip(b);
  }
}

=== FILE: template.dfy ===
/**
 * Permalink templates seen as segments: plain text, and placeholders such as
 * "{url}" or "{line}". Substituting a placeholder in the rendered text is
 * filling the matching segments: Rust's `str::replace` fills every one,
 * JavaScript's `String.replace` only the first. The two lemmas
 * `ReplaceAllFills` and `ReplaceFirstFillsFirst` connect the string
 * operations to these segment-level definitions.
 */
module Template {
  import opened Wrappers
  import opened Strings

  /** Text in which no placeholder can start. */
  predicate Plain(s: string) {
    '{' !in s
  }

  /** Plain text passes a placeholder's substitution unchanged. */
  lemma PlainUnchanged(s: string, pat: string, rep: string)
    requires |pat| > 0 && pat[0] == '{' && Plain(s)
    ensures ReplaceAll(s, pat, rep) == s
    ensures ReplaceFirst(s, pat, rep) == s
  {
    MissingCharNotContained(s, pat, 0);
    ReplaceAllWithoutOccurrence(s, pat, rep);
    ReplaceFirstWithoutOccurrence(s, pat, rep);
  }

  /** A placeholder: braces at both ends and nowhere else. */
  predicate IsPlaceholder(q: string) {
    |q| >= 2 && q[0] == '{' && q[|q| - 1] == '}' && Braceless(q[1..|q| - 1])
  }

  /** Text without braces. */
  predicate Braceless(s: string) {
    '{' !in s && '}' !in s
  }

  /** Inside a placeholder only the first character is an opening brace and only the last a closing one. */
  lemma PlaceholderChar(q: string, i: nat)
    requires IsPlaceholder(q) && i < |q|
    ensures i > 0 ==> q[i] != '{'
    ensures i < |q| - 1 ==> q[i] != '}'
  {
    if 0 < i < |q| - 1 {
      assert q[i] == q[1..|q| - 1][i - 1];
    }
  }

  datatype Segment = Text(text: string) | Hole(name: string)

  /** The characters a segment contributes. */
  function Piece(g: Segment): string {
    match g
    case Text(t) => t
    case Hole(q) => q
  }

  /** The text of a template. */
  function Render(segs: seq<Segment>): string {
    if |segs| == 0 then "" else Piece(segs[0]) + Render(segs[1..])
  }

  predicate WellFormed(segs: seq<Segment>) {
    forall i :: 0 <= i < |segs| ==> (segs[i].Text? ==> Plain(segs[i].text)) && (segs[i].Hole? ==> IsPlaceholder(segs[i].name))
  }

  /** Every hole named `pat` becomes the text `rep`. */
  function Fill(segs: seq<Segment>, pat: string, rep: string): (r: seq<Segment>)
    ensures |r| == |segs|
  {
    if |segs| == 0 then []
    else [if segs[0] == Hole(pat) then Text(rep) else segs[0]] + Fill(segs[1..], pat, rep)
  }

  /** Filling replaces exactly the holes named `pat`, position by position. */
  lemma {:induction false} FillPointwise(segs: seq<Segment>, pat: string, rep: string)
    ensures forall i :: 0 <= i < |segs| ==>
      Fill(segs, pat, rep)[i] == if segs[i] == Hole(pat) then Text(rep) else segs[i]
    decreases |segs|
  {
    if |segs| > 0 {
      var r := Fill(segs, pat, rep);
      FillPointwise(segs[1..], pat, rep);
      assert forall i :: 1 <= i < |segs| ==> r[i] == Fill(segs[1..], pat, rep)[i - 1];
    }
  }

  /** Only the first hole named `pat` becomes the text `rep`. */
  function FillFirst(segs: seq<Segment>, pat: string, rep: string): (r: seq<Segment>)
    ensures |r| == |segs|
  {
    if |segs| == 0 then []
    else if segs[0] == Hole(pat) then [Text(rep)] + segs[1..]
    else [segs[0]] + FillFirst(segs[1..], pat, rep)
  }

  /** Rendering a template one segment at a time. */
  lemma RenderCons(g: Segment, rest: seq<Segment>)
    ensures Render([g] + rest) == Piece(g) + Render(rest)
  {
    assert ([g] + rest)[1..] == rest;
  }

  /** The tail of a well-formed template is well formed. */
  lemma WellFormedTail(segs: seq<Segment>)
    requires |segs| > 0 && WellFormed(segs)
    ensures WellFormed(segs[1..])
  {
    assert forall i :: 0 <= i < |segs| - 1 ==> segs[1..][i] == segs[i + 1];
  }

  /**
   * Where the text of a well-formed segment other than `Hole(pat)` sits in
   * `s`, no occurrence of the placeholder `pat` starts, whatever follows.
   */
  lemma NoStartInSegment(s: string, lo: nat, g: Segment, pat: string)
    requires g.Text? ==> Plain(g.text)
    requires g.Hole? ==> IsPlaceholder(g.name)
    requires IsPlaceholder(pat) && g != Hole(pat)
    requires lo + |Piece(g)| <= |s| && s[lo..lo + |Piece(g)|] == Piece(g)
    ensures NoneBetween(s, pat, lo, lo + |Piece(g)|)
  {
    forall j: nat | lo <= j < lo + |Piece(g)|
      ensures !OccursAt(s, pat, j)
    {
      NotAtInSegment(s, lo, g, pat, j);
    }
  }

  /** One position of `NoStartInSegment`. */
  lemma NotAtInSegment(s: string, lo: nat, g: Segment, pat: string, j: nat)
    requires g.Text? ==> Plain(g.text)
    requires g.Hole? ==> IsPlaceholder(g.name)
    requires IsPlaceholder(pat) && g != Hole(pat)
    requires lo + |Piece(g)| <= |s| && s[lo..lo + |Piece(g)|] == Piece(g)
    requires lo <= j < lo + |Piece(g)|
    ensures !OccursAt(s, pat, j)
  {
    var p := Piece(g);
    OccursAtSlice(s, pat, j);
    if j + |pat| <= |s| {
      var w := s[j..j + |pat|];
      var i := j - lo;
      if g.Text? {
        assert w[0] == s[j] == p[i];
        assert p[i] != '{';
      } else if i > 0 {
        assert w[0] == s[j] == p[i];
        PlaceholderChar(p, i);
      } else if |pat| < |p| {
        assert w[|pat| - 1] == s[lo + |pat| - 1] == p[|pat| - 1];
        PlaceholderChar(p, |pat| - 1);
      } else if |pat| > |p| {
        assert w[|p| - 1] == s[lo + |p| - 1] == p[|p| - 1];
        PlaceholderChar(pat, |p| - 1);
      } else {
        assert w == p && p != pat;
      }
    }
  }

  /** The segments `segs`, rendered one after another, make up `s` from index `lo` to its end. */
  predicate RenderedAt(s: string, lo: nat, segs: seq<Segment>)
    decreases |segs|
  {
    if |segs| == 0 then lo == |s|
    else
      && lo + |Piece(segs[0])| <= |s|
      && s[lo..lo + |Piece(segs[0])|] == Piece(segs[0])
      && RenderedAt(s, lo + |Piece(segs[0])|, segs[1..])
  }

  /** A template rendered at the end of `s` is laid out segment by segment there. */
  lemma {:induction false} RenderedAtSuffix(s: string, lo: nat, segs: seq<Segment>)
    requires lo <= |s| && s[lo..] == Render(segs)
    ensures RenderedAt(s, lo, segs)
    decreases |segs|
  {
    if |segs| > 0 {
      SegmentAt(s, lo, segs);
      RenderedAtSuffix(s, lo + |Piece(segs[0])|, segs[1..]);
    }
  }

  /**
   * Rust's replace-all, scanning from where a template is laid out at the
   * end of `s`, fills every hole named `pat`.
   */
  lemma {:induction false} ReplaceAllFillsAt(s: string, lo: nat, segs: seq<Segment>, pat: string, rep: string)
    requires WellFormed(segs) && IsPlaceholder(pat)
    requires RenderedAt(s, lo, segs)
    ensures ReplaceAllFrom(s, pat, rep, lo) == Render(Fill(segs, pat, rep))
    decreases |segs|
  {
    if |segs| > 0 {
      var g := segs[0];
      WellFormedTail(segs);
      ReplaceAllFillsAt(s, lo + |Piece(g)|, segs[1..], pat, rep);
      ReplaceAllSegment(s, lo, g, pat, rep);
      FillCons(segs, pat, rep);
    }
  }

  /** Replace-all over the text of one segment: a hole named `pat` is filled, anything else copied. */
  lemma ReplaceAllSegment(s: string, lo: nat, g: Segment, pat: string, rep: string)
    requires g.Text? ==> Plain(g.text)
    requires g.Hole? ==> IsPlaceholder(g.name)
    requires IsPlaceholder(pat)
    requires lo + |Piece(g)| <= |s| && s[lo..lo + |Piece(g)|] == Piece(g)
    ensures ReplaceAllFrom(s, pat, rep, lo)
      == (if g == Hole(pat) then rep else Piece(g)) + ReplaceAllFrom(s, pat, rep, lo + |Piece(g)|)
  {
    if g == Hole(pat) {
      OccursAtSlice(s, pat, lo);
      ReplaceAllHere(s, pat, rep, lo);
    } else {
      NoStartInSegment(s, lo, g, pat);
      ReplaceAllSkip(s, pat, rep, lo, lo + |Piece(g)|);
    }
  }

  /** Where the first segment of a template sits when the template ends `s`. */
  lemma SegmentAt(s: string, lo: nat, segs: seq<Segment>)
    requires |segs| > 0 && lo <= |s| && s[lo..] == Render(segs)
    ensures lo + |Piece(segs[0])| <= |s|
    ensures s[lo..lo + |Piece(segs[0])|] == Piece(segs[0])
    ensures s[lo + |Piece(segs[0])|..] == Render(segs[1..])
  {
    var p, t := Piece(segs[0]), Render(segs[1..]);
    RenderCons(segs[0], segs[1..]);
    assert segs == [segs[0]] + segs[1..];
    SuffixSlices(s, lo, |p|);
    ConcatSlices(p, t);
  }

  /** Filling, one segment at a time. */
  lemma FillCons(segs: seq<Segment>, pat: string, rep: string)
    requires |segs| > 0
    ensures Render(Fill(segs, pat, rep))
      == (if segs[0] == Hole(pat) then rep else Piece(segs[0])) + Render(Fill(segs[1..], pat, rep))
  {
    var r := Fill(segs, pat, rep);
    assert r == [r[0]] + Fill(segs[1..], pat, rep);
    RenderCons(r[0], Fill(segs[1..], pat, rep));
  }

  /** Rust's replace-all on a rendered template fills every hole named `pat`. */
  lemma ReplaceAllFills(segs: seq<Segment>, pat: string, rep: string)
    requires WellFormed(segs) && IsPlaceholder(pat)
    ensures ReplaceAll(Render(segs), pat, rep) == Render(Fill(segs, pat, rep))
  {
    RenderedAtSuffix(Render(segs), 0, segs);
    ReplaceAllFillsAt(Render(segs), 0, segs, pat, rep);
  }

  /**
   * JavaScript's replace, scanning from where a template is laid out at the
   * end of `s`, fills the first hole named `pat`.
   */
  lemma {:induction false} ReplaceFirstFillsFirstAt(s: string, lo: nat, segs: seq<Segment>, pat: string, rep: string)
    requires WellFormed(segs) && IsPlaceholder(pat)
    requires RenderedAt(s, lo, segs)
    ensures ReplaceFirstFrom(s, pat, rep, lo) == Render(FillFirst(segs, pat, rep))
    decreases |segs|
  {
    if |segs| == 0 {
      ReplaceFirstAtEnd(s, pat, rep);
    } else if segs[0] == Hole(pat) {
      ReplaceFirstAtHole(s, lo, segs, pat, rep);
    } else {
      var g := segs[0];
      WellFormedTail(segs);
      ReplaceFirstFillsFirstAt(s, lo + |Piece(g)|, segs[1..], pat, rep);
      ReplaceFirstSegment(s, lo, g, pat, rep);
      FillFirstCons(segs, pat, rep);
    }
  }

  /** JavaScript's replace copies the text of a segment other than `Hole(pat)`. */
  lemma ReplaceFirstSegment(s: string, lo: nat, g: Segment, pat: string, rep: string)
    requires g.Text? ==> Plain(g.text)
    requires g.Hole? ==> IsPlaceholder(g.name)
    requires IsPlaceholder(pat) && g != Hole(pat)
    requires lo + |Piece(g)| <= |s| && s[lo..lo + |Piece(g)|] == Piece(g)
    ensures ReplaceFirstFrom(s, pat, rep, lo) == Piece(g) + ReplaceFirstFrom(s, pat, rep, lo + |Piece(g)|)
  {
    NoStartInSegment(s, lo, g, pat);
    ReplaceFirstSkip(s, pat, rep, lo, lo + |Piece(g)|);
  }

  /** JavaScript's replace, standing on a hole named `pat`, fills it and copies the rest. */
  lemma ReplaceFirstAtHole(s: string, lo: nat, segs: seq<Segment>, pat: string, rep: string)
    requires |segs| > 0 && segs[0] == Hole(pat)
    requires RenderedAt(s, lo, segs)
    ensures ReplaceFirstFrom(s, pat, rep, lo) == Render(FillFirst(segs, pat, rep))
  {
    OccursAtSlice(s, pat, lo);
    RenderedAtRest(s, lo + |pat|, segs[1..]);
    FillFirstCons(segs, pat, rep);
  }

  /** Filling the first hole, one segment at a time. */
  lemma FillFirstCons(segs: seq<Segment>, pat: string, rep: string)
    requires |segs| > 0
    ensures segs[0] == Hole(pat) ==> Render(FillFirst(segs, pat, rep)) == rep + Render(segs[1..])
    ensures segs[0] != Hole(pat) ==>
      Render(FillFirst(segs, pat, rep)) == Piece(segs[0]) + Render(FillFirst(segs[1..], pat, rep))
  {
    if segs[0] == Hole(pat) {
      RenderCons(Text(rep), segs[1..]);
    } else {
      RenderCons(segs[0], FillFirst(segs[1..], pat, rep));
    }
  }

  /** What is laid out at the end of `s` is the rendered template. */
  lemma {:induction false} RenderedAtRest(s: string, lo: nat, segs: seq<Segment>)
    requires RenderedAt(s, lo, segs)
    ensures lo <= |s| && s[lo..] == Render(segs)
    decreases |segs|
  {
    if |segs| > 0 {
      RenderedAtRest(s, lo + |Piece(segs[0])|, segs[1..]);
      RenderedAtRestStep(s, lo, segs);
    }
  }

  /** One segment of `RenderedAtRest`, given the rest of the template laid out after it. */
  lemma RenderedAtRestStep(s: string, lo: nat, segs: seq<Segment>)
    requires |segs| > 0 && RenderedAt(s, lo, segs)
    requires lo + |Piece(segs[0])| <= |s| && s[lo + |Piece(segs[0])|..] == Render(segs[1..])
    ensures lo <= |s| && s[lo..] == Render(segs)
  {
    SuffixSplit(s, lo, lo + |Piece(segs[0])|);
  }

  /** JavaScript's replace on a rendered template fills the first hole named `pat`. */
  lemma ReplaceFirstFillsFirst(segs: seq<Segment>, pat: string, rep: string)
    requires WellFormed(segs) && IsPlaceholder(pat)
    ensures ReplaceFirst(Render(segs), pat, rep) == Render(FillFirst(segs, pat, rep))
  {
    RenderedAtSuffix(Render(segs), 0, segs);
    ReplaceFirstFillsFirstAt(Render(segs), 0, segs, pat, rep);
  }

  /** Filling keeps a template well formed when the filler is plain. */
  lemma FillWellFormed(segs: seq<Segment>, pat: string, rep: string)
    requires WellFormed(segs) && Plain(rep)
    ensures WellFormed(Fill(segs, pat, rep))
  {
  }

  /** Filling the first hole keeps a template well formed when the filler is plain. */
  lemma {:induction false} FillFirstWellFormed(segs: seq<Segment>, pat: string, rep: string)
    requires WellFormed(segs) && Plain(rep)
    ensures WellFormed(FillFirst(segs, pat, rep))
    decreases |segs|
  {
    if |segs| > 0 {
      var r := FillFirst(segs, pat, rep);
      if segs[0] == Hole(pat) {
        assert forall i :: 1 <= i < |r| ==> r[i] == segs[i];
      } else {
        WellFormedTail(segs);
        FillFirstWellFormed(segs[1..], pat, rep);
        assert forall i :: 1 <= i < |r| ==> r[i] == FillFirst(segs[1..], pat, rep)[i - 1];
      }
    }
  }

  /** The number of holes named `pat`. */
  function HoleCount(segs: seq<Segment>, pat: string): nat {
    if |segs| == 0 then 0 else (if segs[0] == Hole(pat) then 1 else 0) + HoleCount(segs[1..], pat)
  }

  /** With at most one hole named `pat`, filling the first is filling all. */
  lemma {:induction false} FillFirstIsFillWhenSingle(segs: seq<Segment>, pat: string, rep: string)
    requires HoleCount(segs, pat) <= 1
    ensures FillFirst(segs, pat, rep) == Fill(segs, pat, rep)
  {
    if |segs| > 0 {
      if segs[0] == Hole(pat) {
        NoHoleFillUnchanged(segs[1..], pat, rep);
        assert Fill(segs, pat, rep) == [Text(rep)] + Fill(segs[1..], pat, rep);
      } else {
        FillFirstIsFillWhenSingle(segs[1..], pat, rep);
        assert Fill(segs, pat, rep) == [segs[0]] + Fill(segs[1..], pat, rep);
      }
    }
  }

  /** Without a hole named `pat`, filling changes nothing. */
  lemma {:induction false} NoHoleFillUnchanged(segs: seq<Segment>, pat: string, rep: string)
    requires HoleCount(segs, pat) == 0
    ensures Fill(segs, pat, rep) == segs
  {
    if |segs| > 0 {
      NoHoleFillUnchanged(segs[1..], pat, rep);
      assert segs == [segs[0]] + segs[1..];
    }
  }

  /** Filling leaves no hole named `pat`. */
  lemma {:induction false} FillRemovesHoles(segs: seq<Segment>, pat: string, rep: string)
    ensures HoleCount(Fill(segs, pat, rep), pat) == 0
    decreases |segs|
  {
    if |segs| > 0 {
      var r := Fill(segs, pat, rep);
      FillRemovesHoles(segs[1..], pat, rep);
      assert r[1..] == Fill(segs[1..], pat, rep);
    }
  }

  /** Filling the first hole removes exactly one hole named `pat`, if there is one. */
  lemma {:induction false} FillFirstRemovesOneHole(segs: seq<Segment>, pat: string, rep: string)
    ensures HoleCount(segs, pat) == 0 ==> FillFirst(segs, pat, rep) == segs
    ensures HoleCount(segs, pat) > 0 ==> HoleCount(FillFirst(segs, pat, rep), pat) == HoleCount(segs, pat) - 1
    decreases |segs|
  {
    if |segs| > 0 {
      var r := FillFirst(segs, pat, rep);
      if segs[0] == Hole(pat) {
        assert r[1..] == segs[1..];
      } else {
        FillFirstRemovesOneHole(segs[1..], pat, rep);
        assert r[1..] == FillFirst(segs[1..], pat, rep);
        assert segs == [segs[0]] + segs[1..];
      }
    }
  }

  /** Filling the holes named `q` leaves the count of holes named `pat` alone. */
  lemma {:induction false} FillKeepsOtherHoles(segs: seq<Segment>, q: string, rep: string, pat: string)
    requires q != pat
    ensures HoleCount(Fill(segs, q, rep), pat) == HoleCount(segs, pat)
    decreases |segs|
  {
    if |segs| > 0 {
      var r := Fill(segs, q, rep);
      FillKeepsOtherHoles(segs[1..], q, rep, pat);
      assert r[1..] == Fill(segs[1..], q, rep);
    }
  }

  /** With two or more holes named `pat`, filling the first is not filling all. */
  lemma FillFirstIsNotFillWhenRepeated(segs: seq<Segment>, pat: string, rep: string)
    requires HoleCount(segs, pat) >= 2
    ensures FillFirst(segs, pat, rep) != Fill(segs, pat, rep)
  {
    FillRemovesHoles(segs, pat, rep);
    FillFirstRemovesOneHole(segs, pat, rep);
  }

  /** Either replacement leaves a template without a hole named `pat` as it is. */
  lemma AbsentHoleUntouched(segs: seq<Segment>, pat: string, rep: string)
    requires WellFormed(segs) && IsPlaceholder(pat) && HoleCount(segs, pat) == 0
    ensures ReplaceFirst(Render(segs), pat, rep) == Render(segs)
    ensures ReplaceAll(Render(segs), pat, rep) == Render(segs)
  {
    ReplaceFirstFillsFirst(segs, pat, rep);
    FillFirstRemovesOneHole(segs, pat, rep);
    ReplaceAllFills(segs, pat, rep);
    NoHoleFillUnchanged(segs, pat, rep);
  }
}

=== FILE: view_js.dfy ===
/**
 * The decisions of the JavaScript result renderer (frontend/static/view.js),
 * without the DOM: permalinks that replace only the first occurrence of each
 * placeholder, the ranked default view and its failure on a repository
 * without metadata, the Phabricator checklist in input order, and the option
 * list of the repository selector.
 */
module JsView {
  import opened Wrappers
  import opened Strings
  import opened Order
  import opened Codesearch
  import opened Ranking
  import opened Template
  import opened RustView

  /** The number of fuzzy suggestions the repository selector asks for. */
  const SUGGEST_LIMIT: nat := 20

  /** The anchor: the first "{line}" of the anchor template replaced by the line number, or "" without a line. */
  function JsAnchor(cfg: RepoConfig, lineno: Option<nat>): string {
    match lineno
    case None => ""
    case Some(n) => ReplaceFirst(cfg.urlPattern.anchor, "{line}", NatToString(n))
  }

  /** `formatUrl`: the first occurrence of "{url}", "{rev}", "{path}" and "{anchor}" is replaced, in that order. */
  function FormatUrl(cfg: RepoConfig, rev: string, path: string, lineno: Option<nat>): string {
    var s1 := ReplaceFirst(cfg.urlPattern.baseUrl, "{url}", cfg.url);
    var s2 := ReplaceFirst(s1, "{rev}", rev);
    var s3 := ReplaceFirst(s2, "{path}", path);
    ReplaceFirst(s3, "{anchor}", JsAnchor(cfg, lineno))
  }

  /** The JavaScript anchor fills only the first "{line}" hole of the anchor template. */
  lemma JsAnchorFillsFirstLine(cfg: RepoConfig, n: nat, segs: seq<Segment>)
    requires cfg.urlPattern.anchor == Render(segs) && WellFormed(segs)
    ensures JsAnchor(cfg, Some(n)) == Render(FillFirst(segs, "{line}", NatToString(n)))
  {
    PlaceholderNames();
    ReplaceFirstFillsFirst(segs, "{line}", NatToString(n));
  }

  /**
   * On a well-formed permalink template with brace-free repository URL,
   * revision and path, `formatUrl` fills only the first hole of each
   * placeholder.
   */
  lemma FormatUrlFillsFirst(cfg: RepoConfig, rev: string, path: string, lineno: Option<nat>, segs: seq<Segment>)
    requires cfg.urlPattern.baseUrl == Render(segs) && WellFormed(segs)
    requires Plain(cfg.url) && Plain(rev) && Plain(path)
    ensures FormatUrl(cfg, rev, path, lineno) == Render(FillFirst(FillFirst(FillFirst(FillFirst(segs,
      "{url}", cfg.url), "{rev}", rev), "{path}", path), "{anchor}", JsAnchor(cfg, lineno)))
  {
    PlaceholderNames();
    var t1 := FillFirst(segs, "{url}", cfg.url);
    ReplaceFirstFillsFirst(segs, "{url}", cfg.url);
    FillFirstWellFormed(segs, "{url}", cfg.url);
    var t2 := FillFirst(t1, "{rev}", rev);
    ReplaceFirstFillsFirst(t1, "{rev}", rev);
    FillFirstWellFormed(t1, "{rev}", rev);
    var t3 := FillFirst(t2, "{path}", path);
    ReplaceFirstFillsFirst(t2, "{path}", path);
    FillFirstWellFormed(t2, "{path}", path);
    ReplaceFirstFillsFirst(t3, "{anchor}", JsAnchor(cfg, lineno));
  }

  /** The four permalink placeholders are pairwise different. */
  lemma PlaceholdersDistinct()
    ensures "{url}" != "{rev}" && "{url}" != "{path}" && "{url}" != "{anchor}"
    ensures "{rev}" != "{path}" && "{rev}" != "{anchor}" && "{path}" != "{anchor}"
  {
    assert "{url}"[1] == 'u' && "{rev}"[1] == 'r' && "{path}"[1] == 'p' && "{anchor}"[1] == 'a';
  }

  /**
   * When each placeholder occurs at most once in the templates, the
   * JavaScript and the Rust permalinks agree.
   */
  lemma FormatUrlAgreesWithBuildUrl(cfg: RepoConfig, rev: string, path: string, lineno: Option<nat>,
                                    segs: seq<Segment>, asegs: seq<Segment>)
    requires cfg.urlPattern.baseUrl == Render(segs) && WellFormed(segs)
    requires Plain(cfg.url) && Plain(rev) && Plain(path)
    requires HoleCount(segs, "{url}") <= 1 && HoleCount(segs, "{rev}") <= 1
    requires HoleCount(segs, "{path}") <= 1 && HoleCount(segs, "{anchor}") <= 1
    requires lineno.Some? ==>
      cfg.urlPattern.anchor == Render(asegs) && WellFormed(asegs) && HoleCount(asegs, "{line}") <= 1
    ensures FormatUrl(cfg, rev, path, lineno) == BuildUrl(cfg, rev, path, lineno)
  {
    PlaceholdersDistinct();
    BuildUrlFillsTemplate(cfg, rev, path, lineno, segs);
    FormatUrlFillsFirst(cfg, rev, path, lineno, segs);
    var t1 := Fill(segs, "{url}", cfg.url);
    FillFirstIsFillWhenSingle(segs, "{url}", cfg.url);
    FillKeepsOtherHoles(segs, "{url}", cfg.url, "{rev}");
    FillKeepsOtherHoles(segs, "{url}", cfg.url, "{path}");
    FillKeepsOtherHoles(segs, "{url}", cfg.url, "{anchor}");
    var t2 := Fill(t1, "{rev}", rev);
    FillFirstIsFillWhenSingle(t1, "{rev}", rev);
    FillKeepsOtherHoles(t1, "{rev}", rev, "{path}");
    FillKeepsOtherHoles(t1, "{rev}", rev, "{anchor}");
    var t3 := Fill(t2, "{path}", path);
    FillFirstIsFillWhenSingle(t2, "{path}", path);
    FillKeepsOtherHoles(t2, "{path}", path, "{anchor}");
    FillFirstIsFillWhenSingle(t3, "{anchor}", JsAnchor(cfg, lineno));
    if lineno.Some? {
      AnchorFillsLine(cfg, lineno.value, asegs);
      JsAnchorFillsFirstLine(cfg, lineno.value, asegs);
      FillFirstIsFillWhenSingle(asegs, "{line}", NatToString(lineno.value));
    }
  }

  /** The template "{path}{path}" as segments. */
  lemma RepeatedPathSegments() returns (segs: seq<Segment>)
    ensures segs == [Hole("{path}"), Hole("{path}")]
    ensures Render(segs) == "{path}{path}" && WellFormed(segs)
    ensures HoleCount(segs, "{url}") == 0 && HoleCount(segs, "{rev}") == 0
  {
    PlaceholderNames();
    PlaceholdersDistinct();
    segs := [Hole("{path}"), Hole("{path}")];
    assert segs[1..] == [Hole("{path}")] && segs[1..][1..] == [];
    assert Render(segs[1..]) == "{path}" + Render(segs[2..]);
    assert HoleCount(segs[1..][1..], "{url}") == 0 && HoleCount(segs[1..][1..], "{rev}") == 0;
    assert HoleCount(segs[1..], "{url}") == 0 && HoleCount(segs[1..], "{rev}") == 0;
  }

  /** Replacing every "{path}" of "{path}{path}". */
  lemma RepeatedPathFilled(path: string)
    requires Plain(path)
    ensures ReplaceAll("{path}{path}", "{path}", path) == path + path
  {
    PlaceholderNames();
    var segs := RepeatedPathSegments();
    ReplaceAllFills(segs, "{path}", path);
    var all := [Text(path), Text(path)];
    assert Fill(segs, "{path}", path) == all;
    assert Render(all[1..]) == path + Render(all[2..]);
  }

  /** Replacing the first "{path}" of "{path}{path}". */
  lemma RepeatedPathFirstFilled(path: string)
    requires Plain(path)
    ensures ReplaceFirst("{path}{path}", "{path}", path) == path + "{path}"
  {
    PlaceholderNames();
    var segs := RepeatedPathSegments();
    ReplaceFirstFillsFirst(segs, "{path}", path);
    var first := [Text(path), Hole("{path}")];
    assert FillFirst(segs, "{path}", path) == first;
    assert Render(first[1..]) == "{path}" + Render(first[2..]);
  }

  /** "{path}{path}" has nothing for the repository URL or the revision to fill. */
  lemma RepeatedPathLacks(pat: string, rep: string)
    requires pat == "{url}" || pat == "{rev}"
    ensures ReplaceFirst("{path}{path}", pat, rep) == "{path}{path}"
    ensures ReplaceAll("{path}{path}", pat, rep) == "{path}{path}"
  {
    PlaceholderNames();
    var segs := RepeatedPathSegments();
    AbsentHoleUntouched(segs, pat, rep);
  }

  /** The half-filled template has no anchor hole left. */
  lemma HalfFilledLacksAnchor(path: string, rep: string)
    requires Plain(path)
    ensures ReplaceFirst(path + "{path}", "{anchor}", rep) == path + "{path}"
  {
    PlaceholderNames();
    PlaceholdersDistinct();
    var first := [Text(path), Hole("{path}")];
    assert Render(first) == path + "{path}" by {
      assert Render(first[1..]) == "{path}" + Render(first[2..]);
    }
    assert HoleCount(first, "{anchor}") == 0 by {
      assert HoleCount(first[1..], "{anchor}") == 0;
    }
    AbsentHoleUntouched(first, "{anchor}", rep);
  }

  /** Rust fills both holes of "{path}{path}". */
  lemma RepeatedPathBuildUrl(cfg: RepoConfig, rev: string, path: string, lineno: Option<nat>)
    requires cfg.urlPattern.baseUrl == "{path}{path}" && Plain(path)
    ensures BuildUrl(cfg, rev, path, lineno) == path + path
  {
    RepeatedPathLacks("{url}", cfg.url);
    RepeatedPathLacks("{rev}", rev);
    RepeatedPathFilled(path);
    assert Plain(path + path);
    PlainUnchanged(path + path, "{anchor}", Anchor(cfg, lineno));
  }

  /** JavaScript fills only the first hole of "{path}{path}". */
  lemma RepeatedPathFormatUrl(cfg: RepoConfig, rev: string, path: string, lineno: Option<nat>)
    requires cfg.urlPattern.baseUrl == "{path}{path}" && Plain(path)
    ensures FormatUrl(cfg, rev, path, lineno) == path + "{path}"
  {
    RepeatedPathLacks("{url}", cfg.url);
    RepeatedPathLacks("{rev}", rev);
    RepeatedPathFirstFilled(path);
    HalfFilledLacksAnchor(path, JsAnchor(cfg, lineno));
  }

  /** A template that repeats "{path}" is where the renderers part ways. */
  lemma RepeatedPlaceholderDiverges(cfg: RepoConfig, rev: string, path: string, lineno: Option<nat>)
    requires cfg.urlPattern.baseUrl == "{path}{path}" && Plain(path)
    ensures BuildUrl(cfg, rev, path, lineno) != FormatUrl(cfg, rev, path, lineno)
  {
    RepeatedPathBuildUrl(cfg, rev, path, lineno);
    RepeatedPathFormatUrl(cfg, rev, path, lineno);
    assert (path + "{path}")[|path|] == '{';
  }

  /** One repository's section: its file links in result order and a button only when more exist. */
  datatype JsSection = JsSection(repo: string, files: seq<(string, string)>, loadMore: Option<string>)

  /** The default view: the sections and the matched-repositories list. */
  datatype JsPage = JsPage(sections: seq<JsSection>, nav: seq<(string, nat)>)

  /** The result of building: the value, or the message of the error thrown. */
  datatype Outcome<T> = Built(value: T) | Thrown(message: string)

  /** A repository's section, linking each file without an anchor. */
  function JsSectionOf(cfg: RepoConfig, e: Entry): (s: JsSection)
    ensures s.repo == e.0
    ensures |s.files| == |e.1.matches|
    ensures forall i :: 0 <= i < |s.files| ==>
      s.files[i] == (e.1.matches[i].filename, FormatUrl(cfg, e.1.revision, e.1.matches[i].filename, None))
    ensures s.loadMore.Some? <==> HasMore(e.1)
    ensures s.loadMore.Some? ==> s.loadMore.value == LoadMoreLabel(e.0, e.1)
  {
    var m := e.1.matches;
    JsSection(e.0,
      seq(|m|, i requires 0 <= i < |m| => (m[i].filename, FormatUrl(cfg, e.1.revision, m[i].filename, None))),
      if HasMore(e.1) then Some(LoadMoreLabel(e.0, e.1)) else None)
  }

  /** The first position at or after `from` whose repository has no metadata. */
  function FirstMissing(config: HoundConfig, s: seq<Entry>, from: nat): (r: Option<nat>)
    requires from <= |s|
    ensures r.Some? ==> from <= r.value < |s| && s[r.value].0 !in config
    ensures r.Some? ==> forall j :: from <= j < r.value ==> s[j].0 in config
    ensures r.None? ==> forall j :: from <= j < |s| ==> s[j].0 in config
    decreases |s| - from
  {
    if from == |s| then None
    else if s[from].0 !in config then Some(from)
    else FirstMissing(config, s, from + 1)
  }

  /** The page of ranked repositories that all have metadata. */
  function JsPageOf(config: HoundConfig, ranked: seq<Entry>): (p: JsPage)
    requires AllConfigured(config, ranked)
    ensures |p.sections| == |ranked| == |p.nav|
    ensures forall i :: 0 <= i < |ranked| ==>
      p.sections[i] == JsSectionOf(config[ranked[i].0], ranked[i]) && p.nav[i] == (ranked[i].0, ranked[i].1.filesWithMatch)
  {
    JsPage(seq(|ranked|, i requires 0 <= i < |ranked| => JsSectionOf(config[ranked[i].0], ranked[i])),
           seq(|ranked|, i requires 0 <= i < |ranked| => (ranked[i].0, ranked[i].1.filesWithMatch)))
  }

  /** The outcome on entries already in display order. */
  function JsBuild(config: HoundConfig, ranked: seq<Entry>): Outcome<JsPage> {
    match FirstMissing(config, ranked, 0)
    case Some(k) => Thrown("Missing repo metadata for " + ranked[k].0)
    case None => Built(JsPageOf(config, ranked))
  }

  /** Building fails exactly on the first entry without metadata, and otherwise yields the whole page. */
  lemma JsBuildOutcome(config: HoundConfig, ranked: seq<Entry>)
    ensures JsBuild(config, ranked).Thrown? <==> !AllConfigured(config, ranked)
    ensures JsBuild(config, ranked).Thrown? ==> exists k :: (0 <= k < |ranked|
      && ranked[k].0 !in config
      && (forall j :: 0 <= j < k ==> ranked[j].0 in config)
      && JsBuild(config, ranked).message == "Missing repo metadata for " + ranked[k].0)
    ensures JsBuild(config, ranked).Built? ==> JsBuild(config, ranked).value == JsPageOf(config, ranked)
  {
    match FirstMissing(config, ranked, 0)
    case Some(k) =>
      assert ranked[k].0 !in config;
    case None =>
      assert AllConfigured(config, ranked);
  }

  /**
   * `buildResultsDefault`: the sections in ranked order; the first ranked
   * repository without metadata aborts the whole build with an error naming it.
   */
  function JsViewDefault(config: HoundConfig, results: seq<Entry>): Outcome<JsPage> {
    JsBuild(config, Rank(results))
  }

  /** The build fails exactly when a repository lacks metadata, and the error names the first such in ranked order. */
  lemma JsViewDefaultThrows(config: HoundConfig, results: seq<Entry>)
    ensures JsViewDefault(config, results).Thrown? <==> !AllConfigured(config, results)
    ensures JsViewDefault(config, results).Thrown? ==> exists k :: (0 <= k < |results|
      && Rank(results)[k].0 !in config
      && (forall j :: 0 <= j < k ==> Rank(results)[j].0 in config)
      && JsViewDefault(config, results).message == "Missing repo metadata for " + Rank(results)[k].0)
  {
    var ranked := Rank(results);
    JsBuildOutcome(config, ranked);
    AllConfiguredPermutation(config, ranked, results);
    var out := JsBuild(config, ranked);
    assert JsViewDefault(config, results) == out;
    if out.Thrown? {
      var k :| 0 <= k < |ranked| && ranked[k].0 !in config
        && (forall j :: 0 <= j < k ==> ranked[j].0 in config)
        && out.message == "Missing repo metadata for " + ranked[k].0;
      assert k < |results|;
    }
  }

  /** A successful build shows every repository, in ranked order. */
  lemma JsViewDefaultBuilds(config: HoundConfig, results: seq<Entry>)
    requires AllConfigured(config, results)
    ensures JsViewDefault(config, results).Built?
    ensures JsViewDefault(config, results).value == JsPageOf(config, Rank(results))
  {
    JsBuildOutcome(config, Rank(results));
    AllConfiguredPermutation(config, Rank(results), results);
  }

  /**
   * The two renderers fail on the same inputs, and otherwise show the same
   * repositories in the same order, the same file names in the same order
   * and the same buttons. The file links agree only where the permalinks do
   * (`FormatUrlAgreesWithBuildUrl`).
   */
  lemma DefaultViewsAgree(config: HoundConfig, results: seq<Entry>)
    ensures JsViewDefault(config, results).Built? <==> ViewDefault(config, results).Some?
    ensures JsViewDefault(config, results).Built? ==>
      var js := JsViewDefault(config, results).value;
      var rs := ViewDefault(config, results).value;
      && js.nav == rs.nav
      && |js.sections| == |rs.sections|
      && forall i :: 0 <= i < |js.sections| ==>
        && js.sections[i].repo == rs.sections[i].repo
        && js.sections[i].loadMore == rs.sections[i].loadMore
        && |js.sections[i].files| == |rs.sections[i].cards|
        && forall j :: 0 <= j < |js.sections[i].files| ==> js.sections[i].files[j].0 == rs.sections[i].cards[j].filename
  {
    JsViewDefaultThrows(config, results);
    if AllConfigured(config, results) {
      JsViewDefaultBuilds(config, results);
      AllConfiguredPermutation(config, Rank(results), results);
      var js := JsViewDefault(config, results).value;
      var rs := ViewDefault(config, results).value;
      assert js.nav == rs.nav;
    }
  }

  /** A file's checklist line, with the JavaScript permalink. */
  function JsPhabFileLine(cfg: RepoConfig, rev: string, rm: RepoMatch): string {
    FileLineText(FormatUrl(cfg, rev, rm.filename, None), rm)
  }

  /**
   * One repository's lines: the header, then a line per file. A file of a
   * repository without metadata fails, since its permalink reads the missing
   * configuration; a repository without files needs none.
   */
  function JsEntryLines(config: HoundConfig, e: Entry): (r: Option<seq<string>>)
    ensures r.None? <==> |e.1.matches| > 0 && e.0 !in config
    ensures r.Some? ==> |r.value| == 1 + |e.1.matches| && r.value[0] == PhabHeader(e.0, e.1)
  {
    var m := e.1.matches;
    if |m| > 0 && e.0 !in config then None
    else Some([PhabHeader(e.0, e.1)]
      + seq(|m|, i requires 0 <= i < |m| => JsPhabFileLine(config[e.0], e.1.revision, m[i])))
  }

  /** The pieces of all items, in item order, or a failure if any item fails. */
  function Collect<T>(f: T -> Option<seq<string>>, xs: seq<T>): Option<seq<string>> {
    if |xs| == 0 then Some([])
    else
      var head := f(xs[0]);
      var rest := Collect(f, xs[1..]);
      if head.Some? && rest.Some? then Some(head.value + rest.value) else None
  }

  /** Collecting fails exactly when some item fails. */
  lemma {:induction false} CollectFails<T>(f: T -> Option<seq<string>>, xs: seq<T>)
    ensures Collect(f, xs).None? <==> exists i :: 0 <= i < |xs| && f(xs[i]).None?
  {
    if |xs| > 0 {
      CollectFails(f, xs[1..]);
      assert forall i :: 1 <= i < |xs| ==> xs[i] == xs[1..][i - 1];
    }
  }

  /** Collecting two runs of items is collecting the first, then the second. */
  lemma {:induction false} CollectAppend<T>(f: T -> Option<seq<string>>, a: seq<T>, b: seq<T>)
    requires Collect(f, a).Some? && Collect(f, b).Some?
    ensures Collect(f, a + b) == Some(Collect(f, a).value + Collect(f, b).value)
    decreases |a|
  {
    if |a| == 0 {
      assert a + b == b;
      assert Collect(f, a) == Some([]);
      var v := Collect(f, b).value;
      assert Collect(f, a + b) == Some(v);
      assert [] + v == v;
    } else {
      assert (a + b)[1..] == a[1..] + b;
      assert (a + b)[0] == a[0];
      CollectAppend(f, a[1..], b);
      var l, ra, lb := f(a[0]).value, Collect(f, a[1..]).value, Collect(f, b).value;
      assert l + (ra + lb) == (l + ra) + lb;
    }
  }

  /** The lines of all repositories, in entry order, or a failure if any repository fails. */
  function JsPhabLines(config: HoundConfig, entries: seq<Entry>): Option<seq<string>> {
    Collect(e => JsEntryLines(config, e), entries)
  }

  /** Strings written one after another. */
  function Concat(pieces: seq<string>): string {
    if |pieces| == 0 then "" else pieces[0] + Concat(pieces[1..])
  }

  /** Each line followed by a line break. */
  function Terminated(lines: seq<string>): seq<string> {
    MapSeq(l => l + "\n", lines)
  }

  /** `buildResultsPhabricator`: every line followed by a line break, in entry order, without sorting. */
  function JsPhabricator(config: HoundConfig, entries: seq<Entry>): Option<string> {
    match JsPhabLines(config, entries)
    case None => None
    case Some(lines) => Some(Concat(Terminated(lines)))
  }

  /** The checklist fails exactly when some repository with files has no metadata. */
  lemma JsPhabricatorFails(config: HoundConfig, entries: seq<Entry>)
    ensures JsPhabricator(config, entries).None? <==>
      exists i :: 0 <= i < |entries| && |entries[i].1.matches| > 0 && entries[i].0 !in config
  {
    CollectFails(e => JsEntryLines(config, e), entries);
  }

  /** Writing terminated lines one after another is joining them with line breaks, plus a final one. */
  lemma {:induction false} ConcatTerminated(lines: seq<string>)
    ensures Concat(Terminated(lines)) == Join(lines + [""], "\n")
    decreases |lines|
  {
    if |lines| > 0 {
      ConcatTerminated(lines[1..]);
      assert Terminated(lines)[1..] == Terminated(lines[1..]);
      assert (lines + [""])[1..] == lines[1..] + [""];
      JoinCons(lines[0], lines[1..] + [""], "\n");
      assert lines + [""] == [lines[0]] + (lines[1..] + [""]);
    }
  }

  /** Without line breaks inside the lines, the checklist reads back as its lines and a final empty one. */
  lemma JsPhabricatorReadsBack(config: HoundConfig, entries: seq<Entry>)
    requires JsPhabLines(config, entries).Some?
    requires forall k :: 0 <= k < |JsPhabLines(config, entries).value| ==> '\n' !in JsPhabLines(config, entries).value[k]
    ensures Split(JsPhabricator(config, entries).value, "\n") == JsPhabLines(config, entries).value + [""]
  {
    var lines := JsPhabLines(config, entries).value;
    ConcatTerminated(lines);
    SplitJoin(lines + [""], '\n');
  }

  /** Concatenation distributes over appending. */
  lemma {:induction false} ConcatAppend(a: seq<string>, b: seq<string>)
    ensures Concat(a + b) == Concat(a) + Concat(b)
    decreases |a|
  {
    if |a| == 0 {
      assert a + b == b;
      assert Concat(a) == "";
    } else {
      ConcatAppend(a[1..], b);
      assert (a + b)[0] == a[0];
      assert (a + b)[1..] == a[1..] + b;
      assert Concat(a + b) == a[0] + (Concat(a[1..]) + Concat(b));
    }
  }

  /** The checklist follows the entry order: the text of `a + b` is the text of `a`, then that of `b`. */
  lemma JsPhabricatorInEntryOrder(config: HoundConfig, a: seq<Entry>, b: seq<Entry>)
    requires JsPhabricator(config, a).Some? && JsPhabricator(config, b).Some?
    ensures JsPhabricator(config, a + b) == Some(JsPhabricator(config, a).value + JsPhabricator(config, b).value)
  {
    var la, lb := JsPhabLines(config, a).value, JsPhabLines(config, b).value;
    CollectAppend(e => JsEntryLines(config, e), a, b);
    assert Terminated(la + lb) == Terminated(la) + Terminated(lb);
    ConcatAppend(Terminated(la), Terminated(lb));
  }

  /** A repository's line for its `i`-th file, with agreeing permalinks, is the Rust one. */
  lemma JsEntryLineAt(config: HoundConfig, e: Entry, i: nat)
    requires e.0 in config && i < |e.1.matches|
    requires FormatUrl(config[e.0], e.1.revision, e.1.matches[i].filename, None)
      == BuildUrl(config[e.0], e.1.revision, e.1.matches[i].filename, None)
    ensures JsEntryLines(config, e).value[i + 1] == PhabLines(config[e.0], e)[i + 1]
  {
  }

  /** With agreeing permalinks, a repository's lines are those of the Rust checklist block. */
  lemma JsEntryLinesMatchRust(config: HoundConfig, e: Entry)
    requires e.0 in config
    requires forall i :: 0 <= i < |e.1.matches| ==>
      FormatUrl(config[e.0], e.1.revision, e.1.matches[i].filename, None)
        == BuildUrl(config[e.0], e.1.revision, e.1.matches[i].filename, None)
    ensures JsEntryLines(config, e) == Some(PhabLines(config[e.0], e))
  {
    var l := JsEntryLines(config, e).value;
    var r := PhabLines(config[e.0], e);
    forall i | 0 <= i < |l|
      ensures l[i] == r[i]
    {
      if i > 0 {
        JsEntryLineAt(config, e, i - 1);
      }
    }
    assert l == r;
  }

  /** One option of the repository selector; `number` gives its element id "cs-field-repo<number>". */
  datatype RepoOption = RepoOption(id: string, checked: bool, number: nat)

  /** What the fuzzy filter is asked for: at most `SUGGEST_LIMIT` best matches. */
  function Suggestions(ranked: seq<string>): (r: seq<string>)
    ensures |r| <= SUGGEST_LIMIT && |r| <= |ranked| && r == ranked[..|r|]
    ensures |r| == SUGGEST_LIMIT || r == ranked
  {
    if |ranked| <= SUGGEST_LIMIT then ranked else ranked[..SUGGEST_LIMIT]
  }

  /** The suggestions that are not selected, in suggestion order. */
  function Unselected(suggestions: seq<string>, selected: seq<string>): seq<string> {
    if |suggestions| == 0 then []
    else
      var last := suggestions[|suggestions| - 1];
      Unselected(suggestions[..|suggestions| - 1], selected) + (if last in selected then [] else [last])
  }

  /** An id is an unselected suggestion exactly when it is suggested and not selected. */
  lemma {:induction false} UnselectedMembers(suggestions: seq<string>, selected: seq<string>, x: string)
    ensures x in Unselected(suggestions, selected) <==> x in suggestions && x !in selected
    ensures |Unselected(suggestions, selected)| <= |suggestions|
    decreases |suggestions|
  {
    if |suggestions| > 0 {
      var p := suggestions[..|suggestions| - 1];
      UnselectedMembers(p, selected, x);
      assert suggestions == p + [suggestions[|suggestions| - 1]];
    }
  }

  /**
   * `buildRepoSelector`: every selected id first, checked; then each
   * suggestion not selected, unchecked; numbered consecutively from 1.
   */
  method BuildRepoSelector(selected: seq<string>, ranked: seq<string>) returns (opts: seq<RepoOption>)
    ensures |opts| == |selected| + |Unselected(Suggestions(ranked), selected)|
    ensures forall i :: 0 <= i < |selected| ==> opts[i] == RepoOption(selected[i], true, i + 1)
    ensures forall i :: 0 <= i < |Unselected(Suggestions(ranked), selected)| ==>
      opts[|selected| + i] == RepoOption(Unselected(Suggestions(ranked), selected)[i], false, |selected| + i + 1)
  {
    var suggestions := Suggestions(ranked);
    var n := 1;
    opts := [];
    var k := 0;
    while k < |selected|
      invariant 0 <= k <= |selected|
      invariant n == k + 1 && |opts| == k
      invariant forall i :: 0 <= i < k ==> opts[i] == RepoOption(selected[i], true, i + 1)
    {
      opts := opts + [RepoOption(selected[k], true, n)];
      n := n + 1;
      k := k + 1;
    }
    k := 0;
    while k < |suggestions|
      invariant 0 <= k <= |suggestions|
      invariant |opts| == |selected| + |Unselected(suggestions[..k], selected)| && n == |opts| + 1
      invariant forall i :: 0 <= i < |selected| ==> opts[i] == RepoOption(selected[i], true, i + 1)
      invariant forall i :: 0 <= i < |Unselected(suggestions[..k], selected)| ==>
        opts[|selected| + i] == RepoOption(Unselected(suggestions[..k], selected)[i], false, |selected| + i + 1)
    {
      assert suggestions[..k + 1][..k] == suggestions[..k];
      if suggestions[k] !in selected {
        opts := opts + [RepoOption(suggestions[k], false, n)];
        n := n + 1;
      }
      k := k + 1;
    }
    assert suggestions[..k] == suggestions;
  }
}

=== FILE: view_rs.dfy ===
/**
 * The decisions of the Rust result renderer (frontend/src/view.rs), without
 * the seed DOM nodes: permalink construction, the ranked default view with its
 * "load more" buttons, the Phabricator checklist text, and the dispatch on the
 * result format. A panic (an `unwrap` on a repository missing from the
 * configuration, or an unknown format) is modelled as an explicit outcome.
 */
module RustView {
  import opened Wrappers
  import opened Strings
  import opened Order
  import opened Codesearch
  import opened OrderedMap
  import opened Flattening
  import opened Ranking
  import opened Template

  /** The `HoundConfig` hash map: repository name to its configuration. */
  type HoundConfig = map<string, RepoConfig>

  /** The pieces of `s` between the occurrences of `pat`, joined by `rep`: an independent reading of replace-all. */
  function Substitute(s: string, pat: string, rep: string): string
    requires |pat| > 0
  {
    Join(Split(s, pat), rep)
  }

  /** The anchor: the anchor template with every "{line}" replaced by the line number, or "" without a line. */
  function Anchor(cfg: RepoConfig, lineno: Option<nat>): (a: string)
    ensures lineno.None? ==> a == ""
    ensures lineno.Some? ==> a == Substitute(cfg.urlPattern.anchor, "{line}", NatToString(lineno.value))
  {
    match lineno
    case None => ""
    case Some(n) =>
      ReplaceAllIsSplitJoin(cfg.urlPattern.anchor, "{line}", NatToString(n));
      ReplaceAll(cfg.urlPattern.anchor, "{line}", NatToString(n))
  }

  /**
   * `build_url`: every occurrence of each placeholder is replaced, in the order
   * "{url}", "{rev}", "{path}", "{anchor}", each stage working on the output of
   * the one before.
   */
  function BuildUrl(cfg: RepoConfig, rev: string, path: string, lineno: Option<nat>): (r: string)
    ensures r == Substitute(Substitute(Substitute(Substitute(cfg.urlPattern.baseUrl,
      "{url}", cfg.url), "{rev}", rev), "{path}", path), "{anchor}", Anchor(cfg, lineno))
  {
    var s1 := ReplaceAll(cfg.urlPattern.baseUrl, "{url}", cfg.url);
    ReplaceAllIsSplitJoin(cfg.urlPattern.baseUrl, "{url}", cfg.url);
    var s2 := ReplaceAll(s1, "{rev}", rev);
    ReplaceAllIsSplitJoin(s1, "{rev}", rev);
    var s3 := ReplaceAll(s2, "{path}", path);
    ReplaceAllIsSplitJoin(s2, "{path}", path);
    ReplaceAllIsSplitJoin(s3, "{anchor}", Anchor(cfg, lineno));
    ReplaceAll(s3, "{anchor}", Anchor(cfg, lineno))
  }

  /** A braced text whose inner characters are not braces is a placeholder. */
  lemma BracedName(q: string)
    requires |q| >= 2 && q[0] == '{' && q[|q| - 1] == '}'
    requires forall k :: 1 <= k < |q| - 1 ==> q[k] != '{' && q[k] != '}'
    ensures IsPlaceholder(q)
  {
    var inner := q[1..|q| - 1];
    assert forall k :: 0 <= k < |inner| ==> inner[k] == q[k + 1];
  }

  /** The four placeholders of a permalink template, and the one of an anchor template. */
  lemma PlaceholderNames()
    ensures IsPlaceholder("{url}") && IsPlaceholder("{rev}") && IsPlaceholder("{path}")
    ensures IsPlaceholder("{anchor}") && IsPlaceholder("{line}")
  {
    BracedName("{url}");
    BracedName("{rev}");
    BracedName("{path}");
    BracedName("{anchor}");
    BracedName("{line}");
  }

  /** A line number's decimal text holds no brace. */
  lemma NumberIsPlain(n: nat)
    ensures Plain(NatToString(n))
  {
    var t := NatToString(n);
    assert forall k :: 0 <= k < |t| ==> t[k] != '{';
  }

  /** The anchor fills every "{line}" hole of the anchor template with the line number. */
  lemma AnchorFillsLine(cfg: RepoConfig, n: nat, segs: seq<Segment>)
    requires cfg.urlPattern.anchor == Render(segs) && WellFormed(segs)
    ensures Anchor(cfg, Some(n)) == Render(Fill(segs, "{line}", NatToString(n)))
    ensures WellFormed(Fill(segs, "{line}", NatToString(n)))
  {
    PlaceholderNames();
    ReplaceAllFills(segs, "{line}", NatToString(n));
    NumberIsPlain(n);
    FillWellFormed(segs, "{line}", NatToString(n));
  }

  /**
   * On a well-formed permalink template with brace-free repository URL,
   * revision and path, `build_url` fills every hole of each placeholder.
   */
  lemma BuildUrlFillsTemplate(cfg: RepoConfig, rev: string, path: string, lineno: Option<nat>, segs: seq<Segment>)
    requires cfg.urlPattern.baseUrl == Render(segs) && WellFormed(segs)
    requires Plain(cfg.url) && Plain(rev) && Plain(path)
    ensures BuildUrl(cfg, rev, path, lineno)
      == Render(Fill(Fill(Fill(Fill(segs, "{url}", cfg.url), "{rev}", rev), "{path}", path), "{anchor}", Anchor(cfg, lineno)))
  {
    PlaceholderNames();
    var t1 := Fill(segs, "{url}", cfg.url);
    ReplaceAllFills(segs, "{url}", cfg.url);
    FillWellFormed(segs, "{url}", cfg.url);
    var t2 := Fill(t1, "{rev}", rev);
    ReplaceAllFills(t1, "{rev}", rev);
    FillWellFormed(t1, "{rev}", rev);
    var t3 := Fill(t2, "{path}", path);
    ReplaceAllFills(t2, "{path}", path);
    FillWellFormed(t2, "{path}", path);
    ReplaceAllFills(t3, "{anchor}", Anchor(cfg, lineno));
  }

  /** A template without braces is returned as it is. */
  lemma BuildUrlWithoutPlaceholders(cfg: RepoConfig, rev: string, path: string, lineno: Option<nat>)
    requires Plain(cfg.urlPattern.baseUrl)
    ensures BuildUrl(cfg, rev, path, lineno) == cfg.urlPattern.baseUrl
  {
    var base := cfg.urlPattern.baseUrl;
    PlainUnchanged(base, "{url}", cfg.url);
    PlainUnchanged(base, "{rev}", rev);
    PlainUnchanged(base, "{path}", path);
    PlainUnchanged(base, "{anchor}", Anchor(cfg, lineno));
  }

  /**
   * The stages are not one simultaneous substitution: a repository URL that
   * itself reads "{rev}" is replaced by the revision in the next stage.
   */
  lemma InsertedPlaceholderIsReplaced(cfg: RepoConfig, rev: string, path: string, lineno: Option<nat>)
    requires cfg.urlPattern.baseUrl == "{url}" && cfg.url == "{rev}" && Plain(rev)
    ensures BuildUrl(cfg, rev, path, lineno) == rev
  {
    PlaceholderNames();
    var t0 := [Hole("{url}")];
    assert Render(t0) == "{url}";
    ReplaceAllFills(t0, "{url}", "{rev}");
    assert Fill(t0, "{url}", "{rev}") == [Text("{rev}")];
    var t1 := [Hole("{rev}")];
    assert Render(t1) == "{rev}" == Render([Text("{rev}")]);
    ReplaceAllFills(t1, "{rev}", rev);
    assert Fill(t1, "{rev}", rev) == [Text(rev)];
    assert Render([Text(rev)]) == rev;
    PlainUnchanged(rev, "{path}", path);
    PlainUnchanged(rev, "{anchor}", Anchor(cfg, lineno));
  }

  /** One line of a file card; `shown` is the line number as displayed, padded to four columns. */
  datatype LineView = LineView(number: nat, shown: string, url: string, text: string, highlight: bool)

  /** The card of one file: its name, its permalink and its lines. */
  datatype Card = Card(filename: string, url: string, lines: seq<LineView>)

  /** The section of one repository; `loadMore` is the label of its button, if shown. */
  datatype Section = Section(repo: string, cards: seq<Card>, loadMore: Option<string>)

  /** The default view: repository sections and the matched-repositories list. */
  datatype DefaultPage = DefaultPage(sections: seq<Section>, nav: seq<(string, nat)>)

  /** The line-number label, `format!("{:>4}", lineno)`. */
  function LineLabel(n: nat): (l: string)
    ensures |l| >= 4
  {
    PadLeft(NatToString(n), 4)
  }

  /** The label reads back as its line number once the padding is trimmed. */
  lemma LineLabelReadsBack(n: nat)
    ensures IsDigits(Trim(LineLabel(n), {' '}))
    ensures ParseDecimal(Trim(LineLabel(n), {' '})) == n
  {
    var d := NatToString(n);
    assert '0' <= d[0] <= '9' && '0' <= d[|d| - 1] <= '9';
    PadLeftTrim(d, 4);
    DecimalRoundTrip(n);
  }

  /** Labels of numbers below 10000 all have the same width. */
  lemma LineLabelAligned(a: nat, b: nat)
    requires a < 10000 && b < 10000
    ensures |LineLabel(a)| == |LineLabel(b)| == 4
  {
    DigitsBelow(a);
    DigitsBelow(b);
  }

  /** A number below 10000 has at most four digits. */
  lemma {:induction false} DigitsBelow(n: nat)
    requires n < 10000
    ensures |NatToString(n)| <= 4
  {
    if n >= 10 {
      DigitsBelowThousand(n / 10);
    }
  }

  /** A number below 1000 has at most three digits. */
  lemma {:induction false} DigitsBelowThousand(n: nat)
    requires n < 1000
    ensures |NatToString(n)| <= 3
  {
    if n >= 10 {
      assert n / 10 < 100;
      if n / 10 >= 10 {
        assert n / 100 < 10;
        assert NatToString(n / 10) == NatToString(n / 100) + [DigitChar(n / 10 % 10)];
      }
    }
  }

  /** The rendered lines of a flattened file. */
  function LineViews(cfg: RepoConfig, rev: string, filename: string, lines: seq<(nat, Line)>): (r: seq<LineView>)
    ensures |r| == |lines|
    ensures forall i :: 0 <= i < |r| ==>
      && r[i].number == lines[i].0 && r[i].shown == LineLabel(lines[i].0) && r[i].text == lines[i].1.text
      && r[i].highlight == lines[i].1.highlight && r[i].url == BuildUrl(cfg, rev, filename, Some(lines[i].0))
  {
    seq(|lines|, i requires 0 <= i < |lines| =>
      LineView(lines[i].0, LineLabel(lines[i].0), BuildUrl(cfg, rev, filename, Some(lines[i].0)),
        lines[i].1.text, lines[i].1.highlight))
  }

  /** The card of one file, linking to the file and showing its flattened lines in order. */
  function RenderCard(cfg: RepoConfig, rev: string, rm: RepoMatch): (c: Card)
    ensures c.filename == rm.filename && c.url == BuildUrl(cfg, rev, rm.filename, None)
  {
    var f := Flatten(rm);
    Card(rm.filename, BuildUrl(cfg, rev, rm.filename, None), LineViews(cfg, rev, rm.filename, f.lines))
  }

  /**
   * A card's lines ascend, and they are exactly the lines of the flattened
   * map, each with its text and highlight.
   */
  lemma RenderCardShowsLines(cfg: RepoConfig, rev: string, rm: RepoMatch)
    ensures var c := RenderCard(cfg, rev, rm);
      forall i, j :: 0 <= i < j < |c.lines| ==> c.lines[i].number < c.lines[j].number
    ensures var c := RenderCard(cfg, rev, rm);
      forall i :: 0 <= i < |c.lines| ==>
        && c.lines[i].number in LinesOf(rm.matches, AsWritten)
        && LinesOf(rm.matches, AsWritten)[c.lines[i].number] == Line(c.lines[i].highlight, c.lines[i].text)
    ensures var c := RenderCard(cfg, rev, rm);
      forall k :: k in LinesOf(rm.matches, AsWritten) ==> exists i :: 0 <= i < |c.lines| && c.lines[i].number == k
  {
    var f := Flatten(rm);
    var c := RenderCard(cfg, rev, rm);
    forall i, j | 0 <= i < j < |c.lines|
      ensures c.lines[i].number < c.lines[j].number
    {
      CardLineAt(cfg, rev, rm, i);
      CardLineAt(cfg, rev, rm, j);
    }
    forall i | 0 <= i < |c.lines|
      ensures c.lines[i].number in LinesOf(rm.matches, AsWritten)
      ensures LinesOf(rm.matches, AsWritten)[c.lines[i].number] == Line(c.lines[i].highlight, c.lines[i].text)
    {
      CardLineAt(cfg, rev, rm, i);
      ToMapValueAt(f.lines, i);
    }
    forall k | k in LinesOf(rm.matches, AsWritten)
      ensures exists i :: 0 <= i < |c.lines| && c.lines[i].number == k
    {
      var i := ToMapKeyAt(f.lines, k);
      CardLineAt(cfg, rev, rm, i);
    }
  }

  /** The `i`-th line of a card shows the `i`-th flattened line. */
  lemma CardLineAt(cfg: RepoConfig, rev: string, rm: RepoMatch, i: nat)
    requires i < |Flatten(rm).lines|
    ensures |RenderCard(cfg, rev, rm).lines| == |Flatten(rm).lines|
    ensures var v := RenderCard(cfg, rev, rm).lines[i];
      var l := Flatten(rm).lines[i];
      v.number == l.0 && v.text == l.1.text && v.highlight == l.1.highlight
  {
  }

  /** `has_more`: the backend reported more files than it returned. */
  predicate HasMore(result: RepoResult) {
    result.filesWithMatch > |result.matches|
  }

  /** The label of the "load more" button. */
  function LoadMoreLabel(repo: string, result: RepoResult): string {
    "Load all " + NatToString(result.filesWithMatch) + " matches in " + repo
  }

  /** One repository's section: a card per file in result order, and a button only when more exist. */
  function RenderSection(cfg: RepoConfig, e: Entry): (s: Section)
    ensures s.repo == e.0
    ensures |s.cards| == |e.1.matches|
    ensures forall i :: 0 <= i < |s.cards| ==> s.cards[i].filename == e.1.matches[i].filename
    ensures s.loadMore.Some? <==> HasMore(e.1)
    ensures s.loadMore.Some? ==> s.loadMore.value == LoadMoreLabel(e.0, e.1)
  {
    var cards := seq(|e.1.matches|, i requires 0 <= i < |e.1.matches| => RenderCard(cfg, e.1.revision, e.1.matches[i]));
    Section(e.0, cards, if HasMore(e.1) then Some(LoadMoreLabel(e.0, e.1)) else None)
  }

  /** Every result repository has a configuration. */
  predicate AllConfigured(config: HoundConfig, entries: seq<Entry>) {
    forall i :: 0 <= i < |entries| ==> entries[i].0 in config
  }

  /** Being configured depends on the entries, not on their order. */
  lemma AllConfiguredPermutation(config: HoundConfig, a: seq<Entry>, b: seq<Entry>)
    requires multiset(a) == multiset(b)
    ensures AllConfigured(config, a) <==> AllConfigured(config, b)
  {
    forall i | 0 <= i < |b|
      ensures exists j :: 0 <= j < |a| && a[j] == b[i]
    {
      assert b[i] in multiset(a);
    }
    forall i | 0 <= i < |a|
      ensures exists j :: 0 <= j < |b| && b[j] == a[i]
    {
      assert a[i] in multiset(b);
    }
  }

  /**
   * `view_response_default`: a section per repository in ranked order, and the
   * same order in the side list. A repository without configuration panics,
   * so nothing is rendered.
   */
  function ViewDefault(config: HoundConfig, results: seq<Entry>): (r: Option<DefaultPage>)
    ensures r.Some? <==> AllConfigured(config, results)
    ensures r.Some? ==> |r.value.sections| == |results| == |r.value.nav|
    ensures r.Some? ==> forall i :: 0 <= i < |results| ==>
      && Rank(results)[i].0 in config
      && r.value.sections[i] == RenderSection(config[Rank(results)[i].0], Rank(results)[i])
      && r.value.nav[i] == (Rank(results)[i].0, Rank(results)[i].1.filesWithMatch)
  {
    var ranked := Rank(results);
    AllConfiguredPermutation(config, ranked, results);
    if AllConfigured(config, ranked) then
      var sections := seq(|ranked|, i requires 0 <= i < |ranked| => RenderSection(config[ranked[i].0], ranked[i]));
      var nav := seq(|ranked|, i requires 0 <= i < |ranked| => (ranked[i].0, ranked[i].1.filesWithMatch));
      Some(DefaultPage(sections, nav))
    else None
  }

  /** The default view does not depend on the hash map's iteration order. */
  lemma ViewDefaultIgnoresIterationOrder(config: HoundConfig, a: seq<Entry>, b: seq<Entry>)
    requires DistinctNames(a)
    requires multiset(a) == multiset(b)
    ensures ViewDefault(config, a) == ViewDefault(config, b)
  {
    RankIgnoresIterationOrder(a, b);
    AllConfiguredPermutation(config, a, b);
    assert |a| == |multiset(a)| == |multiset(b)| == |b|;
  }

  /** The checklist header of a repository. */
  function PhabHeader(repo: string, result: RepoResult): string {
    "[ ] " + repo + " (" + NatToString(result.filesWithMatch) + " files)"
  }

  /** The checklist line of a file: permalink, name and number of match blocks. */
  function PhabFileLine(cfg: RepoConfig, rev: string, rm: RepoMatch): string {
    FileLineText(BuildUrl(cfg, rev, rm.filename, None), rm)
  }

  /** A checklist line linking a file through `url`. */
  function FileLineText(url: string, rm: RepoMatch): string {
    "** [[" + url + "|" + rm.filename + "]] (" + NatToString(|rm.matches|) + " matches)"
  }

  /** The lines of one repository's block: the header, then one line per file in result order. */
  function PhabLines(cfg: RepoConfig, e: Entry): (r: seq<string>)
    ensures |r| == 1 + |e.1.matches|
    ensures r[0] == PhabHeader(e.0, e.1)
    ensures forall i :: 0 <= i < |e.1.matches| ==> r[i + 1] == PhabFileLine(cfg, e.1.revision, e.1.matches[i])
  {
    [PhabHeader(e.0, e.1)]
      + seq(|e.1.matches|, i requires 0 <= i < |e.1.matches| => PhabFileLine(cfg, e.1.revision, e.1.matches[i]))
  }

  /** One repository's block of text. */
  function PhabBlock(cfg: RepoConfig, e: Entry): string {
    Join(PhabLines(cfg, e), "\n")
  }

  /** Without line breaks inside the lines, a block reads back as its header and file lines. */
  lemma PhabBlockLines(cfg: RepoConfig, e: Entry)
    requires forall k :: 0 <= k < |PhabLines(cfg, e)| ==> '\n' !in PhabLines(cfg, e)[k]
    ensures Split(PhabBlock(cfg, e), "\n") == PhabLines(cfg, e)
  {
    SplitJoin(PhabLines(cfg, e), '\n');
  }

  /** A repository's block, or nothing for a repository without configuration. */
  function BlockOf(config: HoundConfig, e: Entry): string {
    if e.0 in config then PhabBlock(config[e.0], e) else ""
  }

  /** The blocks of all repositories, in iteration order. */
  function PhabBlocks(config: HoundConfig, entries: seq<Entry>): (r: seq<string>)
    requires AllConfigured(config, entries)
    ensures |r| == |entries|
    ensures forall i :: 0 <= i < |r| ==> r[i] == PhabBlock(config[entries[i].0], entries[i])
  {
    MapSeq(e => BlockOf(config, e), entries)
  }

  /**
   * `view_response_phabricator`: the blocks, sorted as strings, joined by line
   * breaks. A repository without configuration panics.
   */
  function ViewPhabricator(config: HoundConfig, entries: seq<Entry>): (r: Option<string>)
    ensures r.Some? <==> AllConfigured(config, entries)
    ensures r.Some? ==> exists blocks ::
      && SortedStrings(blocks)
      && multiset(blocks) == multiset(PhabBlocks(config, entries))
      && r.value == Join(blocks, "\n")
  {
    if AllConfigured(config, entries) then Some(Join(SortStrings(PhabBlocks(config, entries)), "\n"))
    else None
  }

  /** Permuting the entries permutes their blocks. */
  lemma PhabBlocksPermutation(config: HoundConfig, a: seq<Entry>, b: seq<Entry>)
    requires AllConfigured(config, a)
    requires multiset(a) == multiset(b)
    ensures AllConfigured(config, b)
    ensures multiset(PhabBlocks(config, a)) == multiset(PhabBlocks(config, b))
  {
    AllConfiguredPermutation(config, a, b);
    MapSeqPermutation(e => BlockOf(config, e), a, b);
  }

  /** Because the blocks are sorted, the checklist does not depend on the iteration order. */
  lemma ViewPhabricatorIgnoresIterationOrder(config: HoundConfig, a: seq<Entry>, b: seq<Entry>)
    requires multiset(a) == multiset(b)
    ensures ViewPhabricator(config, a) == ViewPhabricator(config, b)
  {
    AllConfiguredPermutation(config, a, b);
    if AllConfigured(config, a) {
      PhabBlocksPermutation(config, a, b);
      SortIgnoresOrder(PhabBlocks(config, a), PhabBlocks(config, b));
    }
  }

  /** What `view_response` renders. */
  datatype Response = NoResults | Default(page: DefaultPage) | Phabricator(text: string) | Panicked

  /**
   * `view_response`: no results is a notice whatever the format; otherwise the
   * format picks the view, and an unknown format or an unconfigured repository
   * panics.
   */
  function ViewResponse(format: string, config: HoundConfig, results: seq<Entry>): (r: Response)
    ensures |results| == 0 ==> r == NoResults
    ensures r == Panicked <==>
      && |results| > 0
      && ((format != "Default" && format != "Phabricator") || !AllConfigured(config, results))
    ensures r.Default? <==> |results| > 0 && format == "Default" && AllConfigured(config, results)
    ensures r.Default? ==> Some(r.page) == ViewDefault(config, results)
    ensures r.Phabricator? <==> |results| > 0 && format == "Phabricator" && AllConfigured(config, results)
    ensures r.Phabricator? ==> Some(r.text) == ViewPhabricator(config, results)
  {
    if |results| == 0 then NoResults
    else if format == "Default" then
      match ViewDefault(config, results)
      case Some(page) => Default(page)
      case None => Panicked
    else if format == "Phabricator" then
      match ViewPhabricator(config, results)
      case Some(text) => Phabricator(text)
      case None => Panicked
    else Panicked
  }
}

=== FILE: wrappers.dfy ===
/** Failure-compatible wrappers shared by every module of the model. */
module Wrappers {

  /** A value that may be absent: Rust's `Option`, PHP's `?T`, JS `undefined`. */
  datatype Option<+T> = None | Some(value: T) {
    function GetOr(default: T): T {
      match this
      case Some(v) => v
      case None => default
    }
  }

  /** Either a value or an error: models a thrown exception or a Rust panic. */
  datatype Result<+R, +E> = Success(value: R) | Failure(error: E) {
    predicate IsFailure() {
      Failure?
    }

    function PropagateFailure<U>(): Result<U, E>
      requires Failure?
    {
      Failure(error)
    }

    function Extract(): R
      requires Success?
    {
      value
    }
  }
}
